=== FILE: README.md ===
# Agentic commerce in Dafny

This project models the deterministic logic of the agentic-commerce demo. In that demo an AI shopping agent:

- talks to a merchant's UCP (Universal Commerce Protocol) server;
- keeps a cart;
- opens a checkout;
- pays through a UPI deep link.

A separate onboarding tool turns a merchant's CSV catalogue into a data package, and a voice assistant answers spoken questions in Indian languages.

Every network call, subprocess, file read and external service becomes a parameter: the decoded reply, the database's answer, or a service function returning `None` where the call raises. What remains is modelled as pure functions over immutable data:

| module | file | models |
|---|---|---|
| `Wrappers` | wrappers.dfy | `Option` and `Result` |
| `Json` | json.dfy | decoded JSON, with objects as ordered key/value lists (Python dicts keep insertion order), lookups, `setdefault`, `del`, truthiness |
| `Text` | text.dfy | ASCII `str.lower`, `strip`/`lstrip`/`rstrip`, `find`, `split`, `replace`, `", ".join`, Python's `int(str)` |
| `Ordering` | ordering.dfy | code-point order on strings, `sorted(set(...))`, counting |
| `Utf8` | utf8.dfy | `str.encode("utf-8")` and its inverse |
| `Template` | template.dfy | `{{NAME}}` templates as literal text and holes, and `str.replace` on them |
| `Payment` | payment.dfy | `generate_upi_link`: exact two-decimal amounts, `urllib.parse.quote`, the `upi://pay?` layout |
| `Client` | client.dfy | the shopping agent's tools in `mcp_client.py`: cart, checkout, payment confirmation, category browsing |
| `Products` | products.dfy | the product routes: catalogue loading, the id index, listing with enrichment and category filter, lookup by id |
| `Discovery` | discovery.dfy | the `/.well-known/ucp` profile: placeholder substitution, then reshaping of the parsed profile |
| `Onboard` | onboard.dfy | `onboard_merchant.py`: column checks, `products.csv`, `inventory.csv`, `catalogue.json`, the profile template |
| `Backend` | backend.dfy | the web backend's `slugify` and its upload checks |
| `Translate` | translate.dfy | `translate.py`'s chunker and the `en-IN` short cut, with the translation API as a parameter |
| `Voice` | voice.dfy | the voice app: the bounded one-shot audio store, data-URI parsing, language fallbacks, the pipeline |

The cart and the checkout session live in the agent (`mcp_client.py`), and payment is a UPI link plus a `/complete` call. Two behaviours of the code worth knowing:

- `update_cart` on a product not in the cart returns an error. It is not a no-op.
- Confirming a payment does not check the reference it is given.

## Model

| member | source | states |
|---|---|---|
| Client.FindLine | mcp_client.py:204-205 | the first cart line holding the product, and none exactly when no line holds it |
| Client.ViewCart | mcp_client.py:218-234 | one item per line in cart order; the total is the sum of price times quantity; an empty cart shows no items and total 0 |
| Client.AddLine | mcp_client.py:204-213 | a product already in the cart gets its quantity raised on its own line (title and price kept, other lines untouched); a new product is appended as one line at the end |
| Client.AddToCart | mcp_client.py:190-214 | no merchant, quantity below 1 and a failed lookup are errors that leave the session unchanged; success shows the new cart; only the cart changes |
| Client.AddLineTotal | mcp_client.py:204-213 | adding raises the cart total by price times the added quantity |
| Client.AddKeepsWellFormed | mcp_client.py:195-213 | product ids stay unique and quantities stay at least 1, given the server returns the product asked for |
| Client.UpdateCart | mcp_client.py:238-247 | succeeds exactly when the product is in the cart; an absent product is an error with the cart unchanged; quantity ≤ 0 removes that line, otherwise sets it; other lines keep their order |
| Client.UpdateKeepsWellFormed | mcp_client.py:240-246 | update keeps ids unique and quantities at least 1 |
| Client.RemoveFromCart | mcp_client.py:251-253 | removing is the update to 0: the line goes, the total drops by its line total, the reply is the new cart's view, and nothing but the cart changes |
| Client.RemoveDropsProduct | mcp_client.py:251-253 | removing a product from a well-formed cart leaves no line holding it |
| Client.Iterate | mcp_client.py:116 | iterating a JSON value succeeds exactly for lists and falsy stand-ins and yields their elements |
| Client.FirstTotal | mcp_client.py:330-335 | the amount of the first entry whose type is "total", 0 when there is none, an error only where Python would raise |
| Client.HandlersValue | mcp_client.py:336 | the profile's payment handlers, `[]` without a payment entry, an error when payment is not a dict |
| Client.PayeeLoop | mcp_client.py:337-342 | VPA and payee name come from the last upi handler with a dict config that carries them, else the defaults |
| Client.OrderRef | mcp_client.py:343 | the session id when truthy, else "order" |
| Client.LinesOfLineItems | mcp_client.py:260-266 | the payload's line items read back to exactly the cart |
| Client.PayloadContents | mcp_client.py:296-305 | the request body orders exactly the cart, offers exactly the handlers, in INR |
| Client.BuildCreatePayload | mcp_client.py:256-305 | the payload orders the cart and offers the profile's handlers, or the default upi handler when there are none |
| Client.CheckoutDetails | mcp_client.py:329-344 | succeeds exactly when the totals are a list of total objects, the profile's handlers are a list of objects whose last `vpa` and `merchant_name` settings are strings, and the id renders; the result is the reply's id, its first total, the last upi handler's payee, and the UPI link built from them |
| Client.RequireMerchant | mcp_client.py:31-52 | no base URL is the only error; a connected session without a profile adopts a successfully discovered one, and nothing else changes |
| Client.DiscoveredProfileSticks | mcp_client.py:31-41 | once a profile is held, later discoveries leave the session as it is |
| Client.Checkout | mcp_client.py:309-353 | no merchant and an empty cart are errors; discovery may set the profile first; the cart is never changed; with a merchant, a non-empty cart, a buildable payload and a reply, the reply's id becomes the checkout session and the result is exactly the details read from that reply and the profile held after discovery |
| Client.CredentialToken | mcp_client.py:374 | the reference when given, else a non-empty default |
| Client.ConfirmPayment | mcp_client.py:357-404 | no merchant or no checkout is an error with nothing changed; a failed request is an error; with a reply it succeeds exactly when an order id or the session id can be read from it; success empties the cart, clears the session and returns that id |
| Client.ConfirmEndsOrder | mcp_client.py:363-398 | after a confirmed order a new checkout finds the cart empty and a second confirmation finds no checkout |
| Client.CategoryOf | mcp_client.py:117 | a truthy string category is itself, a missing or falsy one is "general", and the product fails exactly when it is not a dict or its category is truthy but not a string |
| Client.CategoriesOf | mcp_client.py:116-118 | one category per product, in order |
| Client.CategoryCounts | mcp_client.py:115-119 | category names sorted and distinct, exactly the categories seen, each with its number of products |
| Client.CategoryCountsSum | mcp_client.py:115-119 | the counts add up to the number of products |
| Client.BrowseCategories | mcp_client.py:102-120 | no merchant or a failed catalogue fetch is an error; with a catalogue it succeeds exactly when its products iterate and each category reads; the result is the sorted distinct categories, each with its number of products, counts summing to the number of products |
| Payment.QuoteIsEncoded | payment.py:32-33 | quoted text holds only unreserved characters, `/` and `%XX` triplets |
| Payment.UnquoteQuote | payment.py:32 | percent-decoding then UTF-8 decoding the quoted name gives back the name |
| Utf8.DecodeEncode | payment.py:32 | UTF-8 decoding undoes the encoding `quote` applies first |
| Utf8.DecodeTwo | payment.py:32 | a two-byte encoding decodes back to its character and consumes two bytes |
| Utf8.DecodeThree | payment.py:32 | a three-byte encoding decodes back to its character and consumes three bytes |
| Utf8.DecodeFour | payment.py:32 | a four-byte encoding decodes back to its character and consumes four bytes |
| Utf8.OverlongRefused | payment.py:32 | an overlong two-byte form of NUL does not decode, as Python's strict decoder refuses it |
| Payment.QuoteSafeText | payment.py:32 | text made of safe characters, such as "Merchant", is emitted unchanged |
| Payment.EncodedExcludes | payment.py:32-35 | quoted text never holds `&` or `=`, so it cannot split the query |
| Payment.ParseDigits | payment.py:29-31 | digits, a point and two digits read back as the value they spell |
| Payment.ParseFormatAmount | payment.py:29-31 | reading the `am` string back gives exactly the paise charged |
| Payment.AmountExamples | payment.py:29-31 | 100000 paise is "1000.00" and 5 paise is "0.05" |
| Payment.TransactionNote | payment.py:33 | the note when given and non-empty, else "Order_" followed by the order id |
| Payment.LinkIsJoin | payment.py:34-36 | the link is `upi://pay?` followed by its five fields joined with `&` |
| Payment.UpiLinkFields | payment.py:10-36 | split on `&`, the link gives the VPA unencoded, the quoted name, the amount, `cu=INR` and the quoted note, each of which reads back |
| Products.LoadCatalogue | rest/python/server/routes/products.py:42-49 | no file gives none; a list is the catalogue; a dict gives its "products" or `[]` |
| Products.IndexEntries | rest/python/server/routes/products.py:57 | the comprehension fails exactly when some entry is not a dict or has a truthy list or dict id, as Python raises there |
| Products.IndexEntriesKeys | rest/python/server/routes/products.py:57 | the index's keys are exactly the entries' non-empty string ids |
| Products.IndexEntriesLastWins | rest/python/server/routes/products.py:57 | an id is filed with the last entry that carries it |
| Products.CatalogueById | rest/python/server/routes/products.py:52-57 | a missing or empty catalogue gives the empty index; a non-iterable one is malformed; otherwise the index is the comprehension over its entries; keys are never empty |
| Products.IndexLastWins | rest/python/server/routes/products.py:57 | of two entries with the same id the later one is kept |
| Products.EffectiveLimit | rest/python/server/routes/products.py:68-69 | the limit capped at 100, with no lower clamp |
| Products.Rows | rest/python/server/routes/products.py:72-90 | never more rows than products; without a category filter, one row per product |
| Products.RowsContents | rest/python/server/routes/products.py:72-90 | exactly the kept products' rows; without a category filter, one row per database product in order |
| Products.RowsCons | rest/python/server/routes/products.py:73-90 | one loop step: the head's row, when the filter keeps it, goes before the rows of the rest |
| Products.RowsAppend | rest/python/server/routes/products.py:73-90 | the listing keeps database order and multiplicity: the rows of a concatenation are the concatenated rows |
| Products.RowsSingle | rest/python/server/routes/products.py:73-90 | one product gives its row exactly when the filter keeps it, and nothing otherwise |
| Products.ListProducts | rest/python/server/routes/products.py:60-91 | the rows of the database's answer for the capped limit, and a count equal to their number |
| Products.RowKeepsDbFields | rest/python/server/routes/products.py:74-87 | the database's four fields are never overwritten; a product not in the catalogue has only them |
| Products.BaseLookups | rest/python/server/routes/products.py:74-79 | the base row carries id, title, price and image_url and no catalogue keys |
| Products.GetProduct | rest/python/server/routes/products.py:94-117 | an unknown id is not-found; a found product starts with the database's fields and, when catalogued, carries `gi_tag` |
| Products.GetProductExtendsRow | rest/python/server/routes/products.py:74-87 | a product's details are its listing row, followed by `gi_tag` when it is catalogued |
| Products.ListedProductFetches | rest/python/server/routes/products.py:60-117 | every product of an unfiltered listing can be fetched by id, and its details begin with the listed row |
| Products.GetCatalogue | rest/python/server/routes/products.py:120-129 | no file, or a dict whose `"products"` is `null`, is not-found; a list is served with its length; a served catalogue is what loading gives, with `len()` of it |
| Products.GetCatalogueCases | rest/python/server/routes/products.py:42-49 | read from the file itself: not-found exactly for no file or a `null` `"products"`, and served exactly for a list or a dict whose `"products"` has a length |
| Products.ServedCatalogueIsIndexed | rest/python/server/routes/products.py:52-57 | when the served catalogue is a list, the product index's keys are exactly its entries' ids |
| Discovery.StripTrailingSlashes | rest/python/server/routes/discovery.py:61 | the longest prefix not ending in `/`, with only slashes removed |
| Discovery.GuardedIsReplace | rest/python/server/routes/discovery.py:60-69 | the `in` guard never changes the result of a replacement |
| Template.ReplaceRender | rest/python/server/routes/discovery.py:60-69 | replacing `{{name}}` in a rendered template fills exactly that hole |
| Discovery.FillStep | rest/python/server/routes/discovery.py:60-69 | one guarded replacement fills one hole and keeps the template well formed |
| Discovery.FillFive | rest/python/server/routes/discovery.py:60-69 | five guarded replacements in a row fill exactly the five holes named |
| Discovery.FillProfileFillsHoles | rest/python/server/routes/discovery.py:53-69 | the five placeholders are filled with the request's base URL, the shop id and the environment values or their defaults; no other hole changes |
| Json.SetDefault | rest/python/server/routes/discovery.py:82-86 | `setdefault` keeps an existing value, adds a missing one, and changes nothing else |
| Json.Restrict | rest/python/server/routes/discovery.py:74-76 | exactly the listed keys survive, with their values |
| Discovery.DefaultHandler | rest/python/server/routes/discovery.py:82-86 | a handler gets `config_schema` and `instrument_schemas` when missing; existing values and other keys are kept |
| Discovery.DefaultHandlers | rest/python/server/routes/discovery.py:81-86 | every handler defaulted in order; a non-dict handler is an error |
| Discovery.MoveCapabilities | rest/python/server/routes/discovery.py:78-79 | with both present, `capabilities` moves under `ucp` and leaves the top level; otherwise nothing changes |
| Discovery.CompleteHandlers | rest/python/server/routes/discovery.py:80-86 | the same keys, only `payment` changes, and every handler is complete |
| Discovery.CompleteHandlersAccepted | rest/python/server/routes/discovery.py:80-86 | the handler loop fails exactly when `payment` is present but not a dict, or its `handlers` are truthy but not a list of dicts |
| Discovery.ReshapeAccepted | rest/python/server/routes/discovery.py:72-86 | the reshaping succeeds exactly when `ucp` is a dict wherever capabilities must move under it and the payment entry is accepted |
| Discovery.Normalize | rest/python/server/routes/discovery.py:71-92 | a non-object profile is an error; a profile succeeds exactly when it is an object of accepted shape; a non-dict `ucp` next to `capabilities` is that error; success yields an object |
| Discovery.NormalizeKeys | rest/python/server/routes/discovery.py:72-90 | only `ucp`, `capabilities`, `payment` and `merchant` survive |
| Discovery.PutBackKey | rest/python/server/routes/discovery.py:87-89 | `merchant` is present exactly when the popped value was truthy, and then holds it |
| Discovery.NormalizeMerchant | rest/python/server/routes/discovery.py:73-90 | `merchant` comes back unchanged exactly when it was present and truthy |
| Discovery.NormalizeCapabilities | rest/python/server/routes/discovery.py:77-79 | the capabilities end up under `ucp` when both are present, and are untouched otherwise |
| Discovery.NormalizeHandlers | rest/python/server/routes/discovery.py:80-86 | every handler gets both required fields, in the same number and order |
| Onboard.LastIndex | onboard_merchant.py:79-91 | the last header column with the name, as the CSV reader maps it |
| Onboard.CellOf | onboard_merchant.py:79-91 | a cell is absent exactly when its column is not in the header; otherwise it is the row's cell under the last column of that name, or missing when the row is too short |
| Onboard.DataRows | onboard_merchant.py:90-91 | exactly the non-blank rows are data rows, each as often as it occurs |
| Onboard.DataRowsAppend | onboard_merchant.py:90-91 | data rows are an order-preserving filter: the rows of a concatenation are the concatenated rows, and one row is kept exactly when it is not blank |
| Onboard.InventoryQuantity | onboard_merchant.py:115-120 | an integer cell is kept, a missing column or a non-integer gives "100", and a short row fails as Python does |
| Onboard.InventoryQuantityParses | onboard_merchant.py:115-121 | every written quantity parses as an integer |
| Onboard.InventoryRow | onboard_merchant.py:115-121 | the row is the record's id cell and the quantity chosen for it, and fails exactly when that quantity does |
| Onboard.InventoryRowsAll | onboard_merchant.py:110-121 | one inventory row per data row, in order, unless one fails |
| Onboard.OptionalFields | onboard_merchant.py:140-147 | an optional key is present exactly when its cell is non-empty, holding that text |
| Onboard.RecordKeys | onboard_merchant.py:134-139 | the entry holds id, title, price and image_url, and no keys beyond those and the optional ones |
| Onboard.Entry | onboard_merchant.py:133-148 | an entry is built exactly when the price parses as an integer |
| Onboard.EntryShape | onboard_merchant.py:133-148 | the entry holds the row's id, title, integer price and image_url; an optional key exactly when filled; nothing else |
| Onboard.EntriesAll | onboard_merchant.py:131-148 | one catalogue entry per data row, in order, unless a price fails to parse |
| Onboard.Categories | onboard_merchant.py:161-164 | exactly the non-empty category cells of the data rows |
| Ordering.SortedUnique | onboard_merchant.py:165 | strictly sorted and holding exactly the given strings |
| Onboard.CategoryText | onboard_merchant.py:165 | the sorted distinct categories joined with ", ", or "general" when there are none; never empty |
| Onboard.RenderProfileKeepsServerHoles | onboard_merchant.py:167-172 | name, VPA and categories are filled, and every other hole, `{{ENDPOINT}}` and `{{SHOP_ID}}` included, is kept |
| Onboard.Onboard | onboard_merchant.py:78-172 | missing required columns and no data rows are rejected; otherwise a package is produced exactly when every inventory row and every catalogue entry builds, an inventory failure is reported as such and a price failure otherwise; a package holds one products.csv row per data row in order, the inventory and catalogue built per row, and the profile when the template exists |
| Onboard.InventoryRowsParse | onboard_merchant.py:110-121 | every inventory row has two cells and its quantity parses as an integer |
| Onboard.OnboardCatalogue | onboard_merchant.py:131-148 | catalogue entry i of a successful run is the entry of data row i |
| Text.PyInt | onboard_merchant.py:117-120 | `int(s)` succeeds exactly on optionally signed ASCII digit groups with single underscores between them, surrounded by whitespace |
| Text.PyIntOfDigits | onboard_merchant.py:116-120 | a plain run of digits parses as the number it spells |
| Text.PyIntOfNatToString | onboard_merchant.py:116-120 | the default quantity's text parses back to its value |
| Backend.KeepAllowed | web/backend/main.py:42 | only word characters, whitespace and `-` remain; input made of them is kept |
| Backend.CollapseShape | web/backend/main.py:43 | no whitespace and no doubled `-` remain; a leading `-` comes only from a leading separator |
| Backend.CollapseChars | web/backend/main.py:43 | collapsing leaves only lower-case word characters and `-` |
| Backend.StripDashes | web/backend/main.py:43 | no `-` at either end, and the result is a piece of the input |
| Backend.StripDashesSlug | web/backend/main.py:43 | stripping a collapsed slug gives a slug or nothing |
| Backend.Slugify | web/backend/main.py:40-44 | the slug is non-empty, uses only lower-case word characters and `-`, and has no `-` at either end or twice in a row |
| Backend.FallbackIsSlug | web/backend/main.py:44 | the fallback "merchant" is a slug |
| Backend.SlugifyIdempotentOnSlugs | web/backend/main.py:40-44 | a slug is its own slug |
| Backend.SlugifyIdempotent | web/backend/main.py:40-44 | slugifying twice equals slugifying once |
| Backend.SlugifyExample | web/backend/main.py:41 | "Artisan India" becomes "artisan-india" |
| Backend.SlugifyFallbackExample | web/backend/main.py:44 | a name with no word characters falls back to "merchant" |
| Backend.Suffix | web/backend/main.py:66 | the final component's extension, dot included, or empty when it has none or is a leading-dot name |
| Backend.CheckUpload | web/backend/main.py:66-75 | a lower-cased suffix other than .csv/.xlsx is rejected first, then empty content; otherwise the format follows the suffix |
| Backend.UploadUpperCaseExtension | web/backend/main.py:66-67 | "stock.CSV" is accepted as CSV |
| Backend.UploadHiddenName | web/backend/main.py:66-67 | ".csv" has no suffix and is rejected |
| Backend.UploadEmpty | web/backend/main.py:73-75 | an empty workbook upload is rejected as empty |
| Translate.LastSpaceBefore | sarvam/modules/translate.py:15 | the last space before the bound, or none when there is no space there |
| Translate.SplitIndex | sarvam/modules/translate.py:15-17 | the cut is at the last space before the limit, or a hard cut at the limit when there is none |
| Translate.Remainder | sarvam/modules/translate.py:19 | the text left after a cut is strictly shorter, so chunking ends |
| Translate.ChunksBounded | sarvam/modules/translate.py:11-22 | every chunk fits the limit and has no whitespace at either end |
| Translate.ShortText | sarvam/modules/translate.py:14-21 | text within the limit is one stripped chunk, or none when blank |
| Text.StripEmptyIffBlank | sarvam/modules/translate.py:20-21 | `strip` gives the empty string exactly on blank text |
| Translate.ChunksKeepNonSpace | sarvam/modules/translate.py:11-22 | chunking only drops whitespace: the other characters reach the chunks, in order |
| Translate.LeadingSpaceGivesEmptyChunk | sarvam/modules/translate.py:15-18 | an over-long text starting with a space whose first word reaches the limit gets an empty first chunk |
| Translate.TranslateAll | sarvam/modules/translate.py:66-69 | one call per chunk, in order; it succeeds exactly when every call does |
| Translate.ToEnglish | sarvam/modules/translate.py:57-70 | `en-IN` text is returned as is; otherwise the chunk translations joined with single spaces |
| Translate.FromEnglish | sarvam/modules/translate.py:73-86 | a target of `en-IN` returns the text as is; otherwise the chunk translations joined with single spaces |
| Translate.IdentityServiceShortText | sarvam/modules/translate.py:57-70 | with a service that echoes, a short stripped text comes back unchanged |
| Translate.JoinKeepsNonSpace | sarvam/modules/translate.py:70 | joining the translations with single spaces adds only whitespace to their concatenation |
| Translate.EchoKeepsChunks | sarvam/modules/translate.py:66-69 | with a service that echoes, every call succeeds and the translations are the chunks |
| Translate.EchoToEnglishKeepsNonSpace | sarvam/modules/translate.py:57-70 | for every text and source language, translating with an echoing service succeeds and keeps every non-whitespace character, in order |
| Translate.EchoFromEnglishKeepsNonSpace | sarvam/modules/translate.py:73-86 | for every text and target language, translating with an echoing service succeeds and keeps every non-whitespace character, in order |
| Voice.Lookup | sarvam/app.py:154 | the stored data URI, present exactly when the id is stored |
| Voice.Put | sarvam/app.py:135 | a new id is appended at the end; storing an existing id keeps the store's size |
| Voice.PutLookup | sarvam/app.py:135 | afterwards the id finds the new URI, every other id finds what it found before, and only the id may be new |
| Voice.Insert | sarvam/app.py:135-140 | after an insert the store holds at most 100 entries; the oldest goes when it would exceed that |
| Voice.InsertFresh | sarvam/app.py:135-140 | a fresh id is appended and, in a full store, exactly the oldest entry is evicted; the new entry can be fetched |
| Voice.Pop | sarvam/app.py:154 | popping returns what lookup finds, adds no ids, leaves every other id's entry as it was, and changes nothing when the id is absent; when it was there, exactly one entry goes |
| Voice.PopRemoves | sarvam/app.py:154 | after a pop the id is gone and ids stay unique |
| Voice.PopTwice | sarvam/app.py:154-166 | a second fetch of the same id finds nothing |
| Voice.EmptyStoreInvariant | sarvam/app.py:18 | the store starts as an empty dict, within its bound |
| Voice.PutKeepsUnique | sarvam/app.py:135 | assigning a key keeps one entry per id, whichever id is stored |
| Voice.InsertKeepsInvariant | sarvam/app.py:135-140 | storing speech keeps one entry per id and at most 100 entries |
| Voice.PopKeepsInvariant | sarvam/app.py:154 | `pop` keeps one entry per id and the bound, removing exactly one entry when the id was there |
| Voice.MimeType | sarvam/app.py:160 | the media type never contains `;` |
| Voice.ParseDataUri | sarvam/app.py:158-160 | the payload is everything after the first comma |
| Voice.GetAudio | sarvam/app.py:151-166 | the entry is always removed; not-found exactly when it was absent or empty; a stored entry that parses and decodes is served with its type and bytes, and otherwise is a processing error |
| Voice.GetAudioKeepsInvariant | sarvam/app.py:151-166 | serving audio keeps the store a bounded dict |
| Voice.GetAudioTwice | sarvam/app.py:151-166 | on any store the server builds, a second request for the same id is a 404 |
| Voice.FetchStored | sarvam/app.py:151-163 | a stored, parseable URI is served with its type and decoded payload, and is a processing error only when decoding fails |
| Voice.FetchInserted | sarvam/app.py:135-163 | freshly inserted speech is served as "audio/wav" with its decoded bytes, unless decoding fails |
| Voice.MimeTypeOf | sarvam/app.py:160 | the type is the text between the first `:` and the first `;` |
| Voice.WavHeaderMimeType | sarvam/app.py:135-160 | the stored WAV header yields "audio/wav" |
| Voice.WavUriRoundTrip | sarvam/app.py:135-160 | a stored WAV data URI parses back to "audio/wav" and its payload |
| Voice.LanguageName | sarvam/app.py:101 | the mapped name for known codes, otherwise the code itself |
| Voice.Language | sarvam/app.py:91-98 | a failed identification or missing field gives `hi-IN` and `Deva` |
| Voice.LanguageNameHindi | sarvam/app.py:26-50 | only `hi-IN` (and the unknown code "Hindi" itself) is reported as "Hindi" |
| Voice.LidFailureMeansHindi | sarvam/app.py:89-101 | when identification fails or gives no language, a successful run reports `hi-IN` named "Hindi", and a failed call also gives `Deva` |
| Voice.Process | sarvam/app.py:58-148 | an empty transcript, and only that, is the no-transcript error; a failed transcription is a pipeline failure; a non-empty transcript succeeds exactly when the chat and speech services answer; translation failures fall back to the untranslated text; an audio id exists exactly when speech audio is non-empty and is stored; errors leave the store unchanged |
| Voice.ProcessKeepsInvariant | sarvam/app.py:131-140 | processing a request keeps the store a bounded dict, whatever id is drawn |
| Voice.ProcessThenFetch | sarvam/app.py:132-166 | the audio a pipeline run stores is served as "audio/wav" with the decoded speech, or is a processing error when it does not decode |

## Left out

- HTTP, FastAPI/Flask routing, httpx calls, the database, file reads and writes, and subprocesses: their results are parameters of the model.
- `discover_merchant`, `search_products` and `get_product` in `mcp_client.py`: each is a single HTTP call plus a reshaping of its reply. They hold no state or arithmetic worth proving beyond what the product routes already state.
- `price_rs = price / 100` in the client is a float for display. It is not modelled.
- `generate_qr_base64`, base64 encoding and decoding, UUID generation, `xlsx_to_csv_bytes`, the translation, speech, language-identification and chat services, and `_call_translate_api`: external libraries or services. They become parameters (`decode`, `freshId`, `Service`, `Services`).
- Payment.FormatAmount: computed exactly in integers. Python formats the float `amount_paise / 100`, which agrees for amounts below 2^52 paise; larger amounts are not modelled.
- Client.OrderRef: the session id goes into the link through `str()`. Strings, integers and booleans are rendered as Python renders them; any other truthy id (a float, a list, a dict) is treated as malformed.
- Client.CategoryOf: a truthy category that is not a string (a number, say) is treated as malformed, where Python counts it under that value.
- Client.AddToCart, Client.ConfirmPayment and Client.BrowseCategories: `_require_merchant` may also store an auto-discovered profile in these tools. They do not read the profile, and the model keeps it unchanged there; `Client.Checkout`, the tool that reads it, models the discovery through `Client.RequireMerchant`.
- Client.RequireMerchant: a discovery reply that is not a JSON object is not modelled.
- Client.CheckoutDetails: a VPA or payee name that is not a string is treated as a malformed profile, where Python would format it into the link.
- Client.AddKeepsWellFormed: the cart uses the id from the server's reply, not the requested one. Uniqueness is proved assuming the server returns the product it was asked for.
- JSON numbers are integers only. Floats are not modelled: a float `amount` in a checkout's `totals` would be formatted by Python's float arithmetic in `generate_upi_link`, and the model has no such value.
- Client.AddToCart: the product lookup is an `Option<Product>`, so a reply that is not an object, lacks `title` or `price`, or has a non-integer price is not modelled; Python raises `KeyError` at mcp_client.py:209-211 or `TypeError` at mcp_client.py:225 there, and ignores the reply entirely when the product is already in the cart.
- Client.Checkout and Client.ConfirmPayment: the reply is an `Option<Fields>`, so a reply that is not a JSON object is not modelled; Python raises `AttributeError` on `.get` at mcp_client.py:329 and mcp_client.py:391.
- Other malformed parts of a JSON object reply (a non-list `totals`, a non-object handler, an id that does not render) are modelled as `Malformed` errors rather than Python exceptions.
- Text.PyInt: only ASCII digits are accepted, where Python's `int` also accepts other Unicode decimal digits (Devanagari or full-width ones, say). So Onboard.InventoryQuantity falls back to the default quantity, and Onboard.Entry and Onboard.Onboard reject a price, for such text, where Python would parse it.
- Backend.Slugify: requires ASCII input, because Unicode `\w` and Unicode lower-casing are not modelled.
- Text.Lower: lower-cases ASCII letters only; `Text.Strip` and its relatives treat only ASCII whitespace as whitespace.
- Backend.Suffix: `.` and `..` path components are not modelled.
  - Its lower-casing is ASCII only.
  - For the .csv/.xlsx membership test this is exact: the only non-ASCII characters that lower-case into ASCII are U+212A and U+0130, which do not produce c, s, v, x or l.
- Voice.Language: language-ID replies whose fields are not strings are not modelled.
- Voice.Process: on a pipeline failure the source answers 500 together with the partial results. The model keeps only the failure and the untouched store.
- Voice.GetAudio: the source decodes the base64 payload before parsing the media type. The model parses first, but either failure gives the same processing error.
- Onboard.Onboard:
  - an inventory-cell failure is reported before a price failure, as in the source, which writes `inventory.csv` (lines 110-121) before building `catalogue.json` (lines 131-148); the files already written when a step fails are not modelled;
  - the fixed `shipping_rates.csv` table and the `import_csv` subprocess are not modelled.
- `rest/python/server/generated_routes/ucp_routes.py` holds only stubs that return `{}`, so there is no server-side checkout or payment logic to model.
- `rest/python/server/config.py` and `rest/python/server/dump_log.py` are configuration and logging plumbing and are not part of this model.
- `sarvam/modules/llm.py` is a chat-service call and becomes the `complete` parameter.
- Module-level globals (`_cart`, `_checkout_session_id`, `temp_audio_store`) are treated as one sequential state record. Concurrent requests are not modelled.

=== FILE: backend.dfy ===
/** The onboarding web service (`web/backend/main.py`): the slug that names
    a merchant's output directory, and the checks an upload passes before
    the onboarding script runs. */
module Backend {
  import opened Wrappers
  import opened Text

  // ---- slugify ----

  /** `\w` on ASCII: letters, digits and the underscore. */
  predicate IsWord(c: char) {
    IsLower(c) || IsUpper(c) || IsDigit(c) || c == '_'
  }

  /** `[-\s]` */
  predicate IsSep(c: char) {
    c == '-' || IsSpace(c)
  }

  /** What may be left after lower-casing and filtering. */
  predicate Allowed(c: char) {
    (IsWord(c) || IsSep(c)) && !IsUpper(c)
  }

  /** What a slug is made of. */
  predicate SlugChar(c: char) {
    (IsWord(c) && !IsUpper(c)) || c == '-'
  }

  /** `re.sub(r"[^\w\s-]", "", s)` */
  function KeepAllowed(s: string): (r: string)
    ensures |r| <= |s|
    ensures forall i :: 0 <= i < |r| ==> IsWord(r[i]) || IsSep(r[i])
    ensures (forall i :: 0 <= i < |s| ==> !IsUpper(s[i])) ==> forall i :: 0 <= i < |r| ==> Allowed(r[i])
    ensures (forall i :: 0 <= i < |s| ==> IsWord(s[i]) || IsSep(s[i])) ==> r == s
  {
    if |s| == 0 then []
    else
      var t := KeepAllowed(s[1..]);
      assert forall i :: 1 <= i < |s| ==> s[i] == s[1..][i - 1];
      if IsWord(s[0]) || IsSep(s[0]) then
        var r := [s[0]] + t;
        assert forall i :: 1 <= i < |r| ==> r[i] == t[i - 1];
        r
      else t
  }

  /** Drops the separators at the front. */
  function DropSeps(s: string): (r: string)
    ensures |r| <= |s| && r == s[|s| - |r|..]
    ensures r == [] || !IsSep(r[0])
  {
    if |s| > 0 && IsSep(s[0]) then DropSeps(s[1..]) else s
  }

  /** `re.sub(r"[-\s]+", "-", s)`: every run of separators becomes one
      dash. */
  function Collapse(s: string): string
    decreases |s|
  {
    if |s| == 0 then []
    else if IsSep(s[0]) then "-" + Collapse(DropSeps(s[1..]))
    else [s[0]] + Collapse(s[1..])
  }

  /** No whitespace and no dash twice in a row. */
  predicate Collapsed(r: string) {
    && (forall i :: 0 <= i < |r| ==> !IsSpace(r[i]))
    && (forall i :: 0 <= i < |r| - 1 ==> !(r[i] == '-' && r[i + 1] == '-'))
  }

  lemma ConsCollapsed(c: char, t: string)
    requires Collapsed(t) && !IsSpace(c)
    requires c == '-' ==> t == [] || t[0] != '-'
    ensures Collapsed([c] + t)
  {
    var r := [c] + t;
    assert forall i :: 1 <= i < |r| ==> r[i] == t[i - 1];
  }

  /** No whitespace and no doubled dash survive; a leading dash comes only
      from a leading separator. */
  lemma {:induction false} CollapseShape(s: string)
    ensures Collapsed(Collapse(s))
    ensures |Collapse(s)| > 0 && Collapse(s)[0] == '-' ==> |s| > 0 && IsSep(s[0])
    decreases |s|
  {
    if |s| > 0 {
      if IsSep(s[0]) {
        var d := DropSeps(s[1..]);
        CollapseShape(d);
        ConsCollapsed('-', Collapse(d));
        assert "-" + Collapse(d) == ['-'] + Collapse(d);
      } else {
        CollapseShape(s[1..]);
        ConsCollapsed(s[0], Collapse(s[1..]));
      }
    }
  }

  /** Only lower-case word characters and dashes. */
  predicate SlugChars(r: string) {
    forall i :: 0 <= i < |r| ==> SlugChar(r[i])
  }

  lemma ConsSlugChars(c: char, t: string)
    requires SlugChar(c) && SlugChars(t)
    ensures SlugChars([c] + t)
  {
    var r := [c] + t;
    assert forall i :: 1 <= i < |r| ==> r[i] == t[i - 1];
  }

  lemma AllowedSuffix(s: string, k: nat)
    requires k <= |s| && forall i :: 0 <= i < |s| ==> Allowed(s[i])
    ensures forall i :: 0 <= i < |s[k..]| ==> Allowed(s[k..][i])
  {
    assert forall i :: 0 <= i < |s[k..]| ==> s[k..][i] == s[k + i];
  }

  /** Collapsing lower-case allowed text leaves only slug characters. */
  lemma {:induction false} CollapseChars(s: string)
    requires forall i :: 0 <= i < |s| ==> Allowed(s[i])
    ensures SlugChars(Collapse(s))
    decreases |s|
  {
    if |s| > 0 {
      AllowedSuffix(s, 1);
      if IsSep(s[0]) {
        var d := DropSeps(s[1..]);
        AllowedSuffix(s[1..], |s[1..]| - |d|);
        CollapseChars(d);
        ConsSlugChars('-', Collapse(d));
        assert "-" + Collapse(d) == ['-'] + Collapse(d);
      } else {
        CollapseChars(s[1..]);
        ConsSlugChars(s[0], Collapse(s[1..]));
      }
    }
  }

  /** `s.lstrip("-")` and `s.rstrip("-")` */
  function LStripDashes(s: string): (r: string)
    ensures |r| <= |s| && r == s[|s| - |r|..]
    ensures r == [] || r[0] != '-'
  {
    if |s| > 0 && s[0] == '-' then LStripDashes(s[1..]) else s
  }

  function RStripDashes(s: string): (r: string)
    ensures |r| <= |s| && r == s[..|r|]
    ensures r == [] || r[|r| - 1] != '-'
  {
    if |s| > 0 && s[|s| - 1] == '-' then RStripDashes(s[..|s| - 1]) else s
  }

  /** `s.strip("-")`: a stretch of `s` with no dash at either end. */
  function StripDashes(s: string): (r: string)
    ensures r == [] || (r[0] != '-' && r[|r| - 1] != '-')
    ensures var k := |s| - |LStripDashes(s)|;
      k + |r| <= |s| && forall i :: 0 <= i < |r| ==> r[i] == s[k + i]
  {
    RStripDashes(LStripDashes(s))
  }

  lemma StripDashesKeeps(s: string)
    requires |s| == 0 || (s[0] != '-' && s[|s| - 1] != '-')
    ensures StripDashes(s) == s
  {
  }

  const FallbackSlug: string := "merchant"

  /** A directory name as `slugify` produces it: lower-case word characters
      in groups joined by single dashes. */
  predicate IsSlug(s: string) {
    && |s| > 0
    && (forall i :: 0 <= i < |s| ==> SlugChar(s[i]))
    && s[0] != '-' && s[|s| - 1] != '-'
    && (forall i :: 0 <= i < |s| - 1 ==> !(s[i] == '-' && s[i + 1] == '-'))
  }

  /** Stripping the end dashes of a text of slug characters with no double
      dash leaves a slug, or nothing. */
  lemma StripDashesSlug(s: string)
    requires forall i :: 0 <= i < |s| ==> SlugChar(s[i])
    requires forall i :: 0 <= i < |s| - 1 ==> !(s[i] == '-' && s[i + 1] == '-')
    ensures StripDashes(s) == [] || IsSlug(StripDashes(s))
  {
    var r := StripDashes(s);
    var k := |s| - |LStripDashes(s)|;
    forall i | 0 <= i < |r| - 1 ensures !(r[i] == '-' && r[i + 1] == '-') {
      assert r[i] == s[k + i];
      assert r[i + 1] == s[k + i + 1];
    }
    forall i | 0 <= i < |r| ensures SlugChar(r[i]) {
      assert r[i] == s[k + i];
    }
  }

  lemma FallbackIsSlug()
    ensures IsSlug(FallbackSlug)
  {
    var f := FallbackSlug;
    assert f == ['m', 'e', 'r', 'c', 'h', 'a', 'n', 't'];
    assert forall i :: 0 <= i < |f| ==> IsLower(f[i]);
  }

  lemma LowerHasNoUpper(s: string)
    ensures forall i :: 0 <= i < |Lower(s)| ==> !IsUpper(Lower(s)[i])
    ensures forall i :: 0 <= i < |KeepAllowed(Lower(s))| ==> Allowed(KeepAllowed(Lower(s))[i])
  {
    assert forall i :: 0 <= i < |s| ==> !IsUpper(ToLower(s[i]));
  }

  /** `slugify(name)` for a name in ASCII. */
  function Slugify(name: string): (r: string)
    requires IsAscii(name)
    ensures IsSlug(r)
  {
    var lowered := Lower(name);
    var kept := KeepAllowed(lowered);
    var collapsed := Collapse(kept);
    var slug := StripDashes(collapsed);
    if slug == [] then
      FallbackIsSlug();
      FallbackSlug
    else
      LowerHasNoUpper(name);
      CollapseShape(kept);
      CollapseChars(kept);
      StripDashesSlug(collapsed);
      slug
  }

  lemma LowerKeepsSlug(s: string)
    requires IsSlug(s)
    ensures Lower(s) == s
  {
    assert forall i :: 0 <= i < |s| ==> Lower(s)[i] == s[i];
  }

  lemma KeepAllowedKeepsSlug(s: string)
    requires IsSlug(s)
    ensures KeepAllowed(s) == s
  {
    assert forall i :: 0 <= i < |s| ==> IsWord(s[i]) || IsSep(s[i]);
  }

  lemma SlugIsAscii(s: string)
    requires IsSlug(s)
    ensures IsAscii(s)
  {
    assert forall i :: 0 <= i < |s| ==> SlugChar(s[i]);
  }

  lemma SlugCollapsed(s: string)
    requires IsSlug(s)
    ensures Collapsed(s)
  {
    assert forall i :: 0 <= i < |s| ==> SlugChar(s[i]);
  }

  /** Every stage of `slugify` leaves a slug as it is. */
  lemma SlugifyIdempotentOnSlugs(s: string)
    requires IsSlug(s)
    ensures IsAscii(s) && Slugify(s) == s
  {
    SlugIsAscii(s);
    LowerKeepsSlug(s);
    KeepAllowedKeepsSlug(s);
    SlugCollapsed(s);
    CollapseKeepsSlug(s);
    StripDashesKeeps(s);
    assert StripDashes(Collapse(KeepAllowed(Lower(s)))) == s;
  }

  lemma CollapsedTail(s: string)
    requires Collapsed(s) && |s| > 0
    ensures Collapsed(s[1..])
  {
    assert forall i :: 0 <= i < |s[1..]| ==> s[1..][i] == s[i + 1];
  }

  /** A single dash followed by something other than a separator is copied. */
  lemma CollapseDash(s: string)
    requires |s| > 0 && s[0] == '-' && (|s| == 1 || !IsSep(s[1]))
    ensures Collapse(s) == [s[0]] + Collapse(s[1..])
  {
    assert DropSeps(s[1..]) == s[1..];
  }

  lemma {:induction false} CollapseKeepsSlug(s: string)
    requires Collapsed(s)
    ensures Collapse(s) == s
    decreases |s|
  {
    if |s| > 0 {
      CollapsedTail(s);
      CollapseKeepsSlug(s[1..]);
      if IsSep(s[0]) {
        assert s[0] == '-' && (|s| == 1 || !IsSep(s[1]));
        CollapseDash(s);
      } else {
        CollapseCons(s[0], s[1..]);
      }
      assert s == [s[0]] + s[1..];
    }
  }

  /** `slugify(slugify(x)) == slugify(x)` */
  lemma SlugifyIdempotent(name: string)
    requires IsAscii(name)
    ensures IsAscii(Slugify(name)) && Slugify(Slugify(name)) == Slugify(name)
  {
    SlugifyIdempotentOnSlugs(Slugify(name));
  }

  lemma ExampleLower()
    ensures Lower("Artisan India") == "artisan india"
  {
    var r := Lower("Artisan India");
    assert r[0] == ToLower('A') == 'a' && r[8] == ToLower('I') == 'i';
  }

  lemma ExampleKeep()
    ensures KeepAllowed("artisan india") == "artisan india"
  {
    var s := "artisan india";
    assert forall i :: 0 <= i < |s| ==> IsWord(s[i]) || IsSep(s[i]);
  }

  /** A character that is not a separator is copied. */
  lemma CollapseCons(c: char, s: string)
    requires !IsSep(c)
    ensures Collapse([c] + s) == [c] + Collapse(s)
  {
    assert ([c] + s)[1..] == s;
  }

  /** Text without separators passes through `Collapse` unchanged. */
  lemma {:induction false} CollapseWord(w: string, rest: string)
    requires forall i :: 0 <= i < |w| ==> !IsSep(w[i])
    ensures Collapse(w + rest) == w + Collapse(rest)
  {
    if |w| > 0 {
      assert w + rest == [w[0]] + (w[1..] + rest);
      CollapseCons(w[0], w[1..] + rest);
      CollapseWord(w[1..], rest);
      assert w == [w[0]] + w[1..];
    } else {
      assert w + rest == rest;
    }
  }

  lemma CollapseSpaceWord(v: string)
    requires forall i :: 0 <= i < |v| ==> !IsSep(v[i])
    ensures Collapse(" " + v) == "-" + v
  {
    var s := " " + v;
    assert IsSep(s[0]) && s[1..] == v;
    assert DropSeps(v) == v;
    assert Collapsed(v);
    CollapseKeepsSlug(v);
  }

  lemma Regroup(w: string, c: string, v: string)
    ensures w + c + v == w + (c + v)
  {
  }

  /** A word, one space, and a word collapse to the words joined by a
      dash. */
  lemma CollapseTwoWords(w: string, v: string)
    requires forall i :: 0 <= i < |w| ==> !IsSep(w[i])
    requires forall i :: 0 <= i < |v| ==> !IsSep(v[i])
    ensures Collapse(w + " " + v) == w + "-" + v
  {
    Regroup(w, " ", v);
    Regroup(w, "-", v);
    CollapseWord(w, " " + v);
    CollapseSpaceWord(v);
  }

  lemma ExampleCollapse()
    ensures Collapse("artisan india") == "artisan-india"
  {
    var w, v := "artisan", "india";
    assert forall i :: 0 <= i < |w| ==> !IsSep(w[i]);
    assert forall i :: 0 <= i < |v| ==> !IsSep(v[i]);
    CollapseTwoWords(w, v);
    assert w + " " + v == "artisan india";
    assert w + "-" + v == "artisan-india";
  }

  /** The documented example: 'Artisan India' becomes 'artisan-india'. */
  lemma SlugifyExample()
    ensures Slugify("Artisan India") == "artisan-india"
  {
    ExampleLower();
    ExampleKeep();
    ExampleCollapse();
    StripDashesKeeps("artisan-india");
  }

  /** A name with no word characters falls back to 'merchant'. */
  lemma SlugifyFallbackExample()
    ensures Slugify("!!!") == FallbackSlug
  {
    assert Lower("!!!") == "!!!";
    assert KeepAllowed("!!!") == [];
  }

  // ---- Upload validation ----

  const AllowedExtensions: set<string> := {".csv", ".xlsx"}

  /** The last component of a path, as `Path(p).name` gives it: trailing
      slashes are dropped first. */
  function BaseName(p: string): (r: string)
    ensures '/' !in r
  {
    if |p| == 0 then []
    else if p[|p| - 1] == '/' then BaseName(p[..|p| - 1])
    else
      match LastOf(p, '/')
      case None => p
      case Some(j) => p[j + 1..]
  }

  /** The position of the last `c` in `s`. */
  function LastOf(s: string, c: char): (r: Option<nat>)
    ensures r.Some? ==> r.value < |s| && s[r.value] == c && c !in s[r.value + 1..]
    ensures r.None? ==> c !in s
  {
    if |s| == 0 then None
    else if s[|s| - 1] == c then Some(|s| - 1)
    else
      match LastOf(s[..|s| - 1], c)
      case None => None
      case Some(j) =>
        assert s[j + 1..] == s[..|s| - 1][j + 1..] + [s[|s| - 1]];
        Some(j)
  }

  /** `Path(p).suffix`: from the last dot of the name, unless that dot
      starts the name or ends it. */
  function Suffix(p: string): (r: string)
    ensures r == [] || (r[0] == '.' && |r| >= 2 && '.' !in r[1..] && '/' !in r)
  {
    var name := BaseName(p);
    match LastOf(name, '.')
    case Some(i) => if 0 < i < |name| - 1 then name[i..] else []
    case None => []
  }

  datatype Format = Csv | Xlsx

  datatype UploadError = InvalidFileType | EmptyFile

  /** The checks `onboard` makes on an upload before any processing: the
      extension first, then the content. A missing file name counts as
      the empty name. */
  function CheckUpload(filename: Option<string>, content: seq<bv8>): (r: Result<Format, UploadError>)
    ensures r == Err(InvalidFileType) <==> Lower(Suffix(filename.GetOr(""))) !in AllowedExtensions
    ensures r == Err(EmptyFile) <==> Lower(Suffix(filename.GetOr(""))) in AllowedExtensions && |content| == 0
    ensures r.Ok? ==> |content| > 0
    ensures r == Ok(Xlsx) <==> Lower(Suffix(filename.GetOr(""))) == ".xlsx" && |content| > 0
  {
    var suffix := Lower(Suffix(filename.GetOr("")));
    if suffix !in AllowedExtensions then Err(InvalidFileType)
    else if |content| == 0 then Err(EmptyFile)
    else if suffix == ".xlsx" then Ok(Xlsx)
    else Ok(Csv)
  }

  /** For a plain file name whose last dot sits inside it, the suffix runs
      from that dot. */
  lemma SuffixAt(name: string, i: nat)
    requires '/' !in name
    requires 0 < i < |name| - 1 && name[i] == '.' && '.' !in name[i + 1..]
    ensures Suffix(name) == name[i..]
  {
    assert LastOf(name, '/') == None;
    assert name[|name| - 1] != '/';
    assert BaseName(name) == name;
    assert name[i] in name;
  }

  /** A file name made of a stem and an extension has that extension. */
  lemma SuffixOf(stem: string, ext: string)
    requires |stem| > 0 && '/' !in stem && '.' !in stem
    requires |ext| >= 2 && ext[0] == '.' && '/' !in ext && '.' !in ext[1..]
    ensures Suffix(stem + ext) == ext
  {
    var name := stem + ext;
    assert name[|stem|..] == ext;
    assert name[|stem| + 1..] == ext[1..];
    assert forall k :: 0 <= k < |name| ==> name[k] == (if k < |stem| then stem[k] else ext[k - |stem|]);
    SuffixAt(name, |stem|);
  }

  /** A name that starts with its only dot has no suffix. */
  lemma HiddenNoSuffix(rest: string)
    requires '/' !in rest && '.' !in rest
    ensures Suffix("." + rest) == []
  {
    var name := "." + rest;
    assert name[1..] == rest;
    assert '/' !in name;
    if |rest| > 0 {
      assert name[|name| - 1] == rest[|rest| - 1];
    }
    assert BaseName(name) == name;
    assert LastOf(name, '.') == Some(0);
  }

  /** An upload whose lower-cased suffix is not allowed is rejected, whatever
      its content. */
  lemma RejectedUpload(name: string, content: seq<bv8>)
    requires Lower(Suffix(name)) !in AllowedExtensions
    ensures CheckUpload(Some(name), content) == Err(InvalidFileType)
  {
  }

  /** A `.csv` upload with content is read as CSV. */
  lemma AcceptedCsv(name: string, content: seq<bv8>)
    requires Lower(Suffix(name)) == ".csv" && |content| > 0
    ensures CheckUpload(Some(name), content) == Ok(Csv)
  {
  }

  lemma LowerExtensions()
    ensures Lower(".CSV") == ".csv" && Lower(".xlsx") == ".xlsx"
  {
  }

  /** An `.xlsx` upload with no content is empty. */
  lemma EmptyUpload(name: string)
    requires Lower(Suffix(name)) == ".xlsx"
    ensures CheckUpload(Some(name), []) == Err(EmptyFile)
  {
  }

  /** The extension is compared case-insensitively. */
  lemma UploadUpperCaseExtension()
    ensures CheckUpload(Some("stock.CSV"), [0x61]) == Ok(Csv)
  {
    var name := "stock.CSV";
    SuffixOf("stock", ".CSV");
    assert "stock" + ".CSV" == name;
    LowerExtensions();
    AcceptedCsv(name, [0x61]);
  }

  /** A name that only starts with a dot has no extension. */
  lemma UploadHiddenName()
    ensures CheckUpload(Some(".csv"), [0x61]) == Err(InvalidFileType)
  {
    var ext := "csv";
    HiddenNoSuffix(ext);
    assert "." + ext == ".csv";
    assert Lower([]) == [];
    RejectedUpload(".csv", [0x61]);
  }

  lemma UploadEmpty()
    ensures CheckUpload(Some("stock.xlsx"), []) == Err(EmptyFile)
  {
    var name := "stock.xlsx";
    SuffixOf("stock", ".xlsx");
    assert "stock" + ".xlsx" == name;
    LowerExtensions();
    EmptyUpload(name);
  }
}

=== FILE: client.dfy ===
/** The shopping client's state machine (`mcp_client.py`): a cart of lines,
    the connected merchant's base URL and discovery profile, and the id of
    the checkout session in progress. Each tool is a function from the
    state and the server's reply (decoded JSON, or `None` when the HTTP
    call failed) to the next state and the tool's result. Python crashes
    on malformed replies are reported as `Malformed`. */
module Client {
  import opened Wrappers
  import opened Json
  import opened Text
  import opened Ordering
  import Payment

  datatype Line = Line(productId: string, title: string, price: int, quantity: int)

  /** The fields of a `GET /products/{id}` reply that the cart keeps. */
  datatype Product = Product(id: string, title: string, price: int)

  datatype Session = Session(
    baseUrl: string,
    profile: Fields,
    cart: seq<Line>,
    checkoutId: Value)

  datatype ClientError =
    | NoMerchant
    | BadQuantity
    | LookupFailed
    | NotInCart(productId: string)
    | CartEmpty
    | CheckoutFailed
    | NoCheckout
    | CompleteFailed
    | CatalogueFailed
    | Malformed

  /** The state after a tool call, and what the tool returned. */
  datatype Outcome<T> = Outcome(session: Session, result: Result<T, ClientError>)

  /** `_require_merchant()` passes. */
  predicate Connected(s: Session) {
    s.baseUrl != ""
  }

  /** `_require_merchant()` with its `_auto_discover()`: `discovered` is the
      decoded reply to `GET /.well-known/ucp`, `None` when the fetch fails.
      A connected session without a profile adopts the discovered one. */
  function RequireMerchant(s: Session, discovered: Option<Fields>): (r: Result<Session, ClientError>)
    ensures r.Err? <==> !Connected(s)
    ensures r.Err? ==> r.error == NoMerchant
    ensures r.Ok? ==> r.value == s.(profile := r.value.profile)
    ensures r.Ok? && s.profile != [] ==> r.value == s
    ensures r.Ok? && s.profile == [] && discovered.Some? ==> r.value.profile == discovered.value
    ensures r.Ok? && discovered.None? ==> r.value == s
  {
    if !Connected(s) then Err(NoMerchant)
    else if s.profile == [] && discovered.Some? then Ok(s.(profile := discovered.value))
    else Ok(s)
  }

  /** A non-empty profile, once held, is never replaced: later discoveries
      change nothing. */
  lemma DiscoveredProfileSticks(s: Session, first: Option<Fields>, later: Option<Fields>)
    requires RequireMerchant(s, first).Ok? && RequireMerchant(s, first).value.profile != []
    ensures RequireMerchant(RequireMerchant(s, first).value, later) == RequireMerchant(s, first)
  {
  }

  // ---- The cart ----

  /** The first line holding `id`, as the `for item in _cart` loops find it. */
  function FindLine(cart: seq<Line>, id: string): (r: Option<nat>)
    ensures r.Some? ==> r.value < |cart| && cart[r.value].productId == id
    ensures r.Some? ==> forall j :: 0 <= j < r.value ==> cart[j].productId != id
    ensures r.None? <==> forall j :: 0 <= j < |cart| ==> cart[j].productId != id
  {
    if |cart| == 0 then None
    else if cart[0].productId == id then Some(0)
    else match FindLine(cart[1..], id)
      case None => None
      case Some(i) => Some(i + 1)
  }

  /** No product appears on two lines and every quantity is at least one. */
  predicate WellFormedCart(cart: seq<Line>) {
    && (forall i, j :: 0 <= i < j < |cart| ==> cart[i].productId != cart[j].productId)
    && (forall i :: 0 <= i < |cart| ==> cart[i].quantity >= 1)
  }

  function LineTotal(l: Line): int {
    l.price * l.quantity
  }

  /** The value of a cart: the sum of price times quantity over its lines. */
  function Total(cart: seq<Line>): int {
    if |cart| == 0 then 0 else LineTotal(cart[0]) + Total(cart[1..])
  }

  lemma {:induction false} TotalAppend(a: seq<Line>, b: seq<Line>)
    ensures Total(a + b) == Total(a) + Total(b)
  {
    if |a| == 0 {
      assert a + b == b;
    } else {
      assert (a + b)[0] == a[0];
      assert (a + b)[1..] == a[1..] + b;
      TotalAppend(a[1..], b);
    }
  }

  lemma TotalCons(l: Line, rest: seq<Line>)
    ensures Total([l] + rest) == LineTotal(l) + Total(rest)
  {
    assert ([l] + rest)[1..] == rest;
  }

  lemma TotalSplit(cart: seq<Line>, i: nat)
    requires i < |cart|
    ensures Total(cart) == Total(cart[..i]) + LineTotal(cart[i]) + Total(cart[i + 1..])
  {
    var tail := [cart[i]] + cart[i + 1..];
    assert cart == cart[..i] + tail;
    TotalAppend(cart[..i], tail);
    TotalCons(cart[i], cart[i + 1..]);
  }

  /** Replacing one line changes the total by the difference of the two. */
  lemma TotalReplace(cart: seq<Line>, i: nat, l: Line)
    requires i < |cart|
    ensures Total(cart[i := l]) == Total(cart) - LineTotal(cart[i]) + LineTotal(l)
  {
    var c := cart[i := l];
    TotalSplit(cart, i);
    TotalSplit(c, i);
    assert c[..i] == cart[..i];
    assert c[i + 1..] == cart[i + 1..];
  }

  /** `_cart.pop(i)` */
  function RemoveAt(cart: seq<Line>, i: nat): (r: seq<Line>)
    requires i < |cart|
    ensures |r| == |cart| - 1
    ensures forall j :: 0 <= j < i ==> r[j] == cart[j]
    ensures forall j :: i <= j < |r| ==> r[j] == cart[j + 1]
  {
    cart[..i] + cart[i + 1..]
  }

  lemma TotalRemove(cart: seq<Line>, i: nat)
    requires i < |cart|
    ensures Total(RemoveAt(cart, i)) == Total(cart) - LineTotal(cart[i])
  {
    TotalSplit(cart, i);
    TotalAppend(cart[..i], cart[i + 1..]);
  }

  // ---- view_cart ----

  datatype CartItem = CartItem(
    productId: string,
    title: string,
    quantity: int,
    pricePaise: int,
    lineTotalPaise: int)

  datatype CartView = CartView(items: seq<CartItem>, totalPaise: int)

  function ItemOf(l: Line): CartItem {
    CartItem(l.productId, l.title, l.quantity, l.price, LineTotal(l))
  }

  /** The loop of `view_cart`: `rest` still to visit, with the running total
      and the items built so far. */
  function ViewLoop(rest: seq<Line>, total: int, items: seq<CartItem>): (v: CartView)
    ensures v.totalPaise == total + Total(rest)
    ensures |v.items| == |items| + |rest|
    ensures v.items[..|items|] == items
    ensures forall i :: 0 <= i < |rest| ==> v.items[|items| + i] == ItemOf(rest[i])
    decreases |rest|
  {
    if |rest| == 0 then CartView(items, total)
    else
      var v := ViewLoop(rest[1..], total + LineTotal(rest[0]), items + [ItemOf(rest[0])]);
      assert forall i :: 0 <= i < |rest| - 1 ==> rest[1..][i] == rest[i + 1];
      v
  }

  /** `view_cart()`: one item per line, in cart order, and the cart's total;
      an empty cart shows no items and a total of 0. */
  function ViewCart(cart: seq<Line>): (v: CartView)
    ensures v.totalPaise == Total(cart)
    ensures |v.items| == |cart|
    ensures forall i :: 0 <= i < |cart| ==> v.items[i] == ItemOf(cart[i])
    ensures |cart| == 0 ==> v == CartView([], 0)
  {
    if |cart| == 0 then CartView([], 0)
    else
      var v := ViewLoop(cart, 0, []);
      assert forall i :: 0 <= i < |cart| ==> v.items[0 + i] == ItemOf(cart[i]);
      v
  }

  // ---- add_to_cart ----

  /** The cart after adding `quantity` of a product: a line already holding
      the requested id grows, otherwise the looked-up product is appended. */
  function AddLine(cart: seq<Line>, productId: string, quantity: int, p: Product): (r: seq<Line>)
    ensures FindLine(cart, productId).Some? ==>
      var i := FindLine(cart, productId).value;
      && |r| == |cart|
      && r[i] == cart[i].(quantity := cart[i].quantity + quantity)
      && (forall j :: 0 <= j < |cart| && j != i ==> r[j] == cart[j])
    ensures FindLine(cart, productId).None? ==> r == cart + [Line(p.id, p.title, p.price, quantity)]
  {
    match FindLine(cart, productId)
    case Some(i) => cart[i := cart[i].(quantity := cart[i].quantity + quantity)]
    case None => cart + [Line(p.id, p.title, p.price, quantity)]
  }

  /** `add_to_cart(product_id, quantity)`, where `lookup` is the reply to
      `GET /products/{product_id}`. */
  function AddToCart(s: Session, productId: string, quantity: int, lookup: Option<Product>): (o: Outcome<CartView>)
    ensures !Connected(s) ==> o == Outcome(s, Err(NoMerchant))
    ensures Connected(s) && quantity < 1 ==> o == Outcome(s, Err(BadQuantity))
    ensures Connected(s) && quantity >= 1 && lookup.None? ==> o == Outcome(s, Err(LookupFailed))
    ensures o.result.Err? ==> o.session == s
    ensures o.session == s.(cart := o.session.cart)
    ensures o.result.Ok? ==> o.result.value == ViewCart(o.session.cart)
    ensures o.result.Ok? <==> Connected(s) && quantity >= 1 && lookup.Some?
  {
    if !Connected(s) then Outcome(s, Err(NoMerchant))
    else if quantity < 1 then Outcome(s, Err(BadQuantity))
    else match lookup
      case None => Outcome(s, Err(LookupFailed))
      case Some(p) =>
        var cart := AddLine(s.cart, productId, quantity, p);
        Outcome(s.(cart := cart), Ok(ViewCart(cart)))
  }

  lemma Distribute(a: int, b: int, c: int)
    ensures a * (b + c) == a * b + a * c
  {
  }

  /** Adding raises the cart total by the price of the line that received
      the quantity times that quantity. */
  lemma AddLineTotal(cart: seq<Line>, productId: string, quantity: int, p: Product)
    ensures FindLine(cart, productId).Some? ==>
      Total(AddLine(cart, productId, quantity, p))
        == Total(cart) + cart[FindLine(cart, productId).value].price * quantity
    ensures FindLine(cart, productId).None? ==>
      Total(AddLine(cart, productId, quantity, p)) == Total(cart) + p.price * quantity
  {
    match FindLine(cart, productId)
    case Some(i) =>
      var l := cart[i].(quantity := cart[i].quantity + quantity);
      TotalReplace(cart, i, l);
      Distribute(cart[i].price, cart[i].quantity, quantity);
    case None =>
      var l := Line(p.id, p.title, p.price, quantity);
      TotalAppend(cart, [l]);
      TotalCons(l, []);
  }

  /** A successful add keeps the cart well formed, provided the server
      answers a lookup with the product that was asked for. */
  lemma AddKeepsWellFormed(s: Session, productId: string, quantity: int, lookup: Option<Product>)
    requires WellFormedCart(s.cart)
    requires lookup.Some? ==> lookup.value.id == productId
    ensures WellFormedCart(AddToCart(s, productId, quantity, lookup).session.cart)
  {
    var o := AddToCart(s, productId, quantity, lookup);
    if Connected(s) && quantity >= 1 && lookup.Some? {
      AddLineKeepsWellFormed(s.cart, productId, quantity, lookup.value);
      assert o.session.cart == AddLine(s.cart, productId, quantity, lookup.value);
    } else {
      assert o.session == s;
    }
  }

  lemma AddLineKeepsWellFormed(cart: seq<Line>, productId: string, quantity: int, p: Product)
    requires WellFormedCart(cart) && quantity >= 1 && p.id == productId
    ensures WellFormedCart(AddLine(cart, productId, quantity, p))
  {
    var c := AddLine(cart, productId, quantity, p);
    match FindLine(cart, productId)
    case Some(i) =>
      assert forall j :: 0 <= j < |c| ==> c[j].productId == cart[j].productId && c[j].quantity >= cart[j].quantity;
    case None =>
      assert forall j :: 0 <= j < |cart| ==> c[j] == cart[j];
      assert c[|cart|].productId == productId;
  }

  // ---- update_cart / remove_from_cart ----

  /** The cart after line `i` is given a new quantity: a quantity of zero
      or less removes the line. */
  function SetQuantity(cart: seq<Line>, i: nat, quantity: int): (c: seq<Line>)
    requires i < |cart|
    ensures quantity <= 0 ==> c == RemoveAt(cart, i)
    ensures quantity > 0 ==>
      && |c| == |cart|
      && c[i] == cart[i].(quantity := quantity)
      && (forall j :: 0 <= j < |cart| && j != i ==> c[j] == cart[j])
  {
    if quantity <= 0 then RemoveAt(cart, i) else cart[i := cart[i].(quantity := quantity)]
  }

  /** `update_cart(product_id, quantity)`: no merchant is needed; a quantity
      of zero or less removes the line, any other sets it. */
  function UpdateCart(s: Session, productId: string, quantity: int): (o: Outcome<CartView>)
    ensures FindLine(s.cart, productId).None? <==> o == Outcome(s, Err(NotInCart(productId)))
    ensures FindLine(s.cart, productId).Some? ==> o.result.Ok?
    ensures o.session == s.(cart := o.session.cart)
    ensures o.result.Ok? ==> o.result.value == ViewCart(o.session.cart)
    ensures FindLine(s.cart, productId).Some? && quantity <= 0 ==>
      o.session.cart == RemoveAt(s.cart, FindLine(s.cart, productId).value)
    ensures FindLine(s.cart, productId).Some? && quantity > 0 ==>
      var i := FindLine(s.cart, productId).value;
      && |o.session.cart| == |s.cart|
      && o.session.cart[i] == s.cart[i].(quantity := quantity)
      && (forall j :: 0 <= j < |s.cart| && j != i ==> o.session.cart[j] == s.cart[j])
  {
    match FindLine(s.cart, productId)
    case None => Outcome(s, Err(NotInCart(productId)))
    case Some(i) =>
      var cart := SetQuantity(s.cart, i, quantity);
      Outcome(s.(cart := cart), Ok(ViewCart(cart)))
  }

  /** `remove_from_cart(product_id)`: the line goes, the rest keep their order. */
  function RemoveFromCart(s: Session, productId: string): (o: Outcome<CartView>)
    ensures FindLine(s.cart, productId).None? ==> o == Outcome(s, Err(NotInCart(productId)))
    ensures o.session == s.(cart := o.session.cart)
    ensures o.result.Ok? ==> o.result.value == ViewCart(o.session.cart)
    ensures FindLine(s.cart, productId).Some? ==>
      && o.result.Ok?
      && o.session.cart == RemoveAt(s.cart, FindLine(s.cart, productId).value)
      && Total(o.session.cart) == Total(s.cart) - LineTotal(s.cart[FindLine(s.cart, productId).value])
  {
    match FindLine(s.cart, productId)
    case None => UpdateCart(s, productId, 0)
    case Some(i) =>
      TotalRemove(s.cart, i);
      UpdateCart(s, productId, 0)
  }

  lemma UpdateKeepsWellFormed(s: Session, productId: string, quantity: int)
    requires WellFormedCart(s.cart)
    ensures WellFormedCart(UpdateCart(s, productId, quantity).session.cart)
  {
    var o := UpdateCart(s, productId, quantity);
    match FindLine(s.cart, productId)
    case None =>
      assert o.session == s;
    case Some(i) =>
      if quantity <= 0 {
        RemoveAtKeepsWellFormed(s.cart, i);
        assert o.session.cart == RemoveAt(s.cart, i);
      } else {
        SetQuantityKeepsWellFormed(s.cart, i, quantity);
        assert o.session.cart == s.cart[i := s.cart[i].(quantity := quantity)];
      }
  }

  lemma RemoveAtKeepsWellFormed(cart: seq<Line>, i: nat)
    requires WellFormedCart(cart) && i < |cart|
    ensures WellFormedCart(RemoveAt(cart, i))
  {
    var c := RemoveAt(cart, i);
    forall a, b | 0 <= a < b < |c| ensures c[a].productId != c[b].productId {
      var a' := if a < i then a else a + 1;
      var b' := if b < i then b else b + 1;
      assert c[a] == cart[a'] && c[b] == cart[b'];
    }
    forall a | 0 <= a < |c| ensures c[a].quantity >= 1 {
      assert c[a] == cart[if a < i then a else a + 1];
    }
  }

  lemma SetQuantityKeepsWellFormed(cart: seq<Line>, i: nat, quantity: int)
    requires WellFormedCart(cart) && i < |cart| && quantity >= 1
    ensures WellFormedCart(cart[i := cart[i].(quantity := quantity)])
  {
    var c := cart[i := cart[i].(quantity := quantity)];
    assert forall j :: 0 <= j < |c| ==> c[j].productId == cart[j].productId && c[j].quantity >= 1;
  }

  /** A removed product is gone from the cart. */
  lemma RemoveDropsProduct(s: Session, productId: string)
    requires WellFormedCart(s.cart)
    ensures FindLine(RemoveFromCart(s, productId).session.cart, productId).None?
  {
    if FindLine(s.cart, productId).Some? {
      var i := FindLine(s.cart, productId).value;
      var c := RemoveAt(s.cart, i);
      forall j | 0 <= j < |c| ensures c[j].productId != productId {
        assert c[j] == s.cart[if j < i then j else j + 1];
      }
    }
  }

  // ---- Reading replies ----

  /** `Elements`, with a failing loop reported as `Malformed`. */
  function Iterate(v: Value): (r: Result<seq<Value>, ClientError>)
    ensures r.Ok? <==> Elements(v).Some?
    ensures r.Ok? ==> r.value == Elements(v).value
  {
    match Elements(v)
    case Some(xs) => Ok(xs)
    case None => Err(Malformed)
  }

  /** A JSON number as Python's arithmetic sees it (`True` is 1). */
  function AmountValue(v: Value): Option<int> {
    match v
    case Int(i) => Some(i)
    case Bool(b) => Some(if b then 1 else 0)
    case _ => None
  }

  predicate IsTotalEntry(t: Value) {
    t.Obj? && Get(t.fields, "type") == Some(Str("total"))
  }

  function EntryAmount(t: Value): Result<int, ClientError>
    requires t.Obj?
  {
    match AmountValue(GetOr(t.fields, "amount", Int(0)))
    case Some(a) => Ok(a)
    case None => Err(Malformed)
  }

  /** The loop over `totals` in `checkout`: the amount of the first entry of
      type `"total"`, or 0 when there is none. */
  function FirstTotal(ts: seq<Value>): (r: Result<int, ClientError>)
    ensures (forall i :: 0 <= i < |ts| ==> ts[i].Obj? && !IsTotalEntry(ts[i])) ==> r == Ok(0)
    ensures forall k ::
      (0 <= k < |ts| && IsTotalEntry(ts[k]) && (forall i :: 0 <= i < k ==> ts[i].Obj? && !IsTotalEntry(ts[i])))
      ==> r == EntryAmount(ts[k])
    ensures r.Err? ==> exists i :: 0 <= i < |ts| && (!ts[i].Obj? || IsTotalEntry(ts[i]))
  {
    if |ts| == 0 then Ok(0)
    else if !ts[0].Obj? then Err(Malformed)
    else if IsTotalEntry(ts[0]) then EntryAmount(ts[0])
    else
      var r := FirstTotal(ts[1..]);
      assert forall i :: 1 <= i < |ts| ==> ts[i] == ts[1..][i - 1];
      r
  }

  function TotalsOf(data: Fields): Result<int, ClientError> {
    match Iterate(GetOr(data, "totals", Arr([])))
    case Err(e) => Err(e)
    case Ok(ts) => FirstTotal(ts)
  }

  /** `(_merchant_profile or {}).get("payment", {}).get("handlers", [])` */
  function HandlersValue(profile: Fields): (r: Result<Value, ClientError>)
    ensures r.Err? <==> HasKey(profile, "payment") && !Get(profile, "payment").value.Obj?
    ensures !HasKey(profile, "payment") ==> r == Ok(Arr([]))
  {
    var payment := GetOr(profile, "payment", Obj([]));
    if payment.Obj? then Ok(GetOr(payment.fields, "handlers", Arr([]))) else Err(Malformed)
  }

  /** The config of a handler with `id == "upi"` and a dict `config`. */
  function UpiConfig(h: Value): Option<Fields> {
    if h.Obj? && Get(h.fields, "id") == Some(Str("upi")) then
      match Get(h.fields, "config")
      case Some(Obj(c)) => Some(c)
      case _ => None
    else None
  }

  /** Reference definition: the value under `key` in the config of the LAST
      upi handler whose config has that key, else `default`. */
  function LastConfigValue(hs: seq<Value>, key: string, default: Value): Value {
    if |hs| == 0 then default
    else
      var h := hs[|hs| - 1];
      if UpiConfig(h).Some? && HasKey(UpiConfig(h).value, key) then Get(UpiConfig(h).value, key).value
      else LastConfigValue(hs[..|hs| - 1], key, default)
  }

  /** One iteration of the handler loop on one variable. */
  function ConfigStep(h: Value, key: string, current: Value): Value {
    match UpiConfig(h)
    case Some(c) => GetOr(c, key, current)
    case None => current
  }

  lemma {:induction false} LastConfigValueCons(h: Value, t: seq<Value>, key: string, d: Value)
    ensures LastConfigValue([h] + t, key, d) == LastConfigValue(t, key, ConfigStep(h, key, d))
    decreases |t|
  {
    var hs := [h] + t;
    if |t| == 0 {
      assert hs[..0] == [];
    } else {
      assert hs[|hs| - 1] == t[|t| - 1];
      assert hs[..|hs| - 1] == [h] + t[..|t| - 1];
      LastConfigValueCons(h, t[..|t| - 1], key, d);
    }
  }

  /** The handler loop of `checkout`: VPA and payee name, each overridden by
      every upi handler whose config carries it. */
  function PayeeLoop(hs: seq<Value>, vpa: Value, name: Value): (r: Result<(Value, Value), ClientError>)
    ensures r.Ok? <==> forall i :: 0 <= i < |hs| ==> hs[i].Obj?
    ensures r.Ok? ==> r.value.0 == LastConfigValue(hs, "vpa", vpa)
    ensures r.Ok? ==> r.value.1 == LastConfigValue(hs, "merchant_name", name)
    decreases |hs|
  {
    if |hs| == 0 then Ok((vpa, name))
    else if !hs[0].Obj? then Err(Malformed)
    else
      var r := PayeeLoop(hs[1..], ConfigStep(hs[0], "vpa", vpa), ConfigStep(hs[0], "merchant_name", name));
      assert hs == [hs[0]] + hs[1..];
      LastConfigValueCons(hs[0], hs[1..], "vpa", vpa);
      LastConfigValueCons(hs[0], hs[1..], "merchant_name", name);
      assert forall i :: 1 <= i < |hs| ==> hs[i] == hs[1..][i - 1];
      r
  }

  /** `str(_checkout_session_id or "order")` as the link's order reference;
      `None` for a list or dict id, whose `repr` is not modelled. */
  function OrderRef(id: Value): (r: Option<string>)
    ensures !Truthy(id) ==> r == Some("order")
    ensures id.Str? && id.s != "" ==> r == Some(id.s)
  {
    if !Truthy(id) then Some("order")
    else match id
      case Str(x) => Some(x)
      case Int(i) => Some(if i < 0 then "-" + NatToString(-i) else NatToString(i))
      case Bool(_) => Some("True")
      case _ => None
  }

  // ---- _build_create_payload ----

  const DefaultUpiHandler: Value :=
    Obj([("id", Str("upi")), ("name", Str("in.npci.upi")), ("version", Str("2026-01-11")), ("config", Obj([]))])

  /** The fixed shipping block: one Mumbai destination, standard shipping. */
  const DemoFulfillment: Value :=
    Obj([("methods", Arr([Obj([
      ("type", Str("shipping")),
      ("destinations", Arr([Obj([
        ("id", Str("dest_1")),
        ("street_address", Str("123 Demo St")),
        ("address_locality", Str("Mumbai")),
        ("address_region", Str("MH")),
        ("postal_code", Str("400001")),
        ("address_country", Str("IN"))])])),
      ("selected_destination_id", Str("dest_1")),
      ("groups", Arr([Obj([
        ("id", Str("group_1")),
        ("line_item_ids", Arr([])),
        ("options", Arr([Obj([
          ("id", Str("std-in")),
          ("title", Str("Standard Shipping (India)")),
          ("totals", Arr([Obj([("type", Str("total")), ("amount", Int(5000))])]))])])),
        ("selected_option_id", Str("std-in"))])]))])]))])

  function LineItem(l: Line): Value {
    Obj([
      ("item", Obj([("id", Str(l.productId)), ("title", Str(l.title)), ("price", Int(l.price))])),
      ("quantity", Int(l.quantity))])
  }

  function LineItems(cart: seq<Line>): (r: seq<Value>)
    ensures |r| == |cart|
  {
    if |cart| == 0 then [] else [LineItem(cart[0])] + LineItems(cart[1..])
  }

  /** Reads a cart line back from a create-checkout line item. */
  function LineOfItem(v: Value): Option<Line> {
    if !v.Obj? then None
    else match (Get(v.fields, "item"), Get(v.fields, "quantity"))
      case (Some(Obj(it)), Some(Int(q))) =>
        (match (Get(it, "id"), Get(it, "title"), Get(it, "price"))
         case (Some(Str(id)), Some(Str(t)), Some(Int(p))) => Some(Line(id, t, p, q))
         case _ => None)
      case _ => None
  }

  lemma LineOfLineItem(l: Line)
    ensures LineOfItem(LineItem(l)) == Some(l)
  {
    var v := LineItem(l);
    assert Get(v.fields, "item") == Some(Obj([("id", Str(l.productId)), ("title", Str(l.title)), ("price", Int(l.price))]));
    assert v.fields[1..][0].0 == "quantity";
    assert Get(v.fields, "quantity") == Some(Int(l.quantity));
    var it := [("id", Str(l.productId)), ("title", Str(l.title)), ("price", Int(l.price))];
    assert Get(it, "id") == Some(Str(l.productId));
    assert it[1..][0].0 == "title";
    assert Get(it, "title") == Some(Str(l.title));
    assert it[2..][0].0 == "price";
    assert it[1..][1..] == it[2..];
    assert Get(it, "price") == Some(Int(l.price));
  }

  function LinesOfItems(vs: seq<Value>): Option<seq<Line>> {
    if |vs| == 0 then Some([])
    else match (LineOfItem(vs[0]), LinesOfItems(vs[1..]))
      case (Some(l), Some(ls)) => Some([l] + ls)
      case _ => None
  }

  lemma {:induction false} LinesOfLineItems(cart: seq<Line>)
    ensures LinesOfItems(LineItems(cart)) == Some(cart)
  {
    if |cart| > 0 {
      LinesOfLineItems(cart[1..]);
      assert LineItems(cart)[1..] == LineItems(cart[1..]);
      LineOfLineItem(cart[0]);
      assert cart == [cart[0]] + cart[1..];
    }
  }

  /** The cart a create-checkout payload orders. */
  function PayloadCart(payload: Value): Option<seq<Line>> {
    if payload.Obj? then
      match Get(payload.fields, "line_items")
      case Some(Arr(items)) => LinesOfItems(items)
      case _ => None
    else None
  }

  /** The handlers a create-checkout payload offers. */
  function PayloadHandlers(payload: Value): Option<Value> {
    if payload.Obj? then
      match Get(payload.fields, "payment")
      case Some(Obj(p)) => Get(p, "handlers")
      case _ => None
    else None
  }

  /** The create-checkout request body for a cart, a handler list and a
      fulfillment block. */
  function PayloadWith(cart: seq<Line>, handlers: Value, fulfillment: Value): Value {
    Obj([
      ("currency", Str("INR")),
      ("line_items", Arr(LineItems(cart))),
      ("payment", Obj([("handlers", handlers), ("instruments", Arr([])), ("selected_instrument_id", Null)])),
      ("fulfillment", fulfillment)])
  }

  /** The body `_build_create_payload` sends: the demo fulfillment block. */
  function Payload(cart: seq<Line>, handlers: Value): Value {
    PayloadWith(cart, handlers, DemoFulfillment)
  }

  lemma PayloadWithCart(cart: seq<Line>, handlers: Value, fulfillment: Value)
    ensures PayloadCart(PayloadWith(cart, handlers, fulfillment)) == Some(cart)
  {
    LinesOfLineItems(cart);
    var f := PayloadWith(cart, handlers, fulfillment).fields;
    assert f[0].0 != "line_items" by { assert |f[0].0| != |"line_items"|; }
    assert f[1..][0] == ("line_items", Arr(LineItems(cart)));
    assert Get(f, "line_items") == Get(f[1..], "line_items") == Some(Arr(LineItems(cart)));
  }

  lemma PayloadWithHandlers(cart: seq<Line>, handlers: Value, fulfillment: Value)
    ensures PayloadHandlers(PayloadWith(cart, handlers, fulfillment)) == Some(handlers)
  {
    var f := PayloadWith(cart, handlers, fulfillment).fields;
    assert f[0].0 != "payment" by { assert |f[0].0| != |"payment"|; }
    assert f[1].0 != "payment" by { assert |f[1].0| != |"payment"|; }
    assert Get(f, "payment") == Get(f[1..], "payment") == Get(f[2..], "payment");
  }

  /** The body orders exactly the cart and offers exactly the handlers. */
  lemma PayloadContents(cart: seq<Line>, handlers: Value)
    ensures PayloadCart(Payload(cart, handlers)) == Some(cart)
    ensures PayloadHandlers(Payload(cart, handlers)) == Some(handlers)
    ensures Get(Payload(cart, handlers).fields, "currency") == Some(Str("INR"))
  {
    PayloadWithCart(cart, handlers, DemoFulfillment);
    PayloadWithHandlers(cart, handlers, DemoFulfillment);
  }

  /** `_build_create_payload()`: the cart as line items, the profile's
      payment handlers or the default upi handler when it has none. */
  function BuildCreatePayload(profile: Fields, cart: seq<Line>): (r: Result<Value, ClientError>)
    ensures r.Ok? <==> HandlersValue(profile).Ok?
    ensures r.Ok? ==> PayloadCart(r.value) == Some(cart)
    ensures r.Ok? ==> PayloadHandlers(r.value).Some? && Truthy(PayloadHandlers(r.value).value)
    ensures r.Ok? && Truthy(HandlersValue(profile).value) ==> PayloadHandlers(r.value) == Some(HandlersValue(profile).value)
    ensures r.Ok? && !Truthy(HandlersValue(profile).value) ==> PayloadHandlers(r.value) == Some(Arr([DefaultUpiHandler]))
  {
    match HandlersValue(profile)
    case Err(e) => Err(e)
    case Ok(hv) =>
      var handlers := if Truthy(hv) then hv else Arr([DefaultUpiHandler]);
      PayloadContents(cart, handlers);
      Ok(Payload(cart, handlers))
  }

  // ---- checkout ----

  datatype CheckoutReply = CheckoutReply(
    sessionId: Value,
    totalPaise: int,
    vpa: string,
    payeeName: string,
    orderRef: string,
    upiLink: string)

  const DefaultVpa: string := "merchant@ybl"
  const DefaultPayee: string := "Merchant"

  /** Everything `checkout` reads from the create reply and the profile once
      the session id is stored. */
  function CheckoutDetails(profile: Fields, id: Value, data: Fields): (r: Result<CheckoutReply, ClientError>)
    ensures TotalsOf(data).Err? ==> r.Err?
    ensures r.Ok? <==>
      && TotalsOf(data).Ok?
      && HandlersValue(profile).Ok?
      && Iterate(HandlersValue(profile).value).Ok?
      && var hs := Iterate(HandlersValue(profile).value).value;
         && (forall i :: 0 <= i < |hs| ==> hs[i].Obj?)
         && LastConfigValue(hs, "vpa", Str(DefaultVpa)).Str?
         && LastConfigValue(hs, "merchant_name", Str(DefaultPayee)).Str?
         && OrderRef(id).Some?
    ensures r.Ok? ==>
      && r.value.sessionId == id
      && TotalsOf(data) == Ok(r.value.totalPaise)
      && OrderRef(id) == Some(r.value.orderRef)
      && r.value.upiLink == Payment.UpiLink(r.value.vpa, r.value.payeeName, r.value.totalPaise, r.value.orderRef, None)
    ensures r.Ok? ==>
      && HandlersValue(profile).Ok?
      && Iterate(HandlersValue(profile).value).Ok?
      && var hs := Iterate(HandlersValue(profile).value).value;
         && Str(r.value.vpa) == LastConfigValue(hs, "vpa", Str(DefaultVpa))
         && Str(r.value.payeeName) == LastConfigValue(hs, "merchant_name", Str(DefaultPayee))
  {
    match (TotalsOf(data), HandlersValue(profile))
    case (Ok(total), Ok(hv)) =>
      (match Iterate(hv)
       case Err(e) => Err(e)
       case Ok(hs) =>
         match (PayeeLoop(hs, Str(DefaultVpa), Str(DefaultPayee)), OrderRef(id))
         case (Ok((Str(vpa), Str(name))), Some(ref)) =>
           Ok(CheckoutReply(id, total, vpa, name, ref, Payment.UpiLink(vpa, name, total, ref, None)))
         case _ => Err(Malformed))
    case _ => Err(Malformed)
  }

  /** `checkout()`, where `discovered` is the auto-discovery reply and
      `reply` is the decoded reply to `POST /checkout-sessions`. The session
      id is stored as soon as the reply arrives; the cart is never touched;
      the payment handlers come from the profile held after discovery. */
  function Checkout(s: Session, discovered: Option<Fields>, reply: Option<Fields>): (o: Outcome<CheckoutReply>)
    ensures !Connected(s) ==> o == Outcome(s, Err(NoMerchant))
    ensures Connected(s) ==> o.session.profile == RequireMerchant(s, discovered).value.profile
    ensures Connected(s) && |s.cart| == 0 ==> o == Outcome(RequireMerchant(s, discovered).value, Err(CartEmpty))
    ensures reply.None? ==> o.result.Err? && (Connected(s) ==> o.session == RequireMerchant(s, discovered).value)
    ensures o.session.cart == s.cart && o.session.baseUrl == s.baseUrl
    ensures o.result.Ok? ==>
      && Connected(s) && |s.cart| > 0 && reply.Some?
      && o.session.checkoutId == GetOr(reply.value, "id", Null)
      && o.result == CheckoutDetails(o.session.profile, o.session.checkoutId, reply.value)
    ensures Connected(s) && |s.cart| > 0 && BuildCreatePayload(o.session.profile, s.cart).Ok? && reply.Some? ==>
      && o.session.checkoutId == GetOr(reply.value, "id", Null)
      && o.result == CheckoutDetails(o.session.profile, o.session.checkoutId, reply.value)
  {
    match RequireMerchant(s, discovered)
    case Err(e) => Outcome(s, Err(e))
    case Ok(s1) =>
      if |s1.cart| == 0 then Outcome(s1, Err(CartEmpty))
      else match BuildCreatePayload(s1.profile, s1.cart)
        case Err(e) => Outcome(s1, Err(e))
        case Ok(_) =>
          match reply
          case None => Outcome(s1, Err(CheckoutFailed))
          case Some(data) =>
            var id := GetOr(data, "id", Null);
            Outcome(s1.(checkoutId := id), CheckoutDetails(s1.profile, id, data))
  }

  // ---- confirm_payment ----

  /** `utr or "upi_success"`: the credential token sent to `/complete`. */
  function CredentialToken(utr: string): (t: string)
    ensures t != ""
    ensures utr != "" ==> t == utr
  {
    if utr == "" then "upi_success" else utr
  }

  /** The order id in a `/complete` reply, `Null` when absent. */
  function ReplyOrderId(data: Fields): Result<Value, ClientError> {
    var order := GetOr(data, "order", Obj([]));
    if order.Obj? then Ok(GetOr(order.fields, "id", Null))
    else if !Truthy(order) then Ok(Null)
    else Err(Malformed)
  }

  /** `confirm_payment(utr)`, where `reply` is the decoded reply to
      `POST /checkout-sessions/{id}/complete`. Success empties the cart and
      forgets the session; every failure leaves the state as it was. */
  function ConfirmPayment(s: Session, utr: string, reply: Option<Fields>): (o: Outcome<Value>)
    ensures !Connected(s) ==> o == Outcome(s, Err(NoMerchant))
    ensures Connected(s) && !Truthy(s.checkoutId) ==> o == Outcome(s, Err(NoCheckout))
    ensures o.result.Err? ==> o.session == s
    ensures o.result.Ok? ==> o.session == s.(cart := [], checkoutId := Null)
    ensures Connected(s) && Truthy(s.checkoutId) && reply.None? ==> o == Outcome(s, Err(CompleteFailed))
    ensures Connected(s) && Truthy(s.checkoutId) && reply.Some? ==> (o.result.Ok? <==> ReplyOrderId(reply.value).Ok?)
    ensures o.result.Ok? ==> Truthy(o.result.value)
    ensures o.result.Ok? ==>
      && reply.Some? && ReplyOrderId(reply.value).Ok?
      && var oid := ReplyOrderId(reply.value).value;
         o.result.value == if Truthy(oid) then oid else s.checkoutId
  {
    if !Connected(s) then Outcome(s, Err(NoMerchant))
    else if !Truthy(s.checkoutId) then Outcome(s, Err(NoCheckout))
    else match reply
      case None => Outcome(s, Err(CompleteFailed))
      case Some(data) =>
        match ReplyOrderId(data)
        case Err(e) => Outcome(s, Err(e))
        case Ok(oid) =>
          Outcome(s.(cart := [], checkoutId := Null), Ok(if Truthy(oid) then oid else s.checkoutId))
  }

  /** After a completed order the next checkout finds an empty cart, and a
      second confirmation finds no checkout in progress. */
  lemma ConfirmEndsOrder(s: Session, utr: string, reply: Option<Fields>, discovered: Option<Fields>, next: Option<Fields>)
    requires ConfirmPayment(s, utr, reply).result.Ok?
    ensures Checkout(ConfirmPayment(s, utr, reply).session, discovered, next).result == Err(CartEmpty)
    ensures ConfirmPayment(ConfirmPayment(s, utr, reply).session, utr, next).result == Err(NoCheckout)
  {
  }

  // ---- browse_categories ----

  /** `p.get("category") or "general"` */
  function CategoryOf(p: Value): (r: Result<string, ClientError>)
    ensures p.Obj? && !Truthy(GetOr(p.fields, "category", Null)) ==> r == Ok("general")
    ensures p.Obj? && Get(p.fields, "category") == Some(Str("general")) ==> r == Ok("general")
    ensures p.Obj? && GetOr(p.fields, "category", Null).Str? && Truthy(GetOr(p.fields, "category", Null)) ==>
      r == Ok(GetOr(p.fields, "category", Null).s)
    ensures r.Err? <==> !p.Obj? || (Truthy(GetOr(p.fields, "category", Null)) && !GetOr(p.fields, "category", Null).Str?)
    ensures r.Ok? ==> r.value != ""
  {
    if !p.Obj? then Err(Malformed)
    else
      var c := GetOr(p.fields, "category", Null);
      if !Truthy(c) then Ok("general")
      else if c.Str? then Ok(c.s)
      else Err(Malformed)
  }

  function CategoriesOf(ps: seq<Value>): (r: Result<seq<string>, ClientError>)
    ensures r.Ok? ==> |r.value| == |ps|
    ensures r.Ok? ==> forall i :: 0 <= i < |ps| ==> CategoryOf(ps[i]) == Ok(r.value[i])
  {
    if |ps| == 0 then Ok([])
    else match (CategoryOf(ps[0]), CategoriesOf(ps[1..]))
      case (Ok(c), Ok(cs)) =>
        assert forall i :: 1 <= i < |ps| ==> ps[i] == ps[1..][i - 1];
        Ok([c] + cs)
      case (Err(e), _) => Err(e)
      case (_, Err(e)) => Err(e)
  }

  function Names(counts: seq<(string, nat)>): (r: seq<string>)
    ensures |r| == |counts|
    ensures forall i :: 0 <= i < |counts| ==> r[i] == counts[i].0
  {
    if |counts| == 0 then [] else [counts[0].0] + Names(counts[1..])
  }

  function SumOf(counts: seq<(string, nat)>): nat {
    if |counts| == 0 then 0 else counts[0].1 + SumOf(counts[1..])
  }

  /** The category table: one row per distinct category, sorted by name,
      with the number of products in it. */
  function CategoryCounts(cats: seq<string>): (r: seq<(string, nat)>)
    ensures StrictlySorted(Names(r))
    ensures forall c :: c in Names(r) <==> c in cats
    ensures forall i :: 0 <= i < |r| ==> r[i].1 == Count(cats, r[i].0)
  {
    var names := SortedUnique(cats);
    var tally := Tally(cats);
    var r := seq(|names|, i requires 0 <= i < |names| => (names[i], tally[names[i]]));
    assert Names(r) == names;
    r
  }

  lemma {:induction false} SumOfCounts(counts: seq<(string, nat)>, cats: seq<string>)
    requires forall i :: 0 <= i < |counts| ==> counts[i].1 == Count(cats, counts[i].0)
    ensures SumOf(counts) == SumCounts(Names(counts), cats)
  {
    if |counts| > 0 {
      SumOfCounts(counts[1..], cats);
      assert Names(counts)[1..] == Names(counts[1..]);
    }
  }

  /** Every product is counted exactly once. */
  lemma CategoryCountsSum(cats: seq<string>)
    ensures SumOf(CategoryCounts(cats)) == |cats|
  {
    var r := CategoryCounts(cats);
    SumOfCounts(r, cats);
    SortedIsDistinct(Names(r));
    SumCountsCovers(Names(r), cats);
  }

  /** `browse_categories()`, where `catalogue` is the decoded reply to
      `GET /catalogue`. The state never changes. */
  function BrowseCategories(s: Session, catalogue: Option<Fields>): (o: Outcome<seq<(string, nat)>>)
    ensures o.session == s
    ensures !Connected(s) ==> o.result == Err(NoMerchant)
    ensures Connected(s) && catalogue.None? ==> o.result == Err(CatalogueFailed)
    ensures o.result.Ok? ==>
      && catalogue.Some?
      && Iterate(GetOr(catalogue.value, "products", Arr([]))).Ok?
      && CategoriesOf(Iterate(GetOr(catalogue.value, "products", Arr([]))).value).Ok?
      && var cats := CategoriesOf(Iterate(GetOr(catalogue.value, "products", Arr([]))).value).value;
      && StrictlySorted(Names(o.result.value))
      && (forall c :: c in Names(o.result.value) <==> c in cats)
      && SumOf(o.result.value) == |cats|
      && (forall i :: 0 <= i < |o.result.value| ==> o.result.value[i].1 == Count(cats, o.result.value[i].0))
      && o.result.value == CategoryCounts(cats)
    ensures Connected(s) && catalogue.Some? ==>
      var products := Iterate(GetOr(catalogue.value, "products", Arr([])));
      (o.result.Ok? <==> products.Ok? && CategoriesOf(products.value).Ok?)
  {
    if !Connected(s) then Outcome(s, Err(NoMerchant))
    else match catalogue
      case None => Outcome(s, Err(CatalogueFailed))
      case Some(data) =>
        match Iterate(GetOr(data, "products", Arr([])))
        case Err(e) => Outcome(s, Err(e))
        case Ok(ps) =>
          match CategoriesOf(ps)
          case Err(e) => Outcome(s, Err(e))
          case Ok(cats) =>
            CategoryCountsSum(cats);
            Outcome(s, Ok(CategoryCounts(cats)))
  }
}

=== FILE: discovery.dfy ===
/** The merchant's discovery profile (`routes/discovery.py`): a JSON
    template whose placeholders are filled in, and the parsed profile,
    which is reshaped into what the protocol's profile schema accepts.
    Reading the template file and the environment are parameters; JSON
    parsing sits between the two halves and is not modelled. */
module Discovery {
  import opened Wrappers
  import opened Json
  import opened Text
  import opened Template

  const DefaultVpa: string := "artisan@paytm"
  const DefaultName: string := "Artisan India"
  const DefaultCategories: string := "Handicrafts, Textiles, Jewelry"
  const HandlerConfigSchema: string := "https://ucp.dev/schemas/payment-handler-config.json"

  /** The `MERCHANT_*` and `PRODUCT_CATEGORIES` environment variables. */
  datatype Env = Env(vpa: Option<string>, name: Option<string>, categories: Option<string>)

  // ---- Placeholder substitution ----

  /** `s.rstrip("/")` */
  function StripTrailingSlashes(s: string): (r: string)
    ensures r <= s
    ensures |r| == 0 || r[|r| - 1] != '/'
    ensures forall i :: |r| <= i < |s| ==> s[i] == '/'
  {
    if |s| > 0 && s[|s| - 1] == '/' then StripTrailingSlashes(s[..|s| - 1]) else s
  }

  /** `if "{{NAME}}" in s: s = s.replace("{{NAME}}", value)` */
  function Guarded(s: string, name: string, value: string): string {
    if Contains(s, Placeholder(name)) then ReplaceAll(s, Placeholder(name), value) else s
  }

  /** The `in` guard never changes the result of the replacement. */
  lemma GuardedIsReplace(s: string, name: string, value: string)
    ensures Guarded(s, name, value) == ReplaceAll(s, Placeholder(name), value)
  {
    if !Contains(s, Placeholder(name)) {
      ReplaceAbsent(s, Placeholder(name), value);
    }
  }

  /** The profile text served for a request to `baseUrl`. */
  function FillProfile(template: string, baseUrl: string, shopId: string, env: Env): string {
    var s1 := Guarded(template, "ENDPOINT", StripTrailingSlashes(baseUrl));
    var s2 := Guarded(s1, "SHOP_ID", shopId);
    var s3 := Guarded(s2, "MERCHANT_VPA", env.vpa.GetOr(DefaultVpa));
    var s4 := Guarded(s3, "MERCHANT_NAME", env.name.GetOr(DefaultName));
    Guarded(s4, "PRODUCT_CATEGORIES", env.categories.GetOr(DefaultCategories))
  }

  const ProfileHoles: set<string> := {"ENDPOINT", "SHOP_ID", "MERCHANT_VPA", "MERCHANT_NAME", "PRODUCT_CATEGORIES"}

  lemma HoleNamesPlain()
    ensures NoBraces("ENDPOINT") && NoBraces("SHOP_ID") && NoBraces("MERCHANT_VPA")
    ensures NoBraces("MERCHANT_NAME") && NoBraces("PRODUCT_CATEGORIES")
  {
  }

  /** Filling one hole of a well-formed template with plain text renders as
      the replacement and leaves a well-formed template without that hole. */
  lemma FillStep(t: seq<Piece>, name: string, value: string)
    requires WellFormed(t) && NoBraces(name) && PlainText(value)
    ensures Guarded(Render(t), name, value) == Render(Fill(t, name, value))
    ensures WellFormed(Fill(t, name, value))
    ensures Holes(Fill(t, name, value)) == Holes(t) - {name}
  {
    GuardedIsReplace(Render(t), name, value);
    ReplaceRender(t, name, value);
    FillWellFormed(t, name, value);
    FillHoles(t, name, value);
  }

  /** The five profile holes filled, in the order the route fills them. */
  function FillHolesOf(t: seq<Piece>, baseUrl: string, shopId: string, env: Env): seq<Piece> {
    var t1 := Fill(t, "ENDPOINT", StripTrailingSlashes(baseUrl));
    var t2 := Fill(t1, "SHOP_ID", shopId);
    var t3 := Fill(t2, "MERCHANT_VPA", env.vpa.GetOr(DefaultVpa));
    var t4 := Fill(t3, "MERCHANT_NAME", env.name.GetOr(DefaultName));
    Fill(t4, "PRODUCT_CATEGORIES", env.categories.GetOr(DefaultCategories))
  }

  /** Two guarded replacements in a row fill exactly the two holes named. */
  lemma FillTwo(t: seq<Piece>, a: string, va: string, b: string, vb: string)
    requires WellFormed(t)
    requires NoBraces(a) && NoBraces(b) && PlainText(va) && PlainText(vb)
    ensures var u := Fill(Fill(t, a, va), b, vb);
      && WellFormed(u)
      && Guarded(Guarded(Render(t), a, va), b, vb) == Render(u)
      && Holes(u) == Holes(t) - {a, b}
  {
    FillStep(t, a, va);
    FillStep(Fill(t, a, va), b, vb);
  }

  /** Five guarded replacements in a row fill exactly the five holes named. */
  lemma FillFive(t: seq<Piece>, a: string, va: string, b: string, vb: string, c: string, vc: string,
                 d: string, vd: string, e: string, ve: string)
    requires WellFormed(t)
    requires NoBraces(a) && NoBraces(b) && NoBraces(c) && NoBraces(d) && NoBraces(e)
    requires PlainText(va) && PlainText(vb) && PlainText(vc) && PlainText(vd) && PlainText(ve)
    ensures var u := Fill(Fill(Fill(Fill(Fill(t, a, va), b, vb), c, vc), d, vd), e, ve);
      && Guarded(Guarded(Guarded(Guarded(Guarded(Render(t), a, va), b, vb), c, vc), d, vd), e, ve) == Render(u)
      && Holes(u) == Holes(t) - {a, b, c, d, e}
  {
    FillTwo(t, a, va, b, vb);
    var t2 := Fill(Fill(t, a, va), b, vb);
    FillTwo(t2, c, vc, d, vd);
    var t4 := Fill(Fill(t2, c, vc), d, vd);
    FillStep(t4, e, ve);
  }

  /** For a template whose literal text holds no `{{`, and values that
      cannot form one, the served text is the template with exactly the
      five profile holes filled; any other placeholder stays as written. */
  lemma FillProfileFillsHoles(t: seq<Piece>, baseUrl: string, shopId: string, env: Env)
    requires WellFormed(t)
    requires PlainText(StripTrailingSlashes(baseUrl)) && PlainText(shopId)
    requires PlainText(env.vpa.GetOr(DefaultVpa)) && PlainText(env.name.GetOr(DefaultName))
    requires PlainText(env.categories.GetOr(DefaultCategories))
    ensures FillProfile(Render(t), baseUrl, shopId, env) == Render(FillHolesOf(t, baseUrl, shopId, env))
    ensures Holes(FillHolesOf(t, baseUrl, shopId, env)) == Holes(t) - ProfileHoles
  {
    HoleNamesPlain();
    FillFive(t, "ENDPOINT", StripTrailingSlashes(baseUrl), "SHOP_ID", shopId,
      "MERCHANT_VPA", env.vpa.GetOr(DefaultVpa), "MERCHANT_NAME", env.name.GetOr(DefaultName),
      "PRODUCT_CATEGORIES", env.categories.GetOr(DefaultCategories));
  }

  // ---- Normalisation of the parsed profile ----

  /** Where Python would raise on an ill-shaped profile. */
  datatype DiscoveryError =
    | NotAnObject
    | UcpNotAnObject
    | PaymentNotAnObject
    | HandlersNotAList
    | HandlerNotAnObject

  const SchemaKeys: set<string> := {"ucp", "capabilities", "payment"}

  /** A handler that carries both fields the profile schema requires. */
  predicate CompleteHandler(h: Value) {
    h.Obj? && HasKey(h.fields, "config_schema") && HasKey(h.fields, "instrument_schemas")
  }

  /** The two `setdefault` calls on one handler. */
  function DefaultHandler(h: Value): (r: Result<Value, DiscoveryError>)
    ensures r.Ok? <==> h.Obj?
    ensures r.Ok? ==> CompleteHandler(r.value)
    ensures r.Ok? ==> forall k :: HasKey(h.fields, k) ==> Get(r.value.fields, k) == Get(h.fields, k)
    ensures r.Ok? ==> forall k :: k != "config_schema" && k != "instrument_schemas" ==>
      Get(r.value.fields, k) == Get(h.fields, k)
    ensures r.Ok? && !HasKey(h.fields, "config_schema") ==>
      Get(r.value.fields, "config_schema") == Some(Str(HandlerConfigSchema))
    ensures r.Ok? && !HasKey(h.fields, "instrument_schemas") ==>
      Get(r.value.fields, "instrument_schemas") == Some(Arr([]))
  {
    if h.Obj? then
      Ok(Obj(SetDefault(SetDefault(h.fields, "config_schema", Str(HandlerConfigSchema)), "instrument_schemas", Arr([]))))
    else Err(HandlerNotAnObject)
  }

  /** A loop over a list that stops at the first element that fails. */
  function EachValue(f: Value -> Result<Value, DiscoveryError>, hs: seq<Value>): Result<seq<Value>, DiscoveryError> {
    if |hs| == 0 then Ok([])
    else match (f(hs[0]), EachValue(f, hs[1..]))
      case (Ok(h), Ok(t)) => Ok([h] + t)
      case (Err(e), _) => Err(e)
      case (_, Err(e)) => Err(e)
  }

  lemma {:induction false} EachValueAll(f: Value -> Result<Value, DiscoveryError>, hs: seq<Value>)
    ensures EachValue(f, hs).Ok? <==> forall i :: 0 <= i < |hs| ==> f(hs[i]).Ok?
    ensures EachValue(f, hs).Ok? ==>
      |EachValue(f, hs).value| == |hs| && forall i :: 0 <= i < |hs| ==> f(hs[i]) == Ok(EachValue(f, hs).value[i])
  {
    if |hs| > 0 {
      EachValueAll(f, hs[1..]);
      assert forall i :: 1 <= i < |hs| ==> hs[i] == hs[1..][i - 1];
    }
  }

  /** The `setdefault` loop over the handler list. */
  function DefaultHandlers(hs: seq<Value>): (r: Result<seq<Value>, DiscoveryError>)
    ensures r.Ok? <==> forall i :: 0 <= i < |hs| ==> hs[i].Obj?
    ensures r.Ok? ==> |r.value| == |hs| && forall i :: 0 <= i < |hs| ==> DefaultHandler(hs[i]) == Ok(r.value[i])
  {
    EachValueAll(DefaultHandler, hs);
    EachValue(DefaultHandler, hs)
  }

  /** The handler list of a profile: `d.get("payment", {}).get("handlers", [])`
      when that is a list, and no handlers otherwise. */
  function HandlersOf(f: Fields): seq<Value> {
    match Get(f, "payment")
    case Some(Obj(p)) =>
      (match Get(p, "handlers")
       case Some(Arr(hs)) => hs
       case _ => [])
    case _ => []
  }

  /** Moves top-level `capabilities` under `ucp` when both are present. */
  function MoveCapabilities(d: Fields): (r: Result<Fields, DiscoveryError>)
    ensures !(HasKey(d, "capabilities") && HasKey(d, "ucp")) ==> r == Ok(d)
    ensures r.Err? <==> HasKey(d, "capabilities") && HasKey(d, "ucp") && !Get(d, "ucp").value.Obj?
    ensures r.Ok? ==> forall k :: HasKey(r.value, k) ==> HasKey(d, k)
    ensures r.Ok? && HasKey(d, "capabilities") && HasKey(d, "ucp") ==>
      && !HasKey(r.value, "capabilities")
      && Get(r.value, "ucp").Some? && Get(r.value, "ucp").value.Obj?
      && Get(Get(r.value, "ucp").value.fields, "capabilities") == Get(d, "capabilities")
      && (forall k :: k != "capabilities" ==>
            Get(Get(r.value, "ucp").value.fields, k) == Get(Get(d, "ucp").value.fields, k))
    ensures r.Ok? ==> Get(r.value, "payment") == Get(d, "payment")
  {
    if HasKey(d, "capabilities") && HasKey(d, "ucp") then
      var caps := Get(d, "capabilities").value;
      var rest := Delete(d, "capabilities");
      match Get(rest, "ucp").value
      case Obj(u) => Ok(Set(rest, "ucp", Obj(Set(u, "capabilities", caps))))
      case _ => Err(UcpNotAnObject)
    else Ok(d)
  }

  /** A handler list the loop can complete: falsy, or a list of dicts. */
  predicate HandlersAccepted(hv: Value) {
    !Truthy(hv) || (hv.Arr? && forall i :: 0 <= i < |hv.items| ==> hv.items[i].Obj?)
  }

  /** A `payment` entry the handler loop gets through: absent, or a dict
      whose `handlers` are accepted. */
  predicate PaymentAccepted(payment: Option<Value>) {
    payment.None? || (payment.value.Obj? && HandlersAccepted(GetOr(payment.value.fields, "handlers", Arr([]))))
  }

  /** A parsed profile the reshaping gets through: `ucp` is a dict when
      capabilities must move under it, and the payment entry is accepted. */
  predicate ShapeAccepted(f: Fields) {
    && (HasKey(f, "capabilities") && HasKey(f, "ucp") ==> Get(f, "ucp").value.Obj?)
    && PaymentAccepted(Get(f, "payment"))
  }

  /** Gives every payment handler its required fields. */
  function CompleteHandlers(d: Fields): (r: Result<Fields, DiscoveryError>)
    ensures r.Ok? ==> forall k :: HasKey(r.value, k) <==> HasKey(d, k)
    ensures r.Ok? ==> forall k :: k != "payment" ==> Get(r.value, k) == Get(d, k)
    ensures r.Ok? ==> forall i :: 0 <= i < |HandlersOf(r.value)| ==> CompleteHandler(HandlersOf(r.value)[i])
    ensures r.Ok? ==> |HandlersOf(r.value)| == |HandlersOf(d)|
    ensures r.Ok? ==> forall i :: 0 <= i < |HandlersOf(d)| ==> DefaultHandler(HandlersOf(d)[i]) == Ok(HandlersOf(r.value)[i])
    ensures HasKey(d, "payment") && !Get(d, "payment").value.Obj? ==> r == Err(PaymentNotAnObject)
  {
    var payment := GetOr(d, "payment", Obj([]));
    if !payment.Obj? then Err(PaymentNotAnObject)
    else
      var hv := GetOr(payment.fields, "handlers", Arr([]));
      if !Truthy(hv) then
        assert HandlersOf(d) == [];
        Ok(d)
      else if !hv.Arr? then Err(HandlersNotAList)
      else match DefaultHandlers(hv.items)
        case Err(e) => Err(e)
        case Ok(hs) =>
          var r := Set(d, "payment", Obj(Set(payment.fields, "handlers", Arr(hs))));
          assert HandlersOf(r) == hs;
          assert HandlersOf(d) == hv.items;
          Ok(r)
  }

  /** The handler loop fails exactly on a payment entry it cannot get
      through. */
  lemma CompleteHandlersAccepted(d: Fields)
    ensures CompleteHandlers(d).Ok? <==> PaymentAccepted(Get(d, "payment"))
  {
    var payment := GetOr(d, "payment", Obj([]));
    if payment.Obj? {
      var hv := GetOr(payment.fields, "handlers", Arr([]));
      if Truthy(hv) && hv.Arr? {
        assert DefaultHandlers(hv.items).Ok? <==> forall i :: 0 <= i < |hv.items| ==> hv.items[i].Obj?;
      }
    }
  }

  /** The reshaping succeeds exactly on an accepted shape. */
  lemma ReshapeAccepted(f: Fields)
    ensures Reshape(f).Ok? <==> ShapeAccepted(f)
  {
    var d := Restrict(f, SchemaKeys);
    assert Get(d, "payment") == Get(f, "payment") && Get(d, "ucp") == Get(f, "ucp");
    assert HasKey(d, "capabilities") == HasKey(f, "capabilities");
    if MoveCapabilities(d).Ok? {
      CompleteHandlersAccepted(MoveCapabilities(d).value);
    }
  }

  /** The profile with `merchant` popped, unknown keys dropped,
      capabilities moved and handlers completed. */
  function Reshape(f: Fields): Result<Fields, DiscoveryError> {
    match MoveCapabilities(Restrict(f, SchemaKeys))
    case Err(e) => Err(e)
    case Ok(d) => CompleteHandlers(d)
  }

  /** `if v: d[k] = v` for a value `v` read with `get`. */
  function PutBack(d: Fields, k: string, v: Option<Value>): (r: Fields)
    ensures forall k' :: k' != k ==> Get(r, k') == Get(d, k')
    ensures forall k' :: HasKey(r, k') ==> HasKey(d, k') || k' == k
  {
    if v.Some? && Truthy(v.value) then Set(d, k, v.value) else d
  }

  /** Put back into a dict that lacks it, the key is there exactly when the
      value was present and truthy, and then it holds that value. */
  lemma PutBackKey(d: Fields, k: string, v: Option<Value>)
    requires !HasKey(d, k)
    ensures HasKey(PutBack(d, k, v), k) <==> v.Some? && Truthy(v.value)
    ensures HasKey(PutBack(d, k, v), k) ==> Get(PutBack(d, k, v), k) == v
  {
  }

  /** The reshaping in `get_merchant_profile` after `json.loads`: a truthy
      `merchant` goes back in, last. */
  function Normalize(profile: Value): (r: Result<Value, DiscoveryError>)
    ensures !profile.Obj? ==> r == Err(NotAnObject)
    ensures r.Ok? <==> profile.Obj? && ShapeAccepted(profile.fields)
    ensures (profile.Obj? && HasKey(profile.fields, "capabilities") && HasKey(profile.fields, "ucp")
             && !Get(profile.fields, "ucp").value.Obj?) ==> r == Err(UcpNotAnObject)
    ensures r.Ok? ==> r.value.Obj? && Reshape(profile.fields).Ok?
    ensures r.Ok? ==> r.value.fields == PutBack(Reshape(profile.fields).value, "merchant", Get(profile.fields, "merchant"))
  {
    match profile
    case Obj(f) =>
      ReshapeAccepted(f);
      (match Reshape(f)
       case Err(e) => Err(e)
       case Ok(d) => Ok(Obj(PutBack(d, "merchant", Get(f, "merchant")))))
    case _ => Err(NotAnObject)
  }

  /** Only the schema's keys and `merchant` survive. */
  lemma NormalizeKeys(profile: Value)
    requires Normalize(profile).Ok?
    ensures forall k :: HasKey(Normalize(profile).value.fields, k) ==> k in SchemaKeys || k == "merchant"
  {
    var d1 := Restrict(profile.fields, SchemaKeys);
    var d2 := MoveCapabilities(d1).value;
    var d3 := CompleteHandlers(d2).value;
    assert forall k :: HasKey(d3, k) ==> k in SchemaKeys;
  }

  /** A key outside the schema does not survive the reshaping. */
  lemma ReshapeDrops(f: Fields, k: string)
    requires k !in SchemaKeys && Reshape(f).Ok?
    ensures !HasKey(Reshape(f).value, k)
  {
    var d1 := Restrict(f, SchemaKeys);
    var d2 := MoveCapabilities(d1).value;
    assert !HasKey(d1, k) && !HasKey(d2, k);
  }

  /** `merchant` comes back, unchanged, exactly when it was there and truthy. */
  lemma NormalizeMerchant(profile: Value)
    requires Normalize(profile).Ok?
    ensures HasKey(Normalize(profile).value.fields, "merchant") <==>
      HasKey(profile.fields, "merchant") && Truthy(Get(profile.fields, "merchant").value)
    ensures HasKey(Normalize(profile).value.fields, "merchant") ==>
      Get(Normalize(profile).value.fields, "merchant") == Get(profile.fields, "merchant")
  {
    assert "merchant" !in SchemaKeys by {
      assert |"merchant"| == 8 && |"ucp"| == 3 && |"capabilities"| == 12 && |"payment"| == 7;
    }
    ReshapeDrops(profile.fields, "merchant");
    PutBackKey(Reshape(profile.fields).value, "merchant", Get(profile.fields, "merchant"));
  }

  /** Top-level `capabilities` end up under `ucp` when both are present;
      otherwise both keys are left as they were. */
  lemma NormalizeCapabilities(profile: Value)
    requires Normalize(profile).Ok?
    ensures HasKey(profile.fields, "capabilities") && HasKey(profile.fields, "ucp") ==>
      var out := Normalize(profile).value.fields;
      && !HasKey(out, "capabilities")
      && Get(out, "ucp").Some? && Get(out, "ucp").value.Obj?
      && Get(Get(out, "ucp").value.fields, "capabilities") == Get(profile.fields, "capabilities")
    ensures !(HasKey(profile.fields, "capabilities") && HasKey(profile.fields, "ucp")) ==>
      && Get(Normalize(profile).value.fields, "ucp") == Get(profile.fields, "ucp")
      && Get(Normalize(profile).value.fields, "capabilities") == Get(profile.fields, "capabilities")
  {
    var d1 := Restrict(profile.fields, SchemaKeys);
    var d2 := MoveCapabilities(d1).value;
    var d3 := CompleteHandlers(d2).value;
    var out := Normalize(profile).value.fields;
    assert Get(out, "ucp") == Get(d3, "ucp") && Get(out, "capabilities") == Get(d3, "capabilities");
  }

  /** Every payment handler gets `config_schema` and `instrument_schemas`;
      values already there are kept. */
  lemma NormalizeHandlers(profile: Value)
    requires Normalize(profile).Ok?
    ensures var hs := HandlersOf(Normalize(profile).value.fields);
      && |hs| == |HandlersOf(profile.fields)|
      && (forall i :: 0 <= i < |hs| ==> CompleteHandler(hs[i]))
      && (forall i :: 0 <= i < |hs| ==> DefaultHandler(HandlersOf(profile.fields)[i]) == Ok(hs[i]))
  {
    var f := profile.fields;
    var d1 := Restrict(f, SchemaKeys);
    assert HandlersOf(d1) == HandlersOf(f);
    var d2 := MoveCapabilities(d1).value;
    assert HandlersOf(d2) == HandlersOf(f);
    var d3 := CompleteHandlers(d2).value;
    var out := Normalize(profile).value.fields;
    assert HandlersOf(out) == HandlersOf(d3);
  }
}

=== FILE: json.dfy ===
/** Parsed JSON documents, as Python's `json` module hands them over.
    Objects keep their keys in insertion order, as Python dicts do, so an
    object is an ordered list of key/value pairs. Only integral numbers are
    modelled. */
module Json {
  import opened Wrappers

  datatype Value =
    | Null
    | Bool(b: bool)
    | Int(i: int)
    | Str(s: string)
    | Arr(items: seq<Value>)
    | Obj(fields: seq<(string, Value)>)

  type Fields = seq<(string, Value)>

  /** `k in d` */
  predicate HasKey(f: Fields, k: string) {
    |f| > 0 && (f[0].0 == k || HasKey(f[1..], k))
  }

  /** A dict never holds the same key twice. */
  predicate UniqueKeys(f: Fields) {
    |f| == 0 || (!HasKey(f[1..], f[0].0) && UniqueKeys(f[1..]))
  }

  /** `d.get(k)`: the value stored under `k`, if any. */
  function Get(f: Fields, k: string): (r: Option<Value>)
    ensures r.Some? <==> HasKey(f, k)
    ensures r.Some? ==> (k, r.value) in f
  {
    if |f| == 0 then None
    else if f[0].0 == k then Some(f[0].1)
    else Get(f[1..], k)
  }

  /** `d.get(k, default)` */
  function GetOr(f: Fields, k: string, default: Value): Value {
    Get(f, k).GetOr(default)
  }

  /** `d[k] = v`: an existing key keeps its position, a new key goes last. */
  function Set(f: Fields, k: string, v: Value): (r: Fields)
    ensures Get(r, k) == Some(v)
    ensures forall k' :: k' != k ==> Get(r, k') == Get(f, k')
    ensures HasKey(f, k) ==> |r| == |f|
    ensures !HasKey(f, k) ==> r == f + [(k, v)]
    ensures forall k' :: HasKey(r, k') <==> HasKey(f, k') || k' == k
  {
    if |f| == 0 then [(k, v)]
    else if f[0].0 == k then [(k, v)] + f[1..]
    else [f[0]] + Set(f[1..], k, v)
  }

  lemma {:induction false} SetKeepsUnique(f: Fields, k: string, v: Value)
    requires UniqueKeys(f)
    ensures UniqueKeys(Set(f, k, v))
  {
    if |f| == 0 {
    } else if f[0].0 == k {
      var r := [(k, v)] + f[1..];
      assert r[1..] == f[1..];
    } else {
      SetKeepsUnique(f[1..], k, v);
      var r := Set(f, k, v);
      assert r[1..] == Set(f[1..], k, v);
    }
  }

  /** `del d[k]` when `k in d`, and nothing otherwise. */
  function Delete(f: Fields, k: string): (r: Fields)
    ensures !HasKey(r, k)
    ensures forall k' :: k' != k ==> Get(r, k') == Get(f, k')
    ensures forall k' :: HasKey(r, k') <==> HasKey(f, k') && k' != k
  {
    if |f| == 0 then []
    else if f[0].0 == k then Delete(f[1..], k)
    else
      var t := Delete(f[1..], k);
      assert ([f[0]] + t)[1..] == t;
      [f[0]] + t
  }

  lemma {:induction false} DeleteKeepsUnique(f: Fields, k: string)
    requires UniqueKeys(f)
    ensures UniqueKeys(Delete(f, k))
  {
    if |f| == 0 {
    } else if f[0].0 == k {
      DeleteKeepsUnique(f[1..], k);
    } else {
      DeleteKeepsUnique(f[1..], k);
      var r := Delete(f, k);
      assert r[1..] == Delete(f[1..], k);
    }
  }

  /** Python truthiness: null, false, 0, "", [] and {} are false. */
  predicate Truthy(v: Value) {
    match v
    case Null => false
    case Bool(b) => b
    case Int(i) => i != 0
    case Str(s) => |s| > 0
    case Arr(items) => |items| > 0
    case Obj(fields) => |fields| > 0
  }

  /** `d1 | d2` looked up when the two share no keys: the first dict wins. */
  lemma {:induction false} GetAppend(f: Fields, g: Fields, k: string)
    ensures Get(f + g, k) == if HasKey(f, k) then Get(f, k) else Get(g, k)
  {
    if |f| > 0 {
      assert (f + g)[0] == f[0];
      assert (f + g)[1..] == f[1..] + g;
      GetAppend(f[1..], g, k);
    } else {
      assert f + g == g;
    }
  }

  /** The elements a `for` loop over `v` visits, when they may be dicts:
      `None` when `v` is not iterable or yields strings (a non-empty `str`
      or `dict`), on which the loop's `.get` would fail. */
  function Elements(v: Value): (r: Option<seq<Value>>)
    ensures v.Arr? ==> r == Some(v.items)
    ensures r.Some? && !v.Arr? ==> r == Some([]) && !Truthy(v)
  {
    match v
    case Arr(items) => Some(items)
    case Str(s) => if s == "" then Some([]) else None
    case Obj(fs) => if fs == [] then Some([]) else None
    case _ => None
  }

  /** `d.setdefault(k, v)`: adds `k` only when it is missing. */
  function SetDefault(f: Fields, k: string, v: Value): (r: Fields)
    ensures HasKey(f, k) ==> Get(r, k) == Get(f, k)
    ensures !HasKey(f, k) ==> Get(r, k) == Some(v)
    ensures forall k' :: k' != k ==> Get(r, k') == Get(f, k')
    ensures forall k' :: HasKey(r, k') <==> HasKey(f, k') || k' == k
  {
    if HasKey(f, k) then f else Set(f, k, v)
  }

  /** The dict after `del d[key]` for every key not in `keys`. */
  function Restrict(f: Fields, keys: set<string>): (r: Fields)
    ensures forall k :: HasKey(r, k) <==> HasKey(f, k) && k in keys
    ensures forall k :: k in keys ==> Get(r, k) == Get(f, k)
  {
    if |f| == 0 then []
    else
      var t := Restrict(f[1..], keys);
      if f[0].0 in keys then
        assert ([f[0]] + t)[1..] == t;
        [f[0]] + t
      else t
  }
}

=== FILE: onboard.dfy ===
/** Merchant onboarding (`onboard_merchant.py`): a catalogue CSV becomes the
    rows of `products.csv` and `inventory.csv`, the entries of
    `catalogue.json`, and a discovery profile filled from a template. The
    CSV arrives already split into cells; writing files and building the
    databases are not modelled. */
module Onboard {
  import opened Wrappers
  import opened Json
  import opened Text
  import opened Ordering
  import opened Template

  const RequiredColumns: set<string> := {"id", "title", "price", "image_url"}
  const OptionalKeys: seq<string> := ["description", "category", "origin_state", "artisan_name"]
  const DefaultInventory: nat := 100

  /** `str(DEFAULT_INVENTORY)` */
  function DefaultInventoryText(): string {
    NatToString(DefaultInventory)
  }

  datatype OnboardError =
    | MissingColumns(missing: set<string>)
    | NoRows
    | InventoryNotText
    | PriceNotInteger

  // ---- csv.DictReader ----

  /** A value of a `DictReader` row: the column is not in the header
      (`Absent`), the row is too short for it (`Missing`, Python's `None`),
      or the text in the cell. */
  datatype Cell = Absent | Missing | Val(text: string)

  /** Where a column's value comes from: the last header cell with that name. */
  function LastIndex(headers: seq<string>, key: string): (r: Option<nat>)
    ensures r.Some? ==> r.value < |headers| && headers[r.value] == key
    ensures r.Some? ==> forall j :: r.value < j < |headers| ==> headers[j] != key
    ensures r.None? <==> key !in headers
  {
    if |headers| == 0 then None
    else if headers[|headers| - 1] == key then Some(|headers| - 1)
    else LastIndex(headers[..|headers| - 1], key)
  }

  /** `row.get(key)` in a `DictReader` row. */
  function CellOf(headers: seq<string>, row: seq<string>, key: string): (c: Cell)
    ensures c.Absent? <==> key !in headers
    ensures key in headers ==>
      var j := LastIndex(headers, key).value;
      (j < |row| ==> c == Val(row[j])) && (|row| <= j ==> c == Missing)
  {
    match LastIndex(headers, key)
    case None => Absent
    case Some(j) => if j < |row| then Val(row[j]) else Missing
  }

  /** The records `DictReader` yields: every row except empty ones. */
  function DataRows(rows: seq<seq<string>>): (r: seq<seq<string>>)
    ensures |r| <= |rows|
    ensures forall x :: x in r <==> x in rows && x != []
    ensures forall x :: x != [] ==> multiset(r)[x] == multiset(rows)[x]
  {
    if |rows| == 0 then []
    else
      assert rows == [rows[0]] + rows[1..];
      if rows[0] == [] then DataRows(rows[1..])
      else [rows[0]] + DataRows(rows[1..])
  }

  /** `DataRows` is the order-preserving filter: it maps a concatenation to
      the concatenation of the filtered parts, and keeps a single row
      exactly when that row is not empty. */
  lemma {:induction false} DataRowsAppend(a: seq<seq<string>>, b: seq<seq<string>>)
    ensures DataRows(a + b) == DataRows(a) + DataRows(b)
    ensures forall x :: DataRows([x]) == if x == [] then [] else [x]
    decreases |a|
  {
    if |a| > 0 {
      assert (a + b)[1..] == a[1..] + b;
      DataRowsAppend(a[1..], b);
    } else {
      assert a + b == b;
    }
    forall x ensures DataRows([x]) == if x == [] then [] else [x] {
      assert [x][1..] == [];
    }
  }

  /** A cell as `csv.writer` writes it: `None` becomes the empty string. */
  function CellText(c: Cell): string {
    if c.Val? then c.text else ""
  }

  /** A cell as `json.dump` writes it, with `.get(key, "")` for absent keys. */
  function CellJson(c: Cell): Value {
    match c
    case Absent => Str("")
    case Missing => Null
    case Val(s) => Str(s)
  }

  /** `if r.get(key):` */
  predicate Filled(c: Cell) {
    c.Val? && c.text != ""
  }

  // ---- products.csv and inventory.csv ----

  const ProductsHeader: seq<string> := ["id", "title", "price", "image_url"]
  const InventoryHeader: seq<string> := ["product_id", "quantity"]

  function ProductRow(headers: seq<string>, row: seq<string>): seq<string> {
    [CellText(CellOf(headers, row, "id")), CellText(CellOf(headers, row, "title")),
     CellText(CellOf(headers, row, "price")), CellText(CellOf(headers, row, "image_url"))]
  }

  /** The quantity written for one record: the cell when `int()` accepts it,
      otherwise the default. A too-short row makes `int(None)` raise a
      TypeError, which the `except ValueError` does not catch. */
  function InventoryQuantity(c: Cell): (r: Result<string, OnboardError>)
    ensures c.Absent? ==> r == Ok(DefaultInventoryText())
    ensures c.Missing? ==> r == Err(InventoryNotText)
    ensures c.Val? && PyInt(c.text).Some? ==> r == Ok(c.text)
    ensures c.Val? && PyInt(c.text).None? ==> r == Ok(DefaultInventoryText())
  {
    match c
    case Absent => Ok(DefaultInventoryText())
    case Missing => Err(InventoryNotText)
    case Val(s) => if PyInt(s).Some? then Ok(s) else Ok(DefaultInventoryText())
  }

  /** The quantity written is always one `int()` accepts. */
  lemma InventoryQuantityParses(c: Cell)
    requires InventoryQuantity(c).Ok?
    ensures PyInt(InventoryQuantity(c).value).Some?
  {
    PyIntOfNatToString(DefaultInventory);
  }

  /** One `inventory.csv` row. */
  function InventoryRow(headers: seq<string>, rec: seq<string>): (r: Result<seq<string>, OnboardError>)
    ensures r.Ok? <==> InventoryQuantity(CellOf(headers, rec, "inventory_quantity")).Ok?
    ensures r.Ok? ==> |r.value| == 2 && r.value[1] == InventoryQuantity(CellOf(headers, rec, "inventory_quantity")).value
    ensures r.Ok? ==> r.value[0] == CellText(CellOf(headers, rec, "id"))
  {
    match InventoryQuantity(CellOf(headers, rec, "inventory_quantity"))
    case Ok(q) => Ok([CellText(CellOf(headers, rec, "id")), q])
    case Err(e) => Err(e)
  }

  // ---- catalogue.json ----

  /** The optional keys whose cells are filled, in the order they are added. */
  function OptionalFields(headers: seq<string>, row: seq<string>, keys: seq<string>): (r: Fields)
    ensures forall k :: HasKey(r, k) <==> k in keys && Filled(CellOf(headers, row, k))
    ensures forall k :: HasKey(r, k) ==> Filled(CellOf(headers, row, k)) && Get(r, k) == Some(Str(CellOf(headers, row, k).text))
  {
    if |keys| == 0 then []
    else
      var t := OptionalFields(headers, row, keys[1..]);
      var c := CellOf(headers, row, keys[0]);
      if Filled(c) then
        var r := [(keys[0], Str(c.text))] + t;
        assert r[1..] == t;
        r
      else t
  }

  /** The four required keys, in order, then the optional ones. */
  function Record(id: Value, title: Value, price: Value, image: Value, opt: Fields): Fields {
    [("id", id), ("title", title), ("price", price), ("image_url", image)] + opt
  }

  lemma RecordKeys(id: Value, title: Value, price: Value, image: Value, opt: Fields)
    ensures var r := Record(id, title, price, image, opt);
      && Get(r, "id") == Some(id) && Get(r, "title") == Some(title)
      && Get(r, "price") == Some(price) && Get(r, "image_url") == Some(image)
    ensures forall k :: HasKey(Record(id, title, price, image, opt), k) <==> k in RequiredColumns || HasKey(opt, k)
  {
    var base := [("id", id), ("title", title), ("price", price), ("image_url", image)];
    var r := base + opt;
    RequiredLookups(r, id, title, price, image, opt);
    forall k ensures HasKey(r, k) <==> k in RequiredColumns || HasKey(opt, k) {
      HasKeyAppend(base, opt, k);
      var b1, b2, b3 := base[1..], base[2..], base[3..];
      assert b1[1..] == b2 && b2[1..] == b3 && b3[1..] == [];
      assert HasKey(b3, k) <==> k == "image_url";
      assert HasKey(b2, k) <==> k == "price" || HasKey(b3, k);
      assert HasKey(b1, k) <==> k == "title" || HasKey(b2, k);
      assert HasKey(base, k) <==> k == "id" || HasKey(b1, k);
    }
  }

  /** The `catalogue.json` entry of one record; `int(r["price"])` must
      succeed. */
  function Entry(headers: seq<string>, row: seq<string>): (r: Result<Value, OnboardError>)
    ensures r.Ok? <==> CellOf(headers, row, "price").Val? && PyInt(CellOf(headers, row, "price").text).Some?
    ensures r.Ok? ==> r.value.Obj?
  {
    var price := CellOf(headers, row, "price");
    if price.Val? && PyInt(price.text).Some? then
      Ok(Obj(Record(CellJson(CellOf(headers, row, "id")), CellJson(CellOf(headers, row, "title")),
                    Int(PyInt(price.text).value), CellJson(CellOf(headers, row, "image_url")),
                    OptionalFields(headers, row, OptionalKeys))))
    else Err(PriceNotInteger)
  }

  /** No optional key is a required one: their lengths differ. */
  lemma OptionalNotRequired(k: string)
    requires k in OptionalKeys
    ensures k !in RequiredColumns
  {
    assert |k| == 11 || |k| == 8 || |k| == 12;
    assert |"id"| == 2 && |"title"| == 5 && |"price"| == 5 && |"image_url"| == 9;
  }

  lemma RequiredLookups(e: Fields, id: Value, title: Value, price: Value, image: Value, rest: Fields)
    requires e == [("id", id), ("title", title), ("price", price), ("image_url", image)] + rest
    ensures Get(e, "id") == Some(id) && Get(e, "title") == Some(title)
    ensures Get(e, "price") == Some(price) && Get(e, "image_url") == Some(image)
  {
    var e1, e2, e3 := e[1..], e[2..], e[3..];
    assert e1[1..] == e2 && e2[1..] == e3;
    assert e3[0] == ("image_url", image) && e2[0] == ("price", price) && e1[0] == ("title", title);
    assert Get(e2, "image_url") == Some(image);
    assert Get(e1, "image_url") == Some(image) && Get(e1, "price") == Some(price);
  }

  /** The entry has the record's id, title, integer price and image URL,
      an optional key exactly when its cell is non-empty, and no other key. */
  lemma EntryShape(headers: seq<string>, row: seq<string>)
    requires Entry(headers, row).Ok?
    ensures var e := Entry(headers, row).value.fields;
      && Get(e, "id") == Some(CellJson(CellOf(headers, row, "id")))
      && Get(e, "title") == Some(CellJson(CellOf(headers, row, "title")))
      && Get(e, "price") == Some(Int(PyInt(CellOf(headers, row, "price").text).value))
      && Get(e, "image_url") == Some(CellJson(CellOf(headers, row, "image_url")))
    ensures var e := Entry(headers, row).value.fields;
      forall k :: k in OptionalKeys ==> (HasKey(e, k) <==> Filled(CellOf(headers, row, k)))
    ensures var e := Entry(headers, row).value.fields;
      forall k :: HasKey(e, k) ==> k in RequiredColumns || k in OptionalKeys
  {
    var e := Entry(headers, row).value.fields;
    var opt := OptionalFields(headers, row, OptionalKeys);
    RecordKeys(CellJson(CellOf(headers, row, "id")), CellJson(CellOf(headers, row, "title")),
               Int(PyInt(CellOf(headers, row, "price").text).value), CellJson(CellOf(headers, row, "image_url")), opt);
    forall k | k in OptionalKeys ensures HasKey(e, k) <==> HasKey(opt, k) {
      OptionalNotRequired(k);
    }
  }

  lemma {:induction false} HasKeyAppend(f: Fields, g: Fields, k: string)
    ensures HasKey(f + g, k) <==> HasKey(f, k) || HasKey(g, k)
  {
    if |f| > 0 {
      assert (f + g)[1..] == f[1..] + g;
      HasKeyAppend(f[1..], g, k);
    } else {
      assert f + g == g;
    }
  }

  // ---- The discovery profile ----

  /** The non-empty categories of the records. */
  function Categories(headers: seq<string>, recs: seq<seq<string>>): (r: seq<string>)
    ensures forall c :: c in r ==> c != ""
    ensures forall c :: c in r <==> exists i :: 0 <= i < |recs| && CellOf(headers, recs[i], "category") == Val(c) && c != ""
  {
    if |recs| == 0 then []
    else
      var t := Categories(headers, recs[1..]);
      assert forall i :: 1 <= i < |recs| ==> recs[i] == recs[1..][i - 1];
      var c := CellOf(headers, recs[0], "category");
      if Filled(c) then [c.text] + t else t
  }

  /** `", ".join(sorted(categories)) or "general"` */
  function CategoryText(cats: seq<string>): (r: string)
    requires forall c :: c in cats ==> c != ""
    ensures r != ""
    ensures |cats| == 0 ==> r == "general"
    ensures |cats| > 0 ==> r == Join(", ", SortedUnique(cats))
  {
    var names := SortedUnique(cats);
    if |cats| == 0 then "general"
    else
      assert cats[0] in names;
      assert names[0] in cats;
      JoinNonEmpty(", ", names);
      var joined := Join(", ", names);
      if joined == "" then "general" else joined
  }

  lemma JoinNonEmpty(sep: string, parts: seq<string>)
    requires |parts| > 0 && parts[0] != ""
    ensures Join(sep, parts) != ""
  {
    if |parts| > 1 {
      assert Join(sep, parts) == parts[0] + sep + Join(sep, parts[1..]);
    }
  }

  /** The three replacements applied to the profile template. */
  function RenderProfile(template: string, name: string, vpa: string, categories: string): string {
    ReplaceAll(ReplaceAll(ReplaceAll(template, Placeholder("MERCHANT_NAME"), name),
      Placeholder("MERCHANT_VPA"), vpa), Placeholder("PRODUCT_CATEGORIES"), categories)
  }

  /** Three replacements in a row fill exactly the three holes named. */
  lemma ReplaceThree(t: seq<Piece>, a: string, x: string, b: string, y: string, c: string, z: string)
    requires WellFormed(t) && NoBraces(a) && NoBraces(b) && NoBraces(c)
    requires PlainText(x) && PlainText(y) && PlainText(z)
    ensures var u := Fill(Fill(Fill(t, a, x), b, y), c, z);
      && ReplaceAll(ReplaceAll(ReplaceAll(Render(t), Placeholder(a), x), Placeholder(b), y), Placeholder(c), z) == Render(u)
      && Holes(u) == Holes(t) - {a, b, c}
  {
    var t1 := Fill(t, a, x);
    ReplaceRender(t, a, x);
    FillWellFormed(t, a, x);
    FillHoles(t, a, x);
    var t2 := Fill(t1, b, y);
    ReplaceRender(t1, b, y);
    FillWellFormed(t1, b, y);
    FillHoles(t1, b, y);
    ReplaceRender(t2, c, z);
    FillHoles(t2, c, z);
  }

  /** For a template whose literal text holds no `{{`, and values that
      cannot form one, exactly the merchant name, VPA and category holes are
      filled; `{{ENDPOINT}}` and `{{SHOP_ID}}` survive for the server. */
  lemma RenderProfileKeepsServerHoles(t: seq<Piece>, name: string, vpa: string, categories: string)
    requires WellFormed(t) && PlainText(name) && PlainText(vpa) && PlainText(categories)
    ensures var u := Fill(Fill(Fill(t, "MERCHANT_NAME", name), "MERCHANT_VPA", vpa), "PRODUCT_CATEGORIES", categories);
      && RenderProfile(Render(t), name, vpa, categories) == Render(u)
      && Holes(u) == Holes(t) - {"MERCHANT_NAME", "MERCHANT_VPA", "PRODUCT_CATEGORIES"}
  {
    assert NoBraces("MERCHANT_NAME") && NoBraces("MERCHANT_VPA") && NoBraces("PRODUCT_CATEGORIES");
    ReplaceThree(t, "MERCHANT_NAME", name, "MERCHANT_VPA", vpa, "PRODUCT_CATEGORIES", categories);
  }

  // ---- The whole run ----

  datatype Package = Package(
    productsCsv: seq<seq<string>>,
    inventoryCsv: seq<seq<string>>,
    catalogue: seq<Value>,
    profile: Option<string>)

  /** The column names of the header row. */
  function HeaderSet(headers: seq<string>): set<string> {
    set h | h in headers
  }

  /** `REQUIRED_COLUMNS - set(headers)` */
  function MissingColumnsOf(headers: seq<string>): (m: set<string>)
    ensures forall c :: c in m <==> c in RequiredColumns && c !in headers
  {
    RequiredColumns - HeaderSet(headers)
  }

  /** A loop over the records that writes one output per record and stops
      at the first record that fails. */
  function EachRow<T>(f: seq<string> -> Result<T, OnboardError>, recs: seq<seq<string>>): Result<seq<T>, OnboardError> {
    if |recs| == 0 then Ok([])
    else
      var x := f(recs[0]);
      var t := EachRow(f, recs[1..]);
      if x.Err? then Err(x.error)
      else if t.Err? then t
      else Ok([x.value] + t.value)
  }

  /** The loop succeeds exactly when every record does, and then holds the
      output of each record in order. */
  lemma {:induction false} EachRowAll<T>(f: seq<string> -> Result<T, OnboardError>, recs: seq<seq<string>>)
    ensures EachRow(f, recs).Ok? <==> forall i :: 0 <= i < |recs| ==> f(recs[i]).Ok?
    ensures EachRow(f, recs).Ok? ==>
      var r := EachRow(f, recs).value;
      |r| == |recs| && forall i :: 0 <= i < |recs| ==> Ok(r[i]) == f(recs[i])
  {
    if |recs| > 0 {
      EachRowAll(f, recs[1..]);
      assert forall i :: 1 <= i < |recs| ==> recs[i] == recs[1..][i - 1];
    }
  }

  /** The inventory loop over the records. */
  function InventoryRows(headers: seq<string>, recs: seq<seq<string>>): Result<seq<seq<string>>, OnboardError> {
    EachRow(rec => InventoryRow(headers, rec), recs)
  }

  lemma InventoryRowsAll(headers: seq<string>, recs: seq<seq<string>>)
    ensures InventoryRows(headers, recs).Ok? <==> forall i :: 0 <= i < |recs| ==> InventoryRow(headers, recs[i]).Ok?
    ensures InventoryRows(headers, recs).Ok? ==>
      var r := InventoryRows(headers, recs).value;
      |r| == |recs| && forall i :: 0 <= i < |recs| ==> r[i] == InventoryRow(headers, recs[i]).value
  {
    EachRowAll(rec => InventoryRow(headers, rec), recs);
  }

  /** The catalogue loop over the records. */
  function Entries(headers: seq<string>, recs: seq<seq<string>>): Result<seq<Value>, OnboardError> {
    EachRow(rec => Entry(headers, rec), recs)
  }

  lemma EntriesAll(headers: seq<string>, recs: seq<seq<string>>)
    ensures Entries(headers, recs).Ok? <==> forall i :: 0 <= i < |recs| ==> Entry(headers, recs[i]).Ok?
    ensures Entries(headers, recs).Ok? ==>
      var r := Entries(headers, recs).value;
      |r| == |recs| && forall i :: 0 <= i < |recs| ==> Ok(r[i]) == Entry(headers, recs[i])
  {
    EachRowAll(rec => Entry(headers, rec), recs);
  }

  /** `products.csv`: the header, then one row per record. */
  function ProductsCsv(headers: seq<string>, recs: seq<seq<string>>): (r: seq<seq<string>>)
    ensures |r| == |recs| + 1 && r[0] == ProductsHeader
    ensures forall i :: 0 <= i < |recs| ==> r[i + 1] == ProductRow(headers, recs[i])
  {
    [ProductsHeader] + seq(|recs|, i requires 0 <= i < |recs| => ProductRow(headers, recs[i]))
  }

  /** The discovery profile, when the template exists. */
  function Profile(headers: seq<string>, recs: seq<seq<string>>, name: string, vpa: string,
                   template: Option<string>): Option<string> {
    match template
    case None => None
    case Some(t) => Some(RenderProfile(t, name, vpa, CategoryText(Categories(headers, recs))))
  }

  /** `main()` from reading the CSV to writing the profile; `template` is
      the India profile template, `None` when the file is missing. */
  function Onboard(headers: seq<string>, rows: seq<seq<string>>, name: string, vpa: string,
                   template: Option<string>): (r: Result<Package, OnboardError>)
    ensures MissingColumnsOf(headers) != {} <==> r == Err(MissingColumns(MissingColumnsOf(headers)))
    ensures MissingColumnsOf(headers) == {} && |DataRows(rows)| == 0 ==> r == Err(NoRows)
    ensures MissingColumnsOf(headers) == {} && |DataRows(rows)| > 0 ==>
      (r.Ok? <==> InventoryRows(headers, DataRows(rows)).Ok? && Entries(headers, DataRows(rows)).Ok?)
    ensures MissingColumnsOf(headers) == {} && |DataRows(rows)| > 0 && InventoryRows(headers, DataRows(rows)).Err? ==>
      r == Err(InventoryNotText)
    ensures (MissingColumnsOf(headers) == {} && |DataRows(rows)| > 0 && InventoryRows(headers, DataRows(rows)).Ok?
             && Entries(headers, DataRows(rows)).Err?) ==> r == Err(PriceNotInteger)
    ensures r.Ok? ==>
      var recs := DataRows(rows);
      && |recs| > 0
      && |r.value.productsCsv| == |recs| + 1 && r.value.productsCsv[0] == ProductsHeader
      && (forall i :: 0 <= i < |recs| ==> r.value.productsCsv[i + 1] == ProductRow(headers, recs[i]))
      && InventoryRows(headers, recs).Ok? && r.value.inventoryCsv == [InventoryHeader] + InventoryRows(headers, recs).value
      && Entries(headers, recs) == Ok(r.value.catalogue)
      && (r.value.profile.Some? <==> template.Some?)
    ensures r.Ok? && template.Some? ==>
      r.value.profile == Some(RenderProfile(template.value, name, vpa,
        CategoryText(Categories(headers, DataRows(rows)))))
  {
    var missing := MissingColumnsOf(headers);
    if missing != {} then Err(MissingColumns(missing))
    else
      var recs := DataRows(rows);
      if |recs| == 0 then Err(NoRows)
      else
        var inv := InventoryRows(headers, recs);
        var entries := Entries(headers, recs);
        if inv.Err? then Err(InventoryNotText)
        else if entries.Err? then Err(PriceNotInteger)
        else
          Ok(Package(ProductsCsv(headers, recs), [InventoryHeader] + inv.value, entries.value,
                     Profile(headers, recs, name, vpa, template)))
  }

  /** Every quantity the inventory loop writes is one `int()` accepts. */
  lemma InventoryRowsParse(headers: seq<string>, recs: seq<seq<string>>)
    requires InventoryRows(headers, recs).Ok?
    ensures var r := InventoryRows(headers, recs).value;
      |r| == |recs| && forall i :: 0 <= i < |r| ==> |r[i]| == 2 && PyInt(r[i][1]).Some?
  {
    var r := InventoryRows(headers, recs).value;
    InventoryRowsAll(headers, recs);
    forall i | 0 <= i < |r| ensures |r[i]| == 2 && PyInt(r[i][1]).Some? {
      InventoryQuantityParses(CellOf(headers, recs[i], "inventory_quantity"));
    }
  }

  /** Catalogue entry i is the entry of data row i. */
  lemma OnboardCatalogue(headers: seq<string>, rows: seq<seq<string>>, name: string, vpa: string, template: Option<string>)
    requires Onboard(headers, rows, name, vpa, template).Ok?
    ensures var p := Onboard(headers, rows, name, vpa, template).value;
      && |p.catalogue| == |DataRows(rows)|
      && forall i :: 0 <= i < |p.catalogue| ==> Entry(headers, DataRows(rows)[i]) == Ok(p.catalogue[i])
  {
    EntriesAll(headers, DataRows(rows));
  }
}

=== FILE: ordering.dfy ===
/** Python's ordering of `str` values (lexicographic by code point),
    `sorted(set(xs))` as a strictly increasing sequence, and occurrence
    counts as `dict` tallies produce them. */
module Ordering {

  /** `a < b` on Python strings. */
  predicate Less(a: string, b: string)
    decreases |a|
  {
    if |a| == 0 then |b| > 0
    else if |b| == 0 then false
    else if a[0] != b[0] then a[0] < b[0]
    else Less(a[1..], b[1..])
  }

  lemma {:induction false} LessIrreflexive(a: string)
    ensures !Less(a, a)
    decreases |a|
  {
    if |a| > 0 {
      LessIrreflexive(a[1..]);
    }
  }

  lemma {:induction false} LessAsymmetric(a: string, b: string)
    requires Less(a, b)
    ensures !Less(b, a)
    decreases |a|
  {
    if |a| > 0 && |b| > 0 && a[0] == b[0] {
      LessAsymmetric(a[1..], b[1..]);
    }
  }

  lemma {:induction false} LessTransitive(a: string, b: string, c: string)
    requires Less(a, b) && Less(b, c)
    ensures Less(a, c)
    decreases |a|
  {
    if |a| > 0 && a[0] == b[0] && b[0] == c[0] {
      LessTransitive(a[1..], b[1..], c[1..]);
    }
  }

  lemma {:induction false} LessTotal(a: string, b: string)
    ensures a == b || Less(a, b) || Less(b, a)
    decreases |a|
  {
    if |a| > 0 && |b| > 0 && a[0] == b[0] {
      assert a == [a[0]] + a[1..] && b == [b[0]] + b[1..];
      LessTotal(a[1..], b[1..]);
    }
  }

  predicate StrictlySorted(xs: seq<string>) {
    forall i, j :: 0 <= i < j < |xs| ==> Less(xs[i], xs[j])
  }

  predicate Distinct<T(==)>(xs: seq<T>) {
    forall i, j :: 0 <= i < j < |xs| ==> xs[i] != xs[j]
  }

  lemma SortedIsDistinct(xs: seq<string>)
    requires StrictlySorted(xs)
    ensures Distinct(xs)
  {
    forall i, j | 0 <= i < j < |xs| ensures xs[i] != xs[j] {
      LessIrreflexive(xs[i]);
    }
  }

  /** Adds `x` to a strictly sorted sequence, unless it is already there. */
  function Insert(xs: seq<string>, x: string): (r: seq<string>)
    requires StrictlySorted(xs)
    ensures StrictlySorted(r)
    ensures forall y :: y in r <==> y in xs || y == x
  {
    if |xs| == 0 then [x]
    else if xs[0] == x then xs
    else if Less(x, xs[0]) then
      assert StrictlySorted([x] + xs) by {
        forall j | 0 <= j < |xs| ensures Less(x, xs[j]) {
          if j > 0 {
            LessTransitive(x, xs[0], xs[j]);
          }
        }
        var r := [x] + xs;
        forall i, j | 0 <= i < j < |r| ensures Less(r[i], r[j]) {
          assert r[j] == xs[j - 1];
          if i > 0 {
            assert r[i] == xs[i - 1];
          }
        }
      }
      [x] + xs
    else
      var t := Insert(xs[1..], x);
      LessTotal(x, xs[0]);
      assert StrictlySorted([xs[0]] + t) by {
        forall j | 0 <= j < |t| ensures Less(xs[0], t[j]) {
          assert t[j] in xs[1..] || t[j] == x;
        }
      }
      [xs[0]] + t
  }

  /** `sorted(set(xs))` */
  function SortedUnique(xs: seq<string>): (r: seq<string>)
    ensures StrictlySorted(r)
    ensures forall y :: y in r <==> y in xs
  {
    if |xs| == 0 then []
    else Insert(SortedUnique(xs[..|xs| - 1]), xs[|xs| - 1])
  }

  lemma HeadIsMember(b: seq<string>)
    requires |b| > 0
    ensures b[0] in b
  {
  }

  /** There is only one strictly sorted arrangement of a set of strings, so
      `SortedUnique` is what `sorted` returns however the set was built. */
  lemma {:induction false} SortedArrangementUnique(a: seq<string>, b: seq<string>)
    requires StrictlySorted(a) && StrictlySorted(b)
    requires forall y :: y in a <==> y in b
    ensures a == b
    decreases |a|
  {
    if |a| == 0 {
      if |b| > 0 {
        HeadIsMember(b);
        assert false;
      }
    } else {
      assert |b| > 0 by {
        assert a[0] in b;
      }
      assert !Less(a[0], b[0]) by {
        var k :| 0 <= k < |b| && b[k] == a[0];
        if k == 0 {
          LessIrreflexive(b[0]);
        } else {
          LessAsymmetric(b[0], b[k]);
        }
      }
      assert !Less(b[0], a[0]) by {
        assert b[0] in a;
        var k :| 0 <= k < |a| && a[k] == b[0];
        if k == 0 {
          LessIrreflexive(a[0]);
        } else {
          LessAsymmetric(a[0], a[k]);
        }
      }
      LessTotal(a[0], b[0]);
      SortedIsDistinct(a);
      SortedIsDistinct(b);
      forall y ensures y in a[1..] <==> y in b[1..] {
        if y in a[1..] {
          var i :| 1 <= i < |a| && a[i] == y;
          assert y != a[0];
          assert y in b;
        }
        if y in b[1..] {
          var i :| 1 <= i < |b| && b[i] == y;
          assert y != b[0];
          assert y in a;
        }
      }
      SortedArrangementUnique(a[1..], b[1..]);
      assert a == [a[0]] + a[1..] && b == [b[0]] + b[1..];
    }
  }

  /** `xs.count(x)` */
  function Count<T(==)>(xs: seq<T>, x: T): nat {
    if |xs| == 0 then 0
    else Count(xs[..|xs| - 1], x) + (if xs[|xs| - 1] == x then 1 else 0)
  }

  lemma {:induction false} CountAppend<T>(a: seq<T>, b: seq<T>, x: T)
    ensures Count(a + b, x) == Count(a, x) + Count(b, x)
    decreases |b|
  {
    if |b| == 0 {
      assert a + b == a;
    } else {
      assert (a + b)[..|a + b| - 1] == a + b[..|b| - 1];
      CountAppend(a, b[..|b| - 1], x);
    }
  }

  lemma {:induction false} CountZero<T>(xs: seq<T>, x: T)
    ensures Count(xs, x) == 0 <==> x !in xs
  {
    if |xs| > 0 {
      CountZero(xs[..|xs| - 1], x);
      assert xs == xs[..|xs| - 1] + [xs[|xs| - 1]];
    }
  }

  lemma {:induction false} CountDistinct<T>(xs: seq<T>, x: T)
    requires Distinct(xs)
    ensures Count(xs, x) == if x in xs then 1 else 0
  {
    if |xs| > 0 {
      var p := xs[..|xs| - 1];
      assert xs == p + [xs[|xs| - 1]];
      CountDistinct(p, x);
      if x == xs[|xs| - 1] {
        CountZero(p, x);
      }
    }
  }

  /** `by_cat = {}; for c in xs: by_cat[c] = by_cat.get(c, 0) + 1` */
  function Tally(xs: seq<string>): (m: map<string, nat>)
    ensures forall k :: k in m <==> k in xs
    ensures forall k :: k in m ==> m[k] == Count(xs, k)
  {
    if |xs| == 0 then map[]
    else
      var p := xs[..|xs| - 1];
      var x := xs[|xs| - 1];
      var m := Tally(p);
      assert forall k :: k in xs <==> k in p || k == x by {
        assert xs == p + [x];
      }
      CountZero(p, x);
      m[x := (if x in m then m[x] else 0) + 1]
  }

  /** The counts of `xs` under each of `names`, added up. */
  function SumCounts(names: seq<string>, xs: seq<string>): nat {
    if |names| == 0 then 0 else Count(xs, names[0]) + SumCounts(names[1..], xs)
  }

  lemma {:induction false} SumCountsEmpty(names: seq<string>)
    ensures SumCounts(names, []) == 0
  {
    if |names| > 0 {
      SumCountsEmpty(names[1..]);
    }
  }

  lemma {:induction false} SumCountsSnoc(names: seq<string>, xs: seq<string>, x: string)
    ensures SumCounts(names, xs + [x]) == SumCounts(names, xs) + Count(names, x)
  {
    if |names| > 0 {
      SumCountsSnoc(names[1..], xs, x);
      assert (xs + [x])[..|xs + [x]| - 1] == xs;
      assert names == [names[0]] + names[1..];
      CountAppend([names[0]], names[1..], x);
      assert Count([names[0]], x) == if names[0] == x then 1 else 0 by {
        assert [names[0]][..0] == [];
      }
    }
  }

  /** Counting `xs` under a list of distinct names that covers it accounts
      for every element exactly once. */
  lemma {:induction false} SumCountsCovers(names: seq<string>, xs: seq<string>)
    requires Distinct(names)
    requires forall x :: x in xs ==> x in names
    ensures SumCounts(names, xs) == |xs|
    decreases |xs|
  {
    if |xs| == 0 {
      SumCountsEmpty(names);
    } else {
      var p := xs[..|xs| - 1];
      var x := xs[|xs| - 1];
      assert xs == p + [x];
      SumCountsCovers(names, p);
      SumCountsSnoc(names, p, x);
      CountDistinct(names, x);
    }
  }
}

=== FILE: payment.dfy ===
/** The UPI deep link of payment.py: the amount in rupees with two decimals,
    payee name and note escaped as `urllib.parse.quote` escapes them, and the
    fixed `upi://pay?pa=…&pn=…&am=…&cu=INR&tn=…` layout.

    Percent-encoding follows section 2.1 of RFC 3986; the characters `quote`
    leaves alone are the unreserved set of section 2.3 plus `/`. */
module Payment {
  import opened Wrappers
  import opened Text
  import Utf8

  type Byte = Utf8.Byte

  // ---- Percent-encoding ----

  /** ALPHA / DIGIT / "-" / "." / "_" / "~" (section 2.3 of RFC 3986). */
  predicate Unreserved(c: char) {
    IsUpper(c) || IsLower(c) || IsDigit(c) || c == '-' || c == '.' || c == '_' || c == '~'
  }

  /** `quote`'s default `safe="/"` added to the unreserved set. */
  predicate QuoteSafe(c: char) {
    Unreserved(c) || c == '/'
  }

  predicate IsHexUpper(c: char) {
    IsDigit(c) || ('A' <= c <= 'F')
  }

  function HexDigit(d: nat): (c: char)
    requires d < 16
    ensures IsHexUpper(c)
  {
    if d < 10 then DigitChar(d) else ('A' as int + (d - 10)) as char
  }

  /** The value of a hexadecimal digit; lower-case digits are accepted too,
      as section 2.1 of RFC 3986 asks of decoders. */
  function HexValue(c: char): Option<nat> {
    if IsDigit(c) then Some(c as int - '0' as int)
    else if 'A' <= c <= 'F' then Some(c as int - 'A' as int + 10)
    else if 'a' <= c <= 'f' then Some(c as int - 'a' as int + 10)
    else None
  }

  lemma HexValueOfDigit(d: nat)
    requires d < 16
    ensures HexValue(HexDigit(d)) == Some(d)
  {
  }

  /** One byte as `quote` writes it: itself when safe, else `%XX` in upper case. */
  function QuoteByte(b: Byte): string {
    if b < 0x80 && QuoteSafe(b as char) then [b as char]
    else ['%', HexDigit(b / 16), HexDigit(b % 16)]
  }

  function QuoteBytes(bs: seq<Byte>): string {
    if |bs| == 0 then [] else QuoteByte(bs[0]) + QuoteBytes(bs[1..])
  }

  /** `urllib.parse.quote(s)`: UTF-8 encode, then escape every byte that is
      not safe. */
  function Quote(s: string): string {
    QuoteBytes(Utf8.Encode(s))
  }

  /** The shape of `quote`'s output: safe characters and `%XX` triplets with
      upper-case hexadecimal digits, nothing else. */
  predicate Encoded(q: string)
    decreases |q|
  {
    if |q| == 0 then true
    else if QuoteSafe(q[0]) then Encoded(q[1..])
    else |q| >= 3 && q[0] == '%' && IsHexUpper(q[1]) && IsHexUpper(q[2]) && Encoded(q[3..])
  }

  /** Percent-decoding (section 2.1 of RFC 3986): each `%XX` becomes the
      byte XX, any other character its UTF-8 bytes; a `%` without two hex
      digits after it is an error. */
  function PercentDecode(q: string): Option<seq<Byte>>
    decreases |q|
  {
    if |q| == 0 then Some([])
    else if q[0] == '%' then
      if |q| < 3 then None
      else match (HexValue(q[1]), HexValue(q[2]))
        case (Some(hi), Some(lo)) =>
          if hi < 16 && lo < 16 then
            match PercentDecode(q[3..])
            case None => None
            case Some(rest) => Some([hi * 16 + lo] + rest)
          else None
        case _ => None
    else
      match PercentDecode(q[1..])
      case None => None
      case Some(rest) => Some(Utf8.EncodeChar(q[0]) + rest)
  }

  /** The text a percent-encoded string stands for. */
  function Unquote(q: string): Option<string> {
    match PercentDecode(q)
    case None => None
    case Some(bs) => Utf8.Decode(bs)
  }

  lemma QuoteByteShape(b: Byte, rest: string)
    ensures Encoded(rest) ==> Encoded(QuoteByte(b) + rest)
    ensures PercentDecode(QuoteByte(b) + rest) ==
      match PercentDecode(rest)
      case None => None
      case Some(r) => Some([b] + r)
  {
    var q := QuoteByte(b) + rest;
    if b < 0x80 && QuoteSafe(b as char) {
      assert q[1..] == rest;
    } else {
      assert q[3..] == rest;
      assert !QuoteSafe('%');
      HexValueOfDigit(b / 16);
      HexValueOfDigit(b % 16);
    }
  }

  lemma {:induction false} QuoteBytesShape(bs: seq<Byte>)
    ensures Encoded(QuoteBytes(bs))
    ensures PercentDecode(QuoteBytes(bs)) == Some(bs)
  {
    if |bs| > 0 {
      QuoteBytesShape(bs[1..]);
      QuoteByteShape(bs[0], QuoteBytes(bs[1..]));
      assert bs == [bs[0]] + bs[1..];
    }
  }

  /** `quote` emits only unreserved characters, `/` and `%XX` triplets. */
  lemma QuoteIsEncoded(s: string)
    ensures Encoded(Quote(s))
  {
    QuoteBytesShape(Utf8.Encode(s));
  }

  /** Percent-decoding the payee name gives back the name. */
  lemma UnquoteQuote(s: string)
    ensures Unquote(Quote(s)) == Some(s)
  {
    QuoteBytesShape(Utf8.Encode(s));
    Utf8.DecodeEncode(s);
  }

  /** Text made of safe characters only, such as "Merchant", passes through
      `quote` unchanged. */
  lemma {:induction false} QuoteSafeText(s: string)
    requires forall i :: 0 <= i < |s| ==> QuoteSafe(s[i])
    ensures Quote(s) == s
  {
    if |s| > 0 {
      QuoteSafeText(s[1..]);
      assert QuoteSafe(s[0]);
      assert Utf8.Encode(s) == [s[0] as int] + Utf8.Encode(s[1..]);
      assert s == [s[0]] + s[1..];
    }
  }

  /** An encoded string never holds `&` or `=`, so it cannot break the
      query string it is placed in. */
  lemma {:induction false} EncodedExcludes(q: string, c: char)
    requires Encoded(q)
    requires !QuoteSafe(c) && c != '%' && !IsHexUpper(c)
    ensures Excludes(q, c)
    decreases |q|
  {
    if |q| > 0 {
      if QuoteSafe(q[0]) {
        EncodedExcludes(q[1..], c);
        assert forall j :: 1 <= j < |q| ==> q[j] == q[1..][j - 1];
      } else {
        EncodedExcludes(q[3..], c);
        assert forall j :: 3 <= j < |q| ==> q[j] == q[3..][j - 3];
      }
    }
  }

  // ---- Amount ----

  /** `f"{amount_paise / 100:.2f}"` computed exactly: the sign, the whole
      rupees, a point, and two digits of paise. */
  function FormatAmount(paise: int): string {
    var m: nat := if paise < 0 then -paise else paise;
    (if paise < 0 then "-" else "") + NatToString(m / 100) + "." + [DigitChar(m % 100 / 10), DigitChar(m % 10)]
  }

  /** The paise that rupee digits and two paise digits stand for. */
  function Paise(whole: string, frac: string): nat
    requires AllDigits(whole) && AllDigits(frac)
  {
    DigitsValue(whole) * 100 + DigitsValue(frac)
  }

  /** Reads `digits.dd` back into paise. */
  function ParseUnsigned(body: string): Option<nat> {
    var parts := SplitOnce(body, '.');
    if parts.None? then None
    else
      var whole, frac := parts.value.0, parts.value.1;
      if |whole| > 0 && AllDigits(whole) && |frac| == 2 && AllDigits(frac) then
        Some(Paise(whole, frac))
      else None
  }

  /** Reads an amount written as `[-]digits.dd` back into paise. */
  function ParseAmount(am: string): Option<int> {
    if |am| > 0 && am[0] == '-' then
      match ParseUnsigned(am[1..])
      case None => None
      case Some(v) => Some(-(v as int))
    else
      match ParseUnsigned(am)
      case None => None
      case Some(v) => Some(v)
  }

  lemma TwoDigits(m: nat)
    ensures var f := [DigitChar(m % 100 / 10), DigitChar(m % 10)];
            AllDigits(f) && DigitsValue(f) == m % 100
  {
    var f := [DigitChar(m % 100 / 10), DigitChar(m % 10)];
    assert f[..1] == [DigitChar(m % 100 / 10)];
    assert f[..1][..0] == [];
    assert DigitsValue(f[..1]) == m % 100 / 10;
    assert DigitsValue(f) == (m % 100 / 10) * 10 + m % 10;
  }

  lemma SplitAtPoint(whole: string, frac: string)
    requires AllDigits(whole)
    ensures SplitOnce(whole + "." + frac, '.') == Some((whole, frac))
  {
    var body := whole + "." + frac;
    assert body[|whole|] == '.';
    assert forall j :: 0 <= j < |whole| ==> body[j] == whole[j];
    assert FindChar(body, '.') == Some(|whole|);
    assert body[..|whole|] == whole;
    assert body[|whole| + 1..] == frac;
  }

  /** Digits, a point and two digits read back as the value they spell. */
  lemma ParseDigits(whole: string, frac: string)
    requires |whole| > 0 && AllDigits(whole) && |frac| == 2 && AllDigits(frac)
    ensures ParseUnsigned(whole + "." + frac) == Some(Paise(whole, frac))
  {
    SplitAtPoint(whole, frac);
    ParseSplit(whole + "." + frac, whole, frac);
  }

  lemma ParseSplit(body: string, whole: string, frac: string)
    requires SplitOnce(body, '.') == Some((whole, frac))
    requires |whole| > 0 && AllDigits(whole) && |frac| == 2 && AllDigits(frac)
    ensures ParseUnsigned(body) == Some(Paise(whole, frac))
  {
  }

  /** A leading `-` negates; a body that starts with a digit is read as is. */
  lemma ParseSigned(neg: bool, body: string, v: nat)
    requires |body| > 0 && IsDigit(body[0]) && ParseUnsigned(body) == Some(v)
    ensures ParseAmount((if neg then "-" else "") + body) == Some(if neg then -(v as int) else v as int)
  {
    var am := (if neg then "-" else "") + body;
    if neg {
      assert am[1..] == body;
    } else {
      assert am == body;
    }
  }

  /** The amount string says exactly how many paise were charged: reading it
      back gives the original amount, for every integer amount. */
  lemma ParseFormatAmount(paise: int)
    ensures ParseAmount(FormatAmount(paise)) == Some(paise)
  {
    var m: nat := if paise < 0 then -paise else paise;
    var whole := NatToString(m / 100);
    var frac := [DigitChar(m % 100 / 10), DigitChar(m % 10)];
    var body := whole + "." + frac;
    assert FormatAmount(paise) == (if paise < 0 then "-" else "") + body;
    DigitsValueOfNatToString(m / 100);
    TwoDigits(m);
    assert Paise(whole, frac) == m;
    ParseDigits(whole, frac);
    assert body[0] == whole[0];
    ParseSigned(paise < 0, body, m);
  }

  /** 100000 paise is "1000.00" and 5 paise is "0.05". */
  lemma AmountExamples()
    ensures FormatAmount(100000) == "1000.00"
    ensures FormatAmount(5) == "0.05"
  {
    assert NatToString(1000) == "1000" by {
      assert NatToString(1) == "1";
      assert NatToString(10) == "10";
      assert NatToString(100) == "100";
    }
    assert NatToString(0) == "0";
  }

  // ---- The deep link ----

  /** `note or f"Order_{order_id}"`: an absent or empty note falls back to
      the order reference. */
  function TransactionNote(orderId: string, note: Option<string>): (tn: string)
    ensures note.Some? && note.value != "" ==> tn == note.value
    ensures note.None? || note.value == "" ==> tn == "Order_" + orderId
  {
    if note.Some? && note.value != "" then note.value else "Order_" + orderId
  }

  /** `generate_upi_link(vpa, name, amount_paise, order_id, note)`. The VPA is
      inserted as given, without escaping. */
  function UpiLink(vpa: string, name: string, amountPaise: int, orderId: string, note: Option<string>): string {
    "upi://pay?pa=" + vpa + "&pn=" + Quote(name) + "&am=" + FormatAmount(amountPaise)
      + "&cu=INR&tn=" + Quote(TransactionNote(orderId, note))
  }

  const Scheme: string := "upi://pay?"

  /** The `key=value` fields of a `upi://pay?` link's query, split on `&`. */
  function QueryFields(link: string): seq<string> {
    if Scheme <= link then Split(link[|Scheme|..], '&') else []
  }

  lemma AmountExcludesAmp(paise: int)
    ensures Excludes(FormatAmount(paise), '&')
  {
    var m: nat := if paise < 0 then -paise else paise;
    var w := NatToString(m / 100);
    assert forall j :: 0 <= j < |w| ==> IsDigit(w[j]);
  }

  /** The five query fields of a link, in the order the link writes them. */
  function LinkFields(vpa: string, name: string, amountPaise: int, orderId: string, note: Option<string>): seq<string> {
    ["pa=" + vpa, "pn=" + Quote(name), "am=" + FormatAmount(amountPaise), "cu=INR",
     "tn=" + Quote(TransactionNote(orderId, note))]
  }

  /** The link's pieces regrouped field by field, over arbitrary pieces. */
  lemma RegroupPieces(scheme: string, pa: string, v0: string, amp: string, pn: string, v1: string,
                      am: string, v2: string, cu: string, tn: string, v3: string)
    ensures (scheme + pa) + v0 + (amp + pn) + v1 + (amp + am) + v2 + (amp + (cu + amp + tn)) + v3
         == scheme + ((pa + v0) + amp + ((pn + v1) + amp + ((am + v2) + amp + (cu + amp + (tn + v3)))))
  {
  }

  lemma Regroup(v0: string, v1: string, v2: string, v3: string)
    ensures "upi://pay?pa=" + v0 + "&pn=" + v1 + "&am=" + v2 + "&cu=INR&tn=" + v3
         == Scheme + (("pa=" + v0) + "&" + (("pn=" + v1) + "&" + (("am=" + v2) + "&" + ("cu=INR" + "&" + ("tn=" + v3)))))
  {
    assert "upi://pay?pa=" == Scheme + "pa=";
    assert "&pn=" == "&" + "pn=";
    assert "&am=" == "&" + "am=";
    assert "&cu=INR&tn=" == "&" + ("cu=INR" + "&" + "tn=");
    RegroupPieces(Scheme, "pa=", v0, "&", "pn=", v1, "am=", v2, "cu=INR", "tn=", v3);
  }

  lemma LinkIsJoin(vpa: string, name: string, amountPaise: int, orderId: string, note: Option<string>)
    ensures var parts := LinkFields(vpa, name, amountPaise, orderId, note);
      UpiLink(vpa, name, amountPaise, orderId, note) == Scheme + Join("&", parts)
  {
    var parts := LinkFields(vpa, name, amountPaise, orderId, note);
    var q := Quote(name);
    var a := FormatAmount(amountPaise);
    var t := Quote(TransactionNote(orderId, note));
    Regroup(vpa, q, a, t);
    assert parts[4..] == [parts[4]];
    assert parts[3..][1..] == parts[4..];
    assert parts[2..][1..] == parts[3..];
    assert parts[1..][1..] == parts[2..];
    assert Join("&", parts[3..]) == parts[3] + "&" + parts[4];
    assert Join("&", parts[2..]) == parts[2] + "&" + (parts[3] + "&" + parts[4]);
    assert Join("&", parts[1..]) == parts[1] + "&" + (parts[2] + "&" + (parts[3] + "&" + parts[4]));
    assert Join("&", parts) == parts[0] + "&" + (parts[1] + "&" + (parts[2] + "&" + (parts[3] + "&" + parts[4])));
  }

  lemma PrefixedExcludes(key: string, v: string, c: char)
    requires Excludes(key, c) && Excludes(v, c)
    ensures Excludes(key + v, c)
  {
    assert forall j :: |key| <= j < |key + v| ==> (key + v)[j] == v[j - |key|];
  }

  lemma LinkFieldsExcludeAmp(vpa: string, name: string, amountPaise: int, orderId: string, note: Option<string>)
    requires Excludes(vpa, '&')
    ensures var parts := LinkFields(vpa, name, amountPaise, orderId, note);
      forall i :: 0 <= i < |parts| ==> Excludes(parts[i], '&')
  {
    var tn := TransactionNote(orderId, note);
    QuoteIsEncoded(name);
    QuoteIsEncoded(tn);
    EncodedExcludes(Quote(name), '&');
    EncodedExcludes(Quote(tn), '&');
    AmountExcludesAmp(amountPaise);
    PrefixedExcludes("pa=", vpa, '&');
    PrefixedExcludes("pn=", Quote(name), '&');
    PrefixedExcludes("am=", FormatAmount(amountPaise), '&');
    PrefixedExcludes("tn=", Quote(tn), '&');
    assert Excludes("cu=INR", '&');
  }

  /** Read back field by field, the link carries the VPA as given, the
      escaped name (which unescapes to the name), the amount (which reads
      back as the paise), the currency INR, and the escaped note, provided
      the VPA holds no `&`. */
  lemma UpiLinkFields(vpa: string, name: string, amountPaise: int, orderId: string, note: Option<string>)
    requires Excludes(vpa, '&')
    ensures QueryFields(UpiLink(vpa, name, amountPaise, orderId, note)) ==
      ["pa=" + vpa, "pn=" + Quote(name), "am=" + FormatAmount(amountPaise), "cu=INR",
       "tn=" + Quote(TransactionNote(orderId, note))]
    ensures Unquote(Quote(name)) == Some(name)
    ensures ParseAmount(FormatAmount(amountPaise)) == Some(amountPaise)
  {
    var parts := LinkFields(vpa, name, amountPaise, orderId, note);
    var link := UpiLink(vpa, name, amountPaise, orderId, note);
    LinkIsJoin(vpa, name, amountPaise, orderId, note);
    LinkFieldsExcludeAmp(vpa, name, amountPaise, orderId, note);
    assert link[|Scheme|..] == Join("&", parts);
    SplitJoin(parts, '&');
    UnquoteQuote(name);
    ParseFormatAmount(amountPaise);
  }
}

=== FILE: products.dfy ===
/** The merchant server's product routes (`routes/products.py`): products
    come from the database, and rich metadata from `catalogue.json`, which
    is keyed by product id. The database queries and the file read are
    parameters: `db` answers a listing query, `file` is the parsed
    catalogue file (`None` when there is none). */
module Products {
  import opened Wrappers
  import opened Json

  /** A row of the products table. */
  datatype DbProduct = DbProduct(id: string, title: string, price: int, imageUrl: Value)

  datatype ProductsError = NotFound | Malformed

  const MaxLimit: int := 100

  // ---- catalogue.json ----

  /** `_load_catalogue()`: a list is the catalogue itself, a dict holds it
      under `"products"`. */
  function LoadCatalogue(file: Option<Value>): (r: Result<Option<Value>, ProductsError>)
    ensures file.None? ==> r == Ok(None)
    ensures file.Some? && file.value.Arr? ==> r == Ok(Some(file.value))
    ensures file.Some? && file.value.Obj? ==> r == Ok(Some(GetOr(file.value.fields, "products", Arr([]))))
    ensures r.Err? <==> file.Some? && !file.value.Arr? && !file.value.Obj?
  {
    match file
    case None => Ok(None)
    case Some(Arr(_)) => Ok(file)
    case Some(Obj(f)) => Ok(Some(GetOr(f, "products", Arr([]))))
    case Some(_) => Err(Malformed)
  }

  /** The id an entry is filed under, if it has a non-empty string id.
      Entries whose id is a number or `true` are filed under that number,
      which no string id ever finds. */
  function EntryId(p: Value): Option<string> {
    if p.Obj? then
      match Get(p.fields, "id")
      case Some(Str(k)) => if k != "" then Some(k) else None
      case _ => None
    else None
  }

  /** An entry the dict comprehension cannot take: not a dict, or a truthy
      id that is a list or dict, which cannot be a key. */
  predicate BadEntry(p: Value) {
    || !p.Obj?
    || (HasKey(p.fields, "id") && Truthy(Get(p.fields, "id").value)
        && (Get(p.fields, "id").value.Arr? || Get(p.fields, "id").value.Obj?))
  }

  /** `{p["id"]: p for p in ps if p.get("id")}`, as seen by string lookups. */
  function IndexEntries(ps: seq<Value>): (r: Result<map<string, Fields>, ProductsError>)
    ensures r.Err? <==> exists i :: 0 <= i < |ps| && BadEntry(ps[i])
    decreases |ps|
  {
    if |ps| == 0 then Ok(map[])
    else
      var init := ps[..|ps| - 1];
      var p := ps[|ps| - 1];
      assert forall i :: 0 <= i < |init| ==> init[i] == ps[i];
      match IndexEntries(init)
      case Err(e) => Err(e)
      case Ok(m) =>
        if BadEntry(p) then Err(Malformed)
        else match EntryId(p)
          case Some(k) => Ok(m[k := p.fields])
          case None => Ok(m)
  }

  /** The keys of the index are exactly the entries' ids. */
  lemma {:induction false} IndexEntriesKeys(ps: seq<Value>)
    requires IndexEntries(ps).Ok?
    ensures forall k :: k in IndexEntries(ps).value <==> exists i :: 0 <= i < |ps| && EntryId(ps[i]) == Some(k)
    decreases |ps|
  {
    if |ps| > 0 {
      var init := ps[..|ps| - 1];
      assert forall i :: 0 <= i < |init| ==> init[i] == ps[i];
      IndexEntriesKeys(init);
    }
  }

  /** An id is filed with the entry that carries it last. */
  lemma {:induction false} IndexEntriesLastWins(ps: seq<Value>, i: nat)
    requires IndexEntries(ps).Ok?
    requires i < |ps| && EntryId(ps[i]).Some?
    requires forall j :: i < j < |ps| ==> EntryId(ps[j]) != EntryId(ps[i])
    ensures EntryId(ps[i]).value in IndexEntries(ps).value
    ensures IndexEntries(ps).value[EntryId(ps[i]).value] == ps[i].fields
    decreases |ps|
  {
    var init := ps[..|ps| - 1];
    assert forall j :: 0 <= j < |init| ==> init[j] == ps[j];
    if i < |ps| - 1 {
      IndexEntriesLastWins(init, i);
    }
  }

  /** `_catalogue_by_id()` over a loaded catalogue. */
  function CatalogueById(raw: Option<Value>): (r: Result<map<string, Fields>, ProductsError>)
    ensures raw.None? || !Truthy(raw.value) ==> r == Ok(map[])
    ensures r.Ok? ==> forall k :: k in r.value ==> k != ""
    ensures raw.Some? && Truthy(raw.value) && Elements(raw.value).None? ==> r == Err(Malformed)
    ensures raw.Some? && Truthy(raw.value) && Elements(raw.value).Some? ==> r == IndexEntries(Elements(raw.value).value)
  {
    match raw
    case None => Ok(map[])
    case Some(v) =>
      if !Truthy(v) then Ok(map[])
      else match Elements(v)
        case None => Err(Malformed)
        case Some(ps) =>
          if IndexEntries(ps).Ok? then
            IndexEntriesKeys(ps);
            IndexEntries(ps)
          else IndexEntries(ps)
  }

  /** A truthy id is indexed under its string; a later duplicate id wins;
      an entry with an empty or missing id is skipped. */
  lemma IndexLastWins(ps: seq<Value>, a: Value, b: Value, k: string)
    requires IndexEntries(ps + [a, b]).Ok?
    requires EntryId(a) == Some(k) && EntryId(b) == Some(k)
    ensures IndexEntries(ps + [a, b]).value[k] == b.fields
  {
    var s := ps + [a, b];
    IndexEntriesLastWins(s, |s| - 1);
  }

  // ---- list_products ----

  /** `limit` after `if limit > 100: limit = 100`; nothing raises a small
      or negative limit. */
  function EffectiveLimit(limit: int): (r: int)
    ensures r <= MaxLimit
    ensures r <= limit
    ensures r == limit || r == MaxLimit
  {
    if limit > MaxLimit then MaxLimit else limit
  }

  function BaseFields(p: DbProduct): Fields {
    [("id", Str(p.id)), ("title", Str(p.title)), ("price", Int(p.price)), ("image_url", p.imageUrl)]
  }

  function Enrichment(meta: Fields): Fields {
    [
      ("description", GetOr(meta, "description", Null)),
      ("category", GetOr(meta, "category", Null)),
      ("origin_state", GetOr(meta, "origin_state", Null)),
      ("artisan_name", GetOr(meta, "artisan_name", Null))
    ]
  }

  /** The row of one product: the database's four fields, then the
      catalogue's metadata when the product is in the catalogue. */
  function Row(p: DbProduct, catalogue: map<string, Fields>): Fields {
    if p.id in catalogue then BaseFields(p) + Enrichment(catalogue[p.id]) else BaseFields(p)
  }

  /** Whether a category filter keeps a product: only products in the
      catalogue with exactly that category pass a non-empty filter. */
  predicate Kept(p: DbProduct, category: Option<string>, catalogue: map<string, Fields>) {
    category.None? || category.value == ""
    || (p.id in catalogue && GetOr(catalogue[p.id], "category", Null) == Str(category.value))
  }

  /** The loop of `list_products` over the database's products. */
  function Rows(ps: seq<DbProduct>, category: Option<string>, catalogue: map<string, Fields>): (r: seq<Value>)
    ensures |r| <= |ps|
    ensures (category.None? || category.value == "") ==> |r| == |ps|
  {
    if |ps| == 0 then []
    else if Kept(ps[0], category, catalogue) then [Obj(Row(ps[0], catalogue))] + Rows(ps[1..], category, catalogue)
    else Rows(ps[1..], category, catalogue)
  }

  /** Exactly the kept products' rows are listed; without a filter there is
      one row per product, in order. */
  lemma {:induction false} RowsContents(ps: seq<DbProduct>, category: Option<string>, catalogue: map<string, Fields>)
    ensures var r := Rows(ps, category, catalogue);
      && |r| <= |ps|
      && (forall x :: x in r <==> exists p :: p in ps && Kept(p, category, catalogue) && x == Obj(Row(p, catalogue)))
      && ((category.None? || category.value == "") ==>
            |r| == |ps| && forall i :: 0 <= i < |ps| ==> r[i] == Obj(Row(ps[i], catalogue)))
    decreases |ps|
  {
    if |ps| > 0 {
      var rest := Rows(ps[1..], category, catalogue);
      RowsContents(ps[1..], category, catalogue);
      assert forall p :: p in ps <==> p == ps[0] || p in ps[1..];
      if Kept(ps[0], category, catalogue) {
        var r := [Obj(Row(ps[0], catalogue))] + rest;
        assert forall i :: 1 <= i < |r| ==> r[i] == rest[i - 1];
      }
    }
  }

  /** One step of the listing loop: the head's row, when kept, goes before
      the rows of the rest. */
  lemma RowsCons(p: DbProduct, rest: seq<DbProduct>, category: Option<string>, catalogue: map<string, Fields>)
    ensures Rows([p] + rest, category, catalogue)
      == (if Kept(p, category, catalogue) then [Obj(Row(p, catalogue))] else []) + Rows(rest, category, catalogue)
  {
    assert ([p] + rest)[1..] == rest;
  }

  /** The listing loop keeps database order and multiplicity: the rows of
      a concatenation are the concatenated rows. */
  lemma {:induction false} RowsAppend(a: seq<DbProduct>, b: seq<DbProduct>, category: Option<string>, catalogue: map<string, Fields>)
    ensures Rows(a + b, category, catalogue) == Rows(a, category, catalogue) + Rows(b, category, catalogue)
    decreases |a|
  {
    if |a| > 0 {
      var tail := a[1..];
      assert a == [a[0]] + tail;
      assert a + b == [a[0]] + (tail + b);
      RowsCons(a[0], tail + b, category, catalogue);
      RowsCons(a[0], tail, category, catalogue);
      RowsAppend(tail, b, category, catalogue);
      if Kept(a[0], category, catalogue) {
        var x := Obj(Row(a[0], catalogue));
        assert [x] + (Rows(tail, category, catalogue) + Rows(b, category, catalogue))
          == ([x] + Rows(tail, category, catalogue)) + Rows(b, category, catalogue);
      } else {
        assert [] + Rows(tail, category, catalogue) == Rows(tail, category, catalogue);
      }
    } else {
      assert a + b == b;
    }
  }

  /** One product gives its row exactly when the filter keeps it. */
  lemma RowsSingle(p: DbProduct, category: Option<string>, catalogue: map<string, Fields>)
    ensures Rows([p], category, catalogue) == if Kept(p, category, catalogue) then [Obj(Row(p, catalogue))] else []
  {
    RowsCons(p, [], category, catalogue);
    assert [p] + [] == [p];
  }

  datatype Listing = Listing(products: seq<Value>, count: int)

  /** `list_products(q, category, limit)`: `db(limit, q)` is the database's
      answer, asked with the clamped limit. */
  function ListProducts(q: Option<string>, category: Option<string>, limit: int,
                        db: (int, Option<string>) -> seq<DbProduct>, file: Option<Value>): (r: Result<Listing, ProductsError>)
    ensures r.Ok? ==> r.value.count == |r.value.products|
    ensures r.Ok? ==>
      && LoadCatalogue(file).Ok?
      && CatalogueById(LoadCatalogue(file).value).Ok?
      && var catalogue := CatalogueById(LoadCatalogue(file).value).value;
         r.value.products == Rows(db(EffectiveLimit(limit), q), category, catalogue)
    ensures r.Err? ==> LoadCatalogue(file).Err? || CatalogueById(LoadCatalogue(file).value).Err?
  {
    var ps := db(EffectiveLimit(limit), q);
    match LoadCatalogue(file)
    case Err(e) => Err(e)
    case Ok(raw) =>
      match CatalogueById(raw)
      case Err(e) => Err(e)
      case Ok(catalogue) =>
        var items := Rows(ps, category, catalogue);
        Ok(Listing(items, |items|))
  }

  /** Enrichment never overwrites the database's fields, and a product
      outside the catalogue gets nothing else. */
  lemma RowKeepsDbFields(p: DbProduct, catalogue: map<string, Fields>)
    ensures Get(Row(p, catalogue), "id") == Some(Str(p.id))
    ensures Get(Row(p, catalogue), "title") == Some(Str(p.title))
    ensures Get(Row(p, catalogue), "price") == Some(Int(p.price))
    ensures Get(Row(p, catalogue), "image_url") == Some(p.imageUrl)
    ensures p.id !in catalogue ==> |Row(p, catalogue)| == 4
    ensures p.id in catalogue ==> Get(Row(p, catalogue), "category") == Some(GetOr(catalogue[p.id], "category", Null))
  {
    var b := BaseFields(p);
    BaseLookups(p);
    if p.id in catalogue {
      var e := Enrichment(catalogue[p.id]);
      GetAppend(b, e, "id");
      GetAppend(b, e, "title");
      GetAppend(b, e, "price");
      GetAppend(b, e, "image_url");
      GetAppend(b, e, "category");
      assert e[1..][0].0 == "category";
    }
  }

  lemma BaseLookups(p: DbProduct)
    ensures Get(BaseFields(p), "id") == Some(Str(p.id))
    ensures Get(BaseFields(p), "title") == Some(Str(p.title))
    ensures Get(BaseFields(p), "price") == Some(Int(p.price))
    ensures Get(BaseFields(p), "image_url") == Some(p.imageUrl)
    ensures !HasKey(BaseFields(p), "category") && !HasKey(BaseFields(p), "gi_tag")
  {
    var b := BaseFields(p);
    var b1, b2, b3 := b[1..], b[2..], b[3..];
    assert b1[1..] == b2 && b2[1..] == b3 && b3[1..] == [];
    assert !HasKey(b3, "category") && !HasKey(b3, "gi_tag");
    assert !HasKey(b2, "category") && !HasKey(b2, "gi_tag");
    assert !HasKey(b1, "category") && !HasKey(b1, "gi_tag");
    assert Get(b3, "image_url") == Some(p.imageUrl);
    assert Get(b2, "image_url") == Some(p.imageUrl);
    assert Get(b2, "price") == Some(Int(p.price));
    assert Get(b1, "image_url") == Some(p.imageUrl);
    assert Get(b1, "price") == Some(Int(p.price));
    assert Get(b1, "title") == Some(Str(p.title));
  }

  /** With a category filter every listed product is in the catalogue under
      exactly that category. */
  lemma FilteredRowsMatch(ps: seq<DbProduct>, category: string, catalogue: map<string, Fields>)
    requires category != ""
    ensures forall x :: x in Rows(ps, Some(category), catalogue) ==>
      exists p :: p in ps && p.id in catalogue && x == Obj(Row(p, catalogue))
        && GetOr(catalogue[p.id], "category", Null) == Str(category)
  {
    RowsContents(ps, Some(category), catalogue);
  }

  // ---- get_product ----

  /** `get_product(product_id)`: `found` is the database's answer. Metadata
      is looked up under the requested id, and adds `gi_tag`. */
  function GetProduct(productId: string, found: Option<DbProduct>, file: Option<Value>): (r: Result<Fields, ProductsError>)
    ensures found.None? ==> r == Err(NotFound)
    ensures r.Ok? ==> found.Some? && |r.value| >= 4 && r.value[..4] == BaseFields(found.value)
    ensures r.Ok? ==>
      && LoadCatalogue(file).Ok?
      && CatalogueById(LoadCatalogue(file).value).Ok?
      && var catalogue := CatalogueById(LoadCatalogue(file).value).value;
         && (productId !in catalogue ==> |r.value| == 4)
         && (productId in catalogue ==>
               Get(r.value, "gi_tag") == Some(GetOr(catalogue[productId], "gi_tag", Null)))
  {
    match found
    case None => Err(NotFound)
    case Some(p) =>
      match LoadCatalogue(file)
      case Err(e) => Err(e)
      case Ok(raw) =>
        match CatalogueById(raw)
        case Err(e) => Err(e)
        case Ok(catalogue) =>
          if productId in catalogue then
            var meta := catalogue[productId];
            var extra := Enrichment(meta) + [("gi_tag", GetOr(meta, "gi_tag", Null))];
            BaseLookups(p);
            GiTagLookup(meta);
            GetAppend(BaseFields(p), extra, "gi_tag");
            Ok(BaseFields(p) + extra)
          else Ok(BaseFields(p))
  }

  /** The catalogue `file` yields when it loads and indexes cleanly. */
  predicate CatalogueLoads(file: Option<Value>) {
    LoadCatalogue(file).Ok? && CatalogueById(LoadCatalogue(file).value).Ok?
  }

  /** `get_product` and `list_products` build the same row for a product:
      the details are the listing's row, followed by `gi_tag` when the
      product is catalogued. */
  lemma GetProductExtendsRow(p: DbProduct, file: Option<Value>)
    requires CatalogueLoads(file)
    ensures var catalogue := CatalogueById(LoadCatalogue(file).value).value;
      GetProduct(p.id, Some(p), file) == Ok(Row(p, catalogue) +
        (if p.id in catalogue then [("gi_tag", GetOr(catalogue[p.id], "gi_tag", Null))] else []))
  {
    var raw := LoadCatalogue(file).value;
    var catalogue := CatalogueById(raw).value;
    assert LoadCatalogue(file) == Ok(raw) && CatalogueById(raw) == Ok(catalogue);
    if p.id in catalogue {
      var meta := catalogue[p.id];
      var gi := [("gi_tag", GetOr(meta, "gi_tag", Null))];
      assert GetProduct(p.id, Some(p), file) == Ok(BaseFields(p) + (Enrichment(meta) + gi));
      assert BaseFields(p) + (Enrichment(meta) + gi) == Row(p, catalogue) + gi;
    } else {
      assert GetProduct(p.id, Some(p), file) == Ok(BaseFields(p));
      assert Row(p, catalogue) + [] == BaseFields(p);
    }
  }

  /** Every product an unfiltered listing shows can be fetched by its id,
      and its details begin with the listed row. */
  lemma ListedProductFetches(q: Option<string>, limit: int, db: (int, Option<string>) -> seq<DbProduct>,
                             file: Option<Value>, i: nat)
    requires i < |db(EffectiveLimit(limit), q)|
    requires CatalogueLoads(file)
    ensures ListProducts(q, None, limit, db, file).Ok?
    ensures var p := db(EffectiveLimit(limit), q)[i];
      var row := ListProducts(q, None, limit, db, file).value.products[i];
      && GetProduct(p.id, Some(p), file).Ok?
      && row.Obj?
      && |row.fields| <= |GetProduct(p.id, Some(p), file).value|
      && GetProduct(p.id, Some(p), file).value[..|row.fields|] == row.fields
  {
    var p := db(EffectiveLimit(limit), q)[i];
    RowsContents(db(EffectiveLimit(limit), q), None, CatalogueById(LoadCatalogue(file).value).value);
    GetProductExtendsRow(p, file);
  }

  lemma GiTagLookup(meta: Fields)
    ensures Get(Enrichment(meta) + [("gi_tag", GetOr(meta, "gi_tag", Null))], "gi_tag") == Some(GetOr(meta, "gi_tag", Null))
  {
    var f := Enrichment(meta) + [("gi_tag", GetOr(meta, "gi_tag", Null))];
    var v := GetOr(meta, "gi_tag", Null);
    assert f[4..] == [("gi_tag", v)];
    assert f[1..][1..] == f[2..] && f[2..][1..] == f[3..] && f[3..][1..] == f[4..];
    assert Get(f[4..], "gi_tag") == Some(v);
    assert Get(f[3..], "gi_tag") == Some(v);
    assert Get(f[2..], "gi_tag") == Some(v);
    assert Get(f[1..], "gi_tag") == Some(v);
  }

  // ---- get_catalogue ----

  /** `len(raw)` */
  function Len(v: Value): Option<nat> {
    match v
    case Arr(items) => Some(|items|)
    case Obj(fs) => Some(|fs|)
    case Str(s) => Some(|s|)
    case _ => None
  }

  datatype CatalogueReply = CatalogueReply(products: Value, count: nat)

  /** `get_catalogue()`: 404 when `_load_catalogue()` gives `None`, which is
      both a missing file and a dict whose `"products"` is `null`. */
  function GetCatalogue(file: Option<Value>): (r: Result<CatalogueReply, ProductsError>)
    ensures file.None? ==> r == Err(NotFound)
    ensures LoadCatalogue(file) == Ok(Some(Null)) ==> r == Err(NotFound)
    ensures file.Some? && file.value.Arr? ==> r == Ok(CatalogueReply(file.value, |file.value.items|))
    ensures r.Ok? ==> LoadCatalogue(file) == Ok(Some(r.value.products)) && Len(r.value.products) == Some(r.value.count)
  {
    match LoadCatalogue(file)
    case Err(e) => Err(e)
    case Ok(None) => Err(NotFound)
    case Ok(Some(raw)) =>
      if raw.Null? then Err(NotFound)
      else match Len(raw)
        case None => Err(Malformed)
        case Some(n) => Ok(CatalogueReply(raw, n))
  }

  /** The catalogue file as `get_catalogue` sees it, read straight from the
      file: the catalogue is absent when there is no file or when a dict's
      `"products"` is `null`, and it is served when `len()` accepts it. */
  lemma GetCatalogueCases(file: Option<Value>)
    ensures GetCatalogue(file) == Err(NotFound) <==>
      file.None? || (file.value.Obj? && Get(file.value.fields, "products") == Some(Null))
    ensures GetCatalogue(file).Ok? <==>
      file.Some? && (file.value.Arr? || (file.value.Obj? && Len(GetOr(file.value.fields, "products", Arr([]))).Some?))
  {
  }

  /** What `get_catalogue` serves and what `_catalogue_by_id` indexes are
      the same entries: when the served catalogue is a list, the index's
      keys are exactly the served entries' ids. */
  lemma ServedCatalogueIsIndexed(file: Option<Value>)
    requires GetCatalogue(file).Ok? && GetCatalogue(file).value.products.Arr?
    requires CatalogueById(LoadCatalogue(file).value).Ok?
    ensures var served := GetCatalogue(file).value.products.items;
      forall k :: k in CatalogueById(LoadCatalogue(file).value).value <==>
        exists i :: 0 <= i < |served| && EntryId(served[i]) == Some(k)
  {
    var served := GetCatalogue(file).value.products;
    assert LoadCatalogue(file) == Ok(Some(served));
    if |served.items| > 0 {
      assert Truthy(served);
      IndexEntriesKeys(served.items);
    }
  }
}

=== FILE: template.dfy ===
/** Profile templates: literal text with `{{NAME}}` placeholders, filled in
    with `str.replace`. A template is described here as a list of pieces so
    that the effect of a chain of replacements can be stated piece by
    piece: each replacement fills exactly the holes with its name and
    leaves every other hole, such as `{{ENDPOINT}}`, intact. */
module Template {
  import opened Text

  datatype Piece = Lit(text: string) | Hole(name: string)

  predicate NoBraces(s: string) {
    forall i :: 0 <= i < |s| ==> s[i] != '{' && s[i] != '}'
  }

  /** Literal text that neither contains `{{` nor ends in `{`, so it cannot
      start a placeholder on its own or together with what follows. JSON
      text outside of strings never holds `{{`. */
  predicate PlainText(s: string) {
    && (forall i :: 0 <= i < |s| - 1 ==> !(s[i] == '{' && s[i + 1] == '{'))
    && (|s| == 0 || s[|s| - 1] != '{')
  }

  predicate WellFormedPiece(p: Piece) {
    match p
    case Lit(t) => PlainText(t)
    case Hole(n) => NoBraces(n)
  }

  predicate WellFormed(t: seq<Piece>) {
    forall i :: 0 <= i < |t| ==> WellFormedPiece(t[i])
  }

  function Placeholder(name: string): string {
    "{{" + name + "}}"
  }

  function RenderPiece(p: Piece): string {
    match p
    case Lit(t) => t
    case Hole(n) => Placeholder(n)
  }

  /** The text of a template. */
  function Render(t: seq<Piece>): string {
    if |t| == 0 then [] else RenderPiece(t[0]) + Render(t[1..])
  }

  /** The template with every `{{name}}` hole replaced by `value`. */
  function Fill(t: seq<Piece>, name: string, value: string): (r: seq<Piece>)
    ensures |r| == |t|
  {
    if |t| == 0 then []
    else (if t[0] == Hole(name) then [Lit(value)] else [t[0]]) + Fill(t[1..], name, value)
  }

  /** The names of the holes still open. */
  function Holes(t: seq<Piece>): set<string> {
    if |t| == 0 then {}
    else (if t[0].Hole? then {t[0].name} else {}) + Holes(t[1..])
  }

  lemma {:induction false} FillHoles(t: seq<Piece>, name: string, value: string)
    ensures Holes(Fill(t, name, value)) == Holes(t) - {name}
  {
    if |t| > 0 {
      FillHoles(t[1..], name, value);
      assert Fill(t, name, value)[1..] == Fill(t[1..], name, value);
    }
  }

  lemma {:induction false} FillWellFormed(t: seq<Piece>, name: string, value: string)
    requires WellFormed(t) && PlainText(value)
    ensures WellFormed(Fill(t, name, value))
  {
    if |t| > 0 {
      FillWellFormed(t[1..], name, value);
      var r := Fill(t, name, value);
      assert r[1..] == Fill(t[1..], name, value);
      assert forall i :: 1 <= i < |r| ==> r[i] == r[1..][i - 1];
    }
  }

  lemma PlainTail(l: string)
    requires PlainText(l) && |l| > 0
    ensures PlainText(l[1..])
  {
    var t := l[1..];
    forall i | 0 <= i < |t| - 1 ensures !(t[i] == '{' && t[i + 1] == '{') {
      assert t[i] == l[i + 1] && t[i + 1] == l[i + 2];
    }
  }

  /** Plain text that is not empty never starts with `{{`. */
  lemma PlainNotPrefix(l: string, rest: string, pat: string)
    requires PlainText(l) && |l| > 0
    requires |pat| >= 2 && pat[0] == '{' && pat[1] == '{'
    ensures !(pat <= l + rest)
  {
    var s := l + rest;
    if |l| >= 2 {
      assert s[0] == l[0] && s[1] == l[1];
    } else {
      assert s[0] == l[0] && l[0] != '{';
    }
  }

  /** Scanning past plain text finds no placeholder in it. */
  lemma {:induction false} ReplaceAfterPlain(l: string, rest: string, pat: string, rep: string)
    requires PlainText(l)
    requires |pat| >= 2 && pat[0] == '{' && pat[1] == '{'
    ensures ReplaceAll(l + rest, pat, rep) == l + ReplaceAll(rest, pat, rep)
    decreases |l|
  {
    if |l| == 0 {
      assert l + rest == rest;
    } else {
      var s := l + rest;
      PlainNotPrefix(l, rest, pat);
      assert s[1..] == l[1..] + rest;
      PlainTail(l);
      ReplaceAfterPlain(l[1..], rest, pat, rep);
      assert ReplaceAll(s, pat, rep) == [s[0]] + ReplaceAll(s[1..], pat, rep);
      assert l == [l[0]] + l[1..];
    }
  }

  lemma ClosingIsPlain(b: string)
    requires NoBraces(b)
    ensures PlainText(b + "}}")
  {
    var c := b + "}}";
    assert forall i :: 0 <= i < |c| ==> c[i] != '{';
  }

  /** A placeholder is not a prefix of a placeholder with another name. */
  lemma OtherPlaceholder(b: string, rest: string, a: string)
    requires NoBraces(a) && NoBraces(b) && a != b
    ensures !(Placeholder(a) <= Placeholder(b) + rest)
  {
    var pat := Placeholder(a);
    var s := Placeholder(b) + rest;
    if |a| == |b| {
      var k :| 0 <= k < |a| && a[k] != b[k];
      assert pat[2 + k] != s[2 + k];
    } else if |a| < |b| {
      assert pat[2 + |a|] != s[2 + |a|];
    } else {
      assert pat[2 + |b|] != s[2 + |b|];
    }
  }

  /** Past the first brace of `{{b}}`, the scan cannot match `{{a}}` either:
      the next brace is followed by a name. */
  lemma SecondBrace(b: string, rest: string, a: string)
    requires NoBraces(a) && NoBraces(b)
    ensures !(Placeholder(a) <= (Placeholder(b) + rest)[1..])
  {
    var s1 := (Placeholder(b) + rest)[1..];
    assert s1[0] == '{';
    if |b| > 0 {
      assert s1[1] == b[0];
    } else {
      assert s1[1] == '}';
    }
    assert Placeholder(a)[1] == '{';
  }

  /** A placeholder is replaced when its name matches and copied otherwise. */
  lemma ReplaceAtHole(b: string, rest: string, a: string, rep: string)
    requires NoBraces(a) && NoBraces(b)
    ensures ReplaceAll(Placeholder(b) + rest, Placeholder(a), rep)
         == (if a == b then rep else Placeholder(b)) + ReplaceAll(rest, Placeholder(a), rep)
  {
    var pat := Placeholder(a);
    var s := Placeholder(b) + rest;
    if a == b {
      assert pat <= s;
      assert s[|pat|..] == rest;
    } else {
      OtherPlaceholder(b, rest, a);
      SecondBrace(b, rest, a);
      var s1 := s[1..];
      assert ReplaceAll(s, pat, rep) == ['{'] + ReplaceAll(s1, pat, rep);
      assert ReplaceAll(s1, pat, rep) == ['{'] + ReplaceAll(s1[1..], pat, rep);
      assert s1[1..] == b + "}}" + rest;
      ClosingIsPlain(b);
      ReplaceAfterPlain(b + "}}", rest, pat, rep);
      assert Placeholder(b) == ['{'] + (['{'] + (b + "}}"));
    }
  }

  /** Replacing `{{name}}` in a rendered template fills exactly the holes
      called `name`. */
  lemma {:induction false} ReplaceRender(t: seq<Piece>, name: string, value: string)
    requires WellFormed(t) && NoBraces(name)
    ensures ReplaceAll(Render(t), Placeholder(name), value) == Render(Fill(t, name, value))
  {
    if |t| > 0 {
      ReplaceRender(t[1..], name, value);
      assert Fill(t, name, value)[1..] == Fill(t[1..], name, value);
      assert WellFormedPiece(t[0]);
      match t[0]
      case Lit(l) =>
        ReplaceAfterPlain(l, Render(t[1..]), Placeholder(name), value);
      case Hole(b) =>
        ReplaceAtHole(b, Render(t[1..]), name, value);
    }
  }
}

=== FILE: text.dfy ===
/** String helpers with Python's meaning, restricted to ASCII where Python
    consults Unicode tables: whitespace, lower-casing, `str.strip`,
    `str.split`, `str.join`, `str.replace`, decimal rendering and `int()`. */
module Text {
  import opened Wrappers

  /** `str.isspace()` on ASCII: tab, line feed, vertical tab, form feed,
      carriage return, the separators 0x1C-0x1F, and the space. */
  predicate IsSpace(c: char) {
    c == ' ' || (0x09 <= c as int <= 0x0D) || (0x1C <= c as int <= 0x1F)
  }

  predicate IsAsciiChar(c: char) { c as int < 0x80 }

  predicate IsAscii(s: string) {
    forall i :: 0 <= i < |s| ==> IsAsciiChar(s[i])
  }

  predicate IsDigit(c: char) { '0' <= c <= '9' }
  predicate IsUpper(c: char) { 'A' <= c <= 'Z' }
  predicate IsLower(c: char) { 'a' <= c <= 'z' }

  predicate AllDigits(s: string) {
    forall i :: 0 <= i < |s| ==> IsDigit(s[i])
  }

  /** `str.lower()` on one ASCII character; other characters are kept. */
  function ToLower(c: char): char {
    if IsUpper(c) then (c as int + 32) as char else c
  }

  function Lower(s: string): (r: string)
    ensures |r| == |s|
    ensures forall i :: 0 <= i < |s| ==> r[i] == ToLower(s[i])
  {
    seq(|s|, i requires 0 <= i < |s| => ToLower(s[i]))
  }

  /** `s.lstrip()` */
  function LStrip(s: string): (r: string)
    ensures |r| <= |s| && r == s[|s| - |r|..]
    ensures r == [] || !IsSpace(r[0])
    ensures forall i :: 0 <= i < |s| - |r| ==> IsSpace(s[i])
  {
    if |s| > 0 && IsSpace(s[0]) then LStrip(s[1..]) else s
  }

  /** `s.rstrip()` */
  function RStrip(s: string): (r: string)
    ensures |r| <= |s| && r == s[..|r|]
    ensures r == [] || !IsSpace(r[|r| - 1])
    ensures forall i :: |r| <= i < |s| ==> IsSpace(s[i])
  {
    if |s| > 0 && IsSpace(s[|s| - 1]) then RStrip(s[..|s| - 1]) else s
  }

  /** `s.strip()` */
  function Strip(s: string): string {
    RStrip(LStrip(s))
  }

  /** Every character is whitespace: `not s.strip()`. */
  predicate Blank(s: string) {
    forall i :: 0 <= i < |s| ==> IsSpace(s[i])
  }

  /** The characters of `s` that are not whitespace, in order. */
  function NonSpace(s: string): string {
    if |s| == 0 then []
    else if IsSpace(s[0]) then NonSpace(s[1..])
    else [s[0]] + NonSpace(s[1..])
  }

  lemma {:induction false} NonSpaceAppend(a: string, b: string)
    ensures NonSpace(a + b) == NonSpace(a) + NonSpace(b)
  {
    if |a| == 0 {
      assert a + b == b;
    } else {
      assert (a + b)[1..] == a[1..] + b;
      NonSpaceAppend(a[1..], b);
    }
  }

  lemma {:induction false} NonSpaceBlank(s: string)
    requires Blank(s)
    ensures NonSpace(s) == []
  {
    if |s| > 0 {
      NonSpaceBlank(s[1..]);
    }
  }

  lemma LStripKeepsNonSpace(s: string)
    ensures NonSpace(LStrip(s)) == NonSpace(s)
  {
    var l := LStrip(s);
    assert s == s[..|s| - |l|] + l;
    NonSpaceAppend(s[..|s| - |l|], l);
    NonSpaceBlank(s[..|s| - |l|]);
  }

  lemma RStripKeepsNonSpace(s: string)
    ensures NonSpace(RStrip(s)) == NonSpace(s)
  {
    var r := RStrip(s);
    assert s == r + s[|r|..];
    NonSpaceAppend(r, s[|r|..]);
    NonSpaceBlank(s[|r|..]);
  }

  /** Stripping drops whitespace only. */
  lemma StripKeepsNonSpace(s: string)
    ensures NonSpace(Strip(s)) == NonSpace(s)
  {
    LStripKeepsNonSpace(s);
    RStripKeepsNonSpace(LStrip(s));
  }

  /** `s.strip()` is empty exactly when `s` is all whitespace. */
  lemma StripEmptyIffBlank(s: string)
    ensures Strip(s) == [] <==> Blank(s)
  {
    var l := LStrip(s);
    assert |l| > 0 ==> l[0] == s[|s| - |l|];
  }

  /** A stripped string has no whitespace at either end. */
  lemma StripEnds(s: string)
    ensures var t := Strip(s); t == [] || (!IsSpace(t[0]) && !IsSpace(t[|t| - 1]))
    ensures |Strip(s)| <= |s|
  {
  }

  /** Stripping a stripped string changes nothing. */
  lemma StripIdempotent(s: string)
    ensures Strip(Strip(s)) == Strip(s)
  {
    var t := Strip(s);
    StripEnds(s);
    assert LStrip(t) == t;
    assert RStrip(t) == t;
  }

  /** `sep.join(parts)` */
  function Join(sep: string, parts: seq<string>): string {
    if |parts| == 0 then ""
    else if |parts| == 1 then parts[0]
    else parts[0] + sep + Join(sep, parts[1..])
  }

  /** The first position of `c` in `s`, as `s.find(c)` reports it. */
  function FindChar(s: string, c: char): (r: Option<nat>)
    ensures r.Some? ==> r.value < |s| && s[r.value] == c
    ensures r.Some? ==> forall j :: 0 <= j < r.value ==> s[j] != c
    ensures r.None? ==> forall j :: 0 <= j < |s| ==> s[j] != c
  {
    if |s| == 0 then None
    else if s[0] == c then Some(0)
    else match FindChar(s[1..], c)
      case None => None
      case Some(i) => Some(i + 1)
  }

  /** `s.split(c)` for a one-character separator. */
  function Split(s: string, c: char): (r: seq<string>)
    ensures |r| >= 1
    decreases |s|
  {
    match FindChar(s, c)
    case None => [s]
    case Some(i) => [s[..i]] + Split(s[i + 1..], c)
  }

  /** `s.split(c, 1)`: the text before the first `c` and the rest, or
      nothing when `c` does not occur. */
  function SplitOnce(s: string, c: char): (r: Option<(string, string)>)
    ensures r.Some? ==> s == r.value.0 + [c] + r.value.1
    ensures r.Some? ==> forall j :: 0 <= j < |r.value.0| ==> r.value.0[j] != c
    ensures r.None? <==> forall j :: 0 <= j < |s| ==> s[j] != c
  {
    match FindChar(s, c)
    case None => None
    case Some(i) =>
      assert s == s[..i] + [c] + s[i + 1..];
      Some((s[..i], s[i + 1..]))
  }

  predicate Excludes(s: string, c: char) {
    forall j :: 0 <= j < |s| ==> s[j] != c
  }

  /** Splitting on a separator that no part contains undoes the join. */
  lemma {:induction false} SplitJoin(parts: seq<string>, c: char)
    requires |parts| >= 1
    requires forall i :: 0 <= i < |parts| ==> Excludes(parts[i], c)
    ensures Split(Join([c], parts), c) == parts
  {
    if |parts| == 1 {
      assert FindChar(parts[0], c).None?;
    } else {
      var rest := Join([c], parts[1..]);
      var s := parts[0] + [c] + rest;
      assert Join([c], parts) == s;
      assert FindChar(s, c) == Some(|parts[0]|) by {
        assert forall j :: 0 <= j < |parts[0]| ==> s[j] == parts[0][j];
        assert s[|parts[0]|] == c;
      }
      assert s[..|parts[0]|] == parts[0];
      assert s[|parts[0]| + 1..] == rest;
      SplitJoin(parts[1..], c);
    }
  }

  /** `pat in s` */
  predicate Contains(s: string, pat: string)
    decreases |s|
  {
    pat <= s || (|s| > 0 && Contains(s[1..], pat))
  }

  /** `s.replace(pat, rep)`: non-overlapping occurrences, left to right. */
  function ReplaceAll(s: string, pat: string, rep: string): string
    decreases |s|
  {
    if |pat| == 0 then InsertAround(s, rep)
    else if |s| == 0 then []
    else if pat <= s then rep + ReplaceAll(s[|pat|..], pat, rep)
    else [s[0]] + ReplaceAll(s[1..], pat, rep)
  }

  /** `s.replace("", rep)` puts `rep` before, between and after every character. */
  function InsertAround(s: string, rep: string): string {
    if |s| == 0 then rep else rep + [s[0]] + InsertAround(s[1..], rep)
  }

  /** Replacing a pattern that does not occur changes nothing. */
  lemma {:induction false} ReplaceAbsent(s: string, pat: string, rep: string)
    requires !Contains(s, pat)
    ensures ReplaceAll(s, pat, rep) == s
    decreases |s|
  {
    if |s| > 0 {
      ReplaceAbsent(s[1..], pat, rep);
      assert s == [s[0]] + s[1..];
    }
  }

  // ---- Decimal numbers ----

  function DigitChar(d: nat): (c: char)
    requires d < 10
    ensures IsDigit(c) && c as int - '0' as int == d
  {
    ('0' as int + d) as char
  }

  function DigitValue(c: char): (d: nat)
    requires IsDigit(c)
    ensures d < 10 && DigitChar(d) == c
  {
    c as int - '0' as int
  }

  /** `str(n)` for a non-negative integer. */
  function NatToString(n: nat): (r: string)
    ensures |r| > 0 && AllDigits(r)
    ensures n > 0 ==> r[0] != '0'
  {
    if n < 10 then [DigitChar(n)] else NatToString(n / 10) + [DigitChar(n % 10)]
  }

  /** The value of a string of decimal digits (leading zeros allowed). */
  function DigitsValue(s: string): nat
    requires AllDigits(s)
  {
    if |s| == 0 then 0 else DigitsValue(s[..|s| - 1]) * 10 + DigitValue(s[|s| - 1])
  }

  lemma {:induction false} DigitsValueOfNatToString(n: nat)
    ensures DigitsValue(NatToString(n)) == n
  {
    var s := NatToString(n);
    if n >= 10 {
      DigitsValueOfNatToString(n / 10);
      assert s[..|s| - 1] == NatToString(n / 10);
    }
  }

  // ---- Python's int() on text ----

  /** Digits with single underscores between them, as `int()` accepts. */
  predicate DigitGroups(b: string) {
    && |b| > 0
    && IsDigit(b[0])
    && IsDigit(b[|b| - 1])
    && (forall i :: 0 <= i < |b| ==> IsDigit(b[i]) || b[i] == '_')
    && (forall i :: 0 <= i < |b| - 1 ==> !(b[i] == '_' && b[i + 1] == '_'))
  }

  function WithoutUnderscores(b: string): (r: string)
    requires forall i :: 0 <= i < |b| ==> IsDigit(b[i]) || b[i] == '_'
    ensures AllDigits(r)
  {
    if |b| == 0 then []
    else if b[0] == '_' then WithoutUnderscores(b[1..])
    else [b[0]] + WithoutUnderscores(b[1..])
  }

  /** The text after an optional leading sign. */
  function Unsigned(t: string): string {
    if |t| > 0 && (t[0] == '+' || t[0] == '-') then t[1..] else t
  }

  /** `int(s)`: surrounding whitespace, an optional sign, then digit groups;
      `None` where Python raises ValueError. */
  function PyInt(s: string): (r: Option<int>)
    ensures r.Some? <==> DigitGroups(Unsigned(Strip(s)))
  {
    var t := Strip(s);
    var body := Unsigned(t);
    if !DigitGroups(body) then None
    else
      var v: int := DigitsValue(WithoutUnderscores(body));
      Some(if |t| > 0 && t[0] == '-' then -v else v)
  }

  lemma {:induction false} WithoutUnderscoresDigits(s: string)
    requires AllDigits(s)
    ensures WithoutUnderscores(s) == s
  {
    if |s| > 0 {
      WithoutUnderscoresDigits(s[1..]);
    }
  }

  lemma StripDigits(s: string)
    requires |s| > 0 && AllDigits(s)
    ensures Strip(s) == s && Unsigned(s) == s
  {
    assert LStrip(s) == s;
    assert RStrip(s) == s;
  }

  /** A plain run of digits reads as the number it spells. */
  lemma PyIntOfDigits(s: string)
    requires |s| > 0 && AllDigits(s)
    ensures PyInt(s) == Some(DigitsValue(s) as int)
  {
    StripDigits(s);
    WithoutUnderscoresDigits(s);
    assert DigitGroups(s);
  }

  /** `int(str(n)) == n` */
  lemma PyIntOfNatToString(n: nat)
    ensures PyInt(NatToString(n)) == Some(n)
  {
    PyIntOfDigits(NatToString(n));
    DigitsValueOfNatToString(n);
  }
}

=== FILE: translate.dfy ===
/** Translation to and from English (`sarvam/modules/translate.py`): long
    text is cut into chunks at word boundaries, each chunk is sent to the
    translation service, and the translations are joined with spaces. The
    service is a parameter. */
module Translate {
  import opened Wrappers
  import opened Text

  const CharLimit: nat := 2000
  const English: string := "en-IN"

  /** `text.rfind(" ", 0, end)` */
  function LastSpaceBefore(text: string, end: nat): (r: Option<nat>)
    requires end <= |text|
    ensures r.Some? ==> r.value < end && text[r.value] == ' '
    ensures r.Some? ==> forall j :: r.value < j < end ==> text[j] != ' '
    ensures r.None? ==> forall j :: 0 <= j < end ==> text[j] != ' '
  {
    if end == 0 then None
    else if text[end - 1] == ' ' then Some(end - 1)
    else LastSpaceBefore(text, end - 1)
  }

  /** Where an over-long text is cut: at the last space before the limit,
      or at the limit itself when there is none. */
  function SplitIndex(text: string, maxLength: nat): (i: nat)
    requires 0 < maxLength < |text|
    ensures i <= maxLength
    ensures i < maxLength ==> text[i] == ' ' && forall j :: i < j < maxLength ==> text[j] != ' '
    ensures i == maxLength ==> forall j :: 0 <= j < maxLength ==> text[j] != ' '
  {
    match LastSpaceBefore(text, maxLength)
    case None => maxLength
    case Some(j) => j
  }

  lemma RemainderShorter(text: string, i: nat)
    requires i <= |text| && |text| > 0
    requires i == 0 ==> text[0] == ' '
    ensures |LStrip(text[i..])| < |text|
  {
    if i == 0 {
      assert text[i..] == text;
      assert IsSpace(text[0]);
    }
  }

  /** What is left to chunk after a cut at `i`: strictly shorter. */
  function Remainder(text: string, i: nat): (rest: string)
    requires i <= |text| && |text| > 0
    requires i == 0 ==> text[0] == ' '
    ensures |rest| < |text|
  {
    RemainderShorter(text, i);
    LStrip(text[i..])
  }

  /** `_chunk_text(text, max_length)` */
  function Chunks(text: string, maxLength: nat): (r: seq<string>)
    requires maxLength > 0
    decreases |text|
  {
    if |text| > maxLength then
      var i := SplitIndex(text, maxLength);
      [Strip(text[..i])] + Chunks(Remainder(text, i), maxLength)
    else if Strip(text) != [] then [Strip(text)]
    else []
  }

  /** A chunk that fits the limit and has no whitespace at either end. */
  predicate Fits(c: string, maxLength: nat) {
    |c| <= maxLength && Strip(c) == c
  }

  lemma StrippedFits(t: string, maxLength: nat)
    requires |t| <= maxLength
    ensures Fits(Strip(t), maxLength)
  {
    StripEnds(t);
    StripIdempotent(t);
  }

  lemma ConsFits(head: string, tail: seq<string>, maxLength: nat)
    requires Fits(head, maxLength)
    requires forall k :: 0 <= k < |tail| ==> Fits(tail[k], maxLength)
    ensures forall k :: 0 <= k < |[head] + tail| ==> Fits(([head] + tail)[k], maxLength)
  {
  }

  /** Every chunk fits the limit and has no whitespace at either end. */
  lemma {:induction false} ChunksBounded(text: string, maxLength: nat)
    requires maxLength > 0
    ensures forall k :: 0 <= k < |Chunks(text, maxLength)| ==> Fits(Chunks(text, maxLength)[k], maxLength)
    decreases |text|
  {
    if |text| > maxLength {
      var i := SplitIndex(text, maxLength);
      ChunksBounded(Remainder(text, i), maxLength);
      StrippedFits(text[..i], maxLength);
      ConsFits(Strip(text[..i]), Chunks(Remainder(text, i), maxLength), maxLength);
    } else if Strip(text) != [] {
      StrippedFits(text, maxLength);
    }
  }

  /** Text no longer than the limit is one stripped chunk, or none when it is
      blank. */
  lemma ShortText(text: string, maxLength: nat)
    requires 0 < maxLength && |text| <= maxLength
    ensures !Blank(text) ==> Chunks(text, maxLength) == [Strip(text)]
    ensures Blank(text) ==> Chunks(text, maxLength) == []
  {
    StripEmptyIffBlank(text);
  }

  /** The concatenation of the chunks. */
  function Concat(parts: seq<string>): string {
    if |parts| == 0 then [] else parts[0] + Concat(parts[1..])
  }

  lemma ConcatCons(head: string, tail: seq<string>)
    ensures Concat([head] + tail) == head + Concat(tail)
  {
    assert ([head] + tail)[1..] == tail;
  }

  lemma PiecesKeepNonSpace(a: string, b: string, tail: string)
    requires NonSpace(tail) == NonSpace(LStrip(b))
    ensures NonSpace(Strip(a) + tail) == NonSpace(a + b)
  {
    NonSpaceAppend(Strip(a), tail);
    StripKeepsNonSpace(a);
    LStripKeepsNonSpace(b);
    NonSpaceAppend(a, b);
  }

  /** Cutting at `i`, stripping the head and left-stripping the rest loses
      only whitespace. */
  lemma CutKeepsNonSpace(text: string, i: nat, tail: string)
    requires i <= |text|
    requires NonSpace(tail) == NonSpace(LStrip(text[i..]))
    ensures NonSpace(Strip(text[..i]) + tail) == NonSpace(text)
  {
    assert text == text[..i] + text[i..];
    PiecesKeepNonSpace(text[..i], text[i..], tail);
  }

  /** Chunking only drops whitespace: the other characters of the text
      reach the chunks, in order. */
  lemma {:induction false} ChunksKeepNonSpace(text: string, maxLength: nat)
    requires maxLength > 0
    ensures NonSpace(Concat(Chunks(text, maxLength))) == NonSpace(text)
    decreases |text|
  {
    if |text| > maxLength {
      var i := SplitIndex(text, maxLength);
      var rest := Remainder(text, i);
      var tail := Chunks(rest, maxLength);
      ChunksKeepNonSpace(rest, maxLength);
      ConcatCons(Strip(text[..i]), tail);
      CutKeepsNonSpace(text, i, Concat(tail));
    } else if Strip(text) != [] {
      ConcatCons(Strip(text), []);
      assert Strip(text) + [] == Strip(text);
      StripKeepsNonSpace(text);
    } else {
      StripEmptyIffBlank(text);
      NonSpaceBlank(text);
    }
  }

  /** A text that starts with a space and is too long gets an empty first
      chunk: `rfind` finds the space at position 0. */
  lemma LeadingSpaceGivesEmptyChunk(text: string, maxLength: nat)
    requires 0 < maxLength < |text| && text[0] == ' '
    requires forall j :: 0 < j < maxLength ==> text[j] != ' '
    ensures Chunks(text, maxLength)[0] == []
  {
    assert SplitIndex(text, maxLength) == 0;
    assert text[..0] == [];
  }

  /** The translation service: text, source language, target language;
      `None` where the call raises. */
  type Service = (string, string, string) -> Option<string>

  /** The service that answers every request with the text it was sent. */
  const Echo: Service := (t, s, g) => Some(t)

  /** One call per chunk, in order; the first failure ends the loop. */
  function TranslateAll(chunks: seq<string>, source: string, target: string, service: Service): (r: Option<seq<string>>)
    ensures r.Some? <==> forall k :: 0 <= k < |chunks| ==> service(chunks[k], source, target).Some?
    ensures r.Some? ==> |r.value| == |chunks|
    ensures r.Some? ==> forall k :: 0 <= k < |chunks| ==> Some(r.value[k]) == service(chunks[k], source, target)
  {
    if |chunks| == 0 then Some([])
    else
      var t := TranslateAll(chunks[1..], source, target, service);
      assert forall k :: 1 <= k < |chunks| ==> chunks[k] == chunks[1..][k - 1];
      match service(chunks[0], source, target)
      case None => None
      case Some(x) => if t.None? then None else Some([x] + t.value)
  }

  /** `translate_to_english(text, source_language_code)` */
  function ToEnglish(text: string, source: string, service: Service): (r: Option<string>)
    ensures source == English ==> r == Some(text)
    ensures source != English ==>
      var parts := TranslateAll(Chunks(text, CharLimit), source, English, service);
      (r.Some? <==> parts.Some?) && (r.Some? ==> r.value == Join(" ", parts.value))
  {
    if source == English then Some(text)
    else
      match TranslateAll(Chunks(text, CharLimit), source, English, service)
      case None => None
      case Some(parts) => Some(Join(" ", parts))
  }

  /** `translate_from_english(text, target_language_code)` */
  function FromEnglish(text: string, target: string, service: Service): (r: Option<string>)
    ensures target == English ==> r == Some(text)
    ensures target != English ==>
      var parts := TranslateAll(Chunks(text, CharLimit), English, target, service);
      (r.Some? <==> parts.Some?) && (r.Some? ==> r.value == Join(" ", parts.value))
  {
    if target == English then Some(text)
    else
      match TranslateAll(Chunks(text, CharLimit), English, target, service)
      case None => None
      case Some(parts) => Some(Join(" ", parts))
  }

  /** With a service that returns its input, translating a short, stripped
      text gives it back. */
  lemma IdentityServiceShortText(text: string, source: string)
    requires 0 < |text| <= CharLimit && Strip(text) == text
    ensures ToEnglish(text, source, Echo) == Some(text)
  {
    if source != English {
      StripEmptyIffBlank(text);
      ShortText(text, CharLimit);
      assert Chunks(text, CharLimit) == [text];
    }
  }

  /** Joining with spaces adds only whitespace to the concatenation. */
  lemma {:induction false} JoinKeepsNonSpace(parts: seq<string>)
    ensures NonSpace(Join(" ", parts)) == NonSpace(Concat(parts))
  {
    if |parts| == 1 {
      assert Concat(parts) == parts[0] + Concat([]);
      assert parts[0] + [] == parts[0];
    } else if |parts| > 1 {
      JoinKeepsNonSpace(parts[1..]);
      assert NonSpace(" ") == [];
      NonSpaceAppend(parts[0] + " ", Join(" ", parts[1..]));
      NonSpaceAppend(parts[0], " ");
      NonSpaceAppend(parts[0], Concat(parts[1..]));
      assert parts[0] + " " + Join(" ", parts[1..]) == Join(" ", parts);
    }
  }

  /** Echoed chunks come back unchanged. */
  lemma EchoKeepsChunks(chunks: seq<string>, source: string, target: string)
    ensures TranslateAll(chunks, source, target, Echo) == Some(chunks)
  {
    var r := TranslateAll(chunks, source, target, Echo);
    assert forall k :: 0 <= k < |chunks| ==> Echo(chunks[k], source, target).Some?;
    assert forall k :: 0 <= k < |chunks| ==> r.value[k] == chunks[k];
    assert r.value == chunks;
  }

  /** Chunking and re-joining with spaces keeps every non-whitespace
      character of the text, in order, for any source language. */
  lemma EchoToEnglishKeepsNonSpace(text: string, source: string)
    ensures ToEnglish(text, source, Echo).Some?
    ensures NonSpace(ToEnglish(text, source, Echo).value) == NonSpace(text)
  {
    if source != English {
      var chunks := Chunks(text, CharLimit);
      EchoKeepsChunks(chunks, source, English);
      JoinKeepsNonSpace(chunks);
      ChunksKeepNonSpace(text, CharLimit);
    }
  }

  /** The same for translation out of English. */
  lemma EchoFromEnglishKeepsNonSpace(text: string, target: string)
    ensures FromEnglish(text, target, Echo).Some?
    ensures NonSpace(FromEnglish(text, target, Echo).value) == NonSpace(text)
  {
    if target != English {
      var chunks := Chunks(text, CharLimit);
      EchoKeepsChunks(chunks, English, target);
      JoinKeepsNonSpace(chunks);
      ChunksKeepNonSpace(text, CharLimit);
    }
  }
}

=== FILE: utf8.dfy ===
/** UTF-8, as `str.encode("utf-8")` produces it before `urllib.parse.quote`
    escapes the bytes, and a decoder that undoes it. Characters are Unicode
    scalar values, so encoding never fails. */
module Utf8 {
  import opened Wrappers

  type Byte = b: int | 0 <= b < 256

  /** The one to four bytes of one character. */
  function EncodeChar(c: char): (bs: seq<Byte>)
    ensures 1 <= |bs| <= 4
    ensures (c as int < 0x80) <==> |bs| == 1
    ensures |bs| == 1 ==> bs[0] == c as int
  {
    var n := c as int;
    if n < 0x80 then [n]
    else if n < 0x800 then [0xC0 + n / 64, 0x80 + n % 64]
    else if n < 0x10000 then [0xE0 + n / 4096, 0x80 + (n / 64) % 64, 0x80 + n % 64]
    else [0xF0 + n / 262144, 0x80 + (n / 4096) % 64, 0x80 + (n / 64) % 64, 0x80 + n % 64]
  }

  /** `s.encode("utf-8")` */
  function Encode(s: string): seq<Byte> {
    if |s| == 0 then [] else EncodeChar(s[0]) + Encode(s[1..])
  }

  predicate IsCont(b: Byte) { 0x80 <= b < 0xC0 }

  /** The character with code point `n`, if `n` is a Unicode scalar value. */
  function Scalar(n: int): Option<char> {
    if 0 <= n < 0xD800 || 0xE000 <= n < 0x110000 then Some(n as char) else None
  }

  /** The character with code point `n`, if `n` is a scalar value that
      needs the sequence length whose smallest code point is `least`: an
      overlong form is refused, as Python's decoder refuses it. */
  function ShortestScalar(n: int, least: int): Option<char> {
    if n < least then None else Scalar(n)
  }

  /** The first character of `bs` and how many bytes it took. */
  function DecodeChar(bs: seq<Byte>): (r: Option<(char, nat)>)
    requires |bs| > 0
    ensures r.Some? ==> 1 <= r.value.1 <= |bs|
  {
    var b0: int := bs[0];
    var b1: int := if |bs| >= 2 then bs[1] else 0;
    var b2: int := if |bs| >= 3 then bs[2] else 0;
    var b3: int := if |bs| >= 4 then bs[3] else 0;
    if b0 < 0x80 then Some((b0 as char, 1))
    else if 0xC0 <= b0 < 0xE0 && |bs| >= 2 && IsCont(bs[1]) then
      match ShortestScalar((b0 - 0xC0) * 64 + (b1 - 0x80), 0x80)
      case Some(c) => Some((c, 2))
      case None => None
    else if 0xE0 <= b0 < 0xF0 && |bs| >= 3 && IsCont(bs[1]) && IsCont(bs[2]) then
      match ShortestScalar((b0 - 0xE0) * 4096 + (b1 - 0x80) * 64 + (b2 - 0x80), 0x800)
      case Some(c) => Some((c, 3))
      case None => None
    else if 0xF0 <= b0 < 0xF8 && |bs| >= 4 && IsCont(bs[1]) && IsCont(bs[2]) && IsCont(bs[3]) then
      match ShortestScalar((b0 - 0xF0) * 262144 + (b1 - 0x80) * 4096 + (b2 - 0x80) * 64 + (b3 - 0x80), 0x10000)
      case Some(c) => Some((c, 4))
      case None => None
    else None
  }

  /** `bs.decode("utf-8")`, or `None` where Python raises. */
  function Decode(bs: seq<Byte>): Option<string>
    decreases |bs|
  {
    if |bs| == 0 then Some([])
    else match DecodeChar(bs)
      case None => None
      case Some((c, k)) =>
        match Decode(bs[k..])
        case None => None
        case Some(rest) => Some([c] + rest)
  }

  lemma TwoByteSplit(n: int)
    requires 0x80 <= n < 0x800
    ensures (n / 64) * 64 + n % 64 == n
    ensures 2 <= n / 64 < 32
  {
  }

  lemma ThreeByteSplit(n: int)
    requires 0x800 <= n < 0x10000
    ensures (n / 4096) * 4096 + ((n / 64) % 64) * 64 + n % 64 == n
    ensures n / 4096 < 16
  {
    var q := n / 64;
    assert n == q * 64 + n % 64;
    assert q == (q / 64) * 64 + q % 64;
    assert n / 4096 == q / 64;
  }

  lemma FourByteSplit(n: int)
    requires 0x10000 <= n < 0x110000
    ensures (n / 262144) * 262144 + ((n / 4096) % 64) * 4096 + ((n / 64) % 64) * 64 + n % 64 == n
    ensures n / 262144 < 8
  {
    var q := n / 64;
    var q2 := q / 64;
    assert n == q * 64 + n % 64;
    assert q == q2 * 64 + q % 64;
    assert q2 == (q2 / 64) * 64 + q2 % 64;
    assert n / 4096 == q2;
    assert n / 262144 == q2 / 64;
  }

  /** Decoding reads back exactly the bytes of the first encoded character. */
  lemma DecodeEncodeChar(c: char, rest: seq<Byte>)
    ensures DecodeChar(EncodeChar(c) + rest) == Some((c, |EncodeChar(c)|))
  {
    var n := c as int;
    if 0x80 <= n < 0x800 {
      DecodeTwo(c, rest);
    } else if 0x800 <= n < 0x10000 {
      DecodeThree(c, rest);
    } else if 0x10000 <= n {
      DecodeFour(c, rest);
    }
  }

  lemma DecodeTwo(c: char, rest: seq<Byte>)
    requires 0x80 <= c as int < 0x800
    ensures DecodeChar(EncodeChar(c) + rest) == Some((c, 2))
  {
    var n := c as int;
    var bs := EncodeChar(c) + rest;
    TwoByteSplit(n);
    assert bs[0] == 0xC0 + n / 64 && bs[1] == 0x80 + n % 64;
    assert ShortestScalar(n, 0x80) == Some(c);
  }

  lemma DecodeThree(c: char, rest: seq<Byte>)
    requires 0x800 <= c as int < 0x10000
    ensures DecodeChar(EncodeChar(c) + rest) == Some((c, 3))
  {
    var n := c as int;
    var bs := EncodeChar(c) + rest;
    ThreeByteSplit(n);
    assert bs[0] == 0xE0 + n / 4096 && bs[1] == 0x80 + (n / 64) % 64 && bs[2] == 0x80 + n % 64;
    assert ShortestScalar(n, 0x800) == Some(c);
  }

  lemma DecodeFour(c: char, rest: seq<Byte>)
    requires 0x10000 <= c as int
    ensures DecodeChar(EncodeChar(c) + rest) == Some((c, 4))
  {
    var n := c as int;
    var bs := EncodeChar(c) + rest;
    FourByteSplit(n);
    assert bs[0] == 0xF0 + n / 262144;
    assert bs[1] == 0x80 + (n / 4096) % 64 && bs[2] == 0x80 + (n / 64) % 64 && bs[3] == 0x80 + n % 64;
    assert ShortestScalar(n, 0x10000) == Some(c);
  }

  /** The overlong two-byte form of NUL is refused. */
  lemma OverlongRefused()
    ensures Decode([0xC0, 0x80]) == None
  {
    assert DecodeChar([0xC0, 0x80]) == None;
  }

  /** UTF-8 decoding undoes UTF-8 encoding. */
  lemma {:induction false} DecodeEncode(s: string)
    ensures Decode(Encode(s)) == Some(s)
  {
    if |s| > 0 {
      var e := EncodeChar(s[0]);
      var bs := Encode(s);
      assert bs == e + Encode(s[1..]);
      DecodeEncodeChar(s[0], Encode(s[1..]));
      assert bs[|e|..] == Encode(s[1..]);
      DecodeEncode(s[1..]);
      assert s == [s[0]] + s[1..];
    }
  }

  lemma {:induction false} EncodeAppend(a: string, b: string)
    ensures Encode(a + b) == Encode(a) + Encode(b)
  {
    if |a| == 0 {
      assert a + b == b;
    } else {
      assert (a + b)[1..] == a[1..] + b;
      assert (a + b)[0] == a[0];
      EncodeAppend(a[1..], b);
    }
  }
}

=== FILE: voice.dfy ===
/** The voice assistant (`sarvam/app.py`): the pipeline's fallbacks, the
    one-shot store of synthesised audio, and the data-URI parse that serves
    it. Speech recognition, language identification, translation, the
    language model and speech synthesis are parameters. */
module Voice {
  import opened Wrappers
  import opened Text
  import opened Translate

  // ---- The audio store ----

  /** `temp_audio_store`: a dict from audio id to data URI, in insertion
      order. */
  type Store = seq<(string, string)>

  const MaxStored: nat := 100

  predicate Stored(s: Store, id: string) {
    exists k :: 0 <= k < |s| && s[k].0 == id
  }

  predicate UniqueIds(s: Store) {
    forall j, k :: 0 <= j < k < |s| ==> s[j].0 != s[k].0
  }

  /** What every store the server builds satisfies: a dict has one entry
      per key, and the store never holds more than 100. */
  predicate StoreInvariant(s: Store) {
    UniqueIds(s) && |s| <= MaxStored
  }

  function Lookup(s: Store, id: string): (r: Option<string>)
    ensures r.Some? <==> Stored(s, id)
    ensures r.Some? ==> exists k :: 0 <= k < |s| && s[k] == (id, r.value)
  {
    if |s| == 0 then None
    else if s[0].0 == id then Some(s[0].1)
    else
      var r := Lookup(s[1..], id);
      assert forall k :: 1 <= k < |s| ==> s[k] == s[1..][k - 1];
      assert Stored(s[1..], id) ==> Stored(s, id) by {
        if Stored(s[1..], id) {
          var k :| 0 <= k < |s[1..]| && s[1..][k].0 == id;
          assert s[k + 1].0 == id;
        }
      }
      r
  }

  /** `store[id] = uri`: an existing id keeps its place, a new one goes to
      the end. */
  function Put(s: Store, id: string, uri: string): (r: Store)
    ensures Stored(s, id) ==> |r| == |s|
    ensures !Stored(s, id) ==> r == s + [(id, uri)]
  {
    if |s| == 0 then [(id, uri)]
    else
      assert forall k :: 1 <= k < |s| ==> s[k] == s[1..][k - 1];
      StoredCons(s[0], s[1..]);
      assert s == [s[0]] + s[1..];
      if s[0].0 == id then [(id, uri)] + s[1..]
      else [s[0]] + Put(s[1..], id, uri)
  }

  /** After `store[id] = uri` the id finds `uri`, every other id finds what
      it found before, and exactly one id may have been added. */
  lemma {:induction false} PutLookup(s: Store, id: string, uri: string)
    ensures Lookup(Put(s, id, uri), id) == Some(uri)
    ensures forall other :: other != id ==> Lookup(Put(s, id, uri), other) == Lookup(s, other)
    ensures forall other :: Stored(Put(s, id, uri), other) <==> Stored(s, other) || other == id
  {
    if |s| > 0 {
      var r := Put(s, id, uri);
      assert s == [s[0]] + s[1..];
      StoredCons(s[0], s[1..]);
      if s[0].0 == id {
        StoredCons((id, uri), s[1..]);
        assert r[1..] == s[1..];
      } else {
        var t := Put(s[1..], id, uri);
        PutLookup(s[1..], id, uri);
        StoredCons(s[0], t);
        assert r[1..] == t;
      }
    }
  }

  lemma StoredCons(x: (string, string), rest: Store)
    ensures forall other :: Stored([x] + rest, other) <==> x.0 == other || Stored(rest, other)
  {
    var s := [x] + rest;
    assert forall k :: 0 <= k < |rest| ==> s[k + 1] == rest[k];
    forall other | Stored(s, other) && x.0 != other ensures Stored(rest, other) {
      var k :| 0 <= k < |s| && s[k].0 == other;
      assert rest[k - 1].0 == other;
    }
    forall other | Stored(rest, other) ensures Stored(s, other) {
      var k :| 0 <= k < |rest| && rest[k].0 == other;
      assert s[k + 1].0 == other;
    }
    assert s[0] == x;
  }

  /** Storing a new data URI, then dropping the oldest entry once the store
      holds more than 100. */
  function Insert(s: Store, id: string, uri: string): (r: Store)
    ensures |s| <= MaxStored ==> |r| <= MaxStored
    ensures var p := Put(s, id, uri); |p| > MaxStored ==> r == p[1..]
    ensures var p := Put(s, id, uri); |p| <= MaxStored ==> r == p
  {
    var p := Put(s, id, uri);
    if |p| > MaxStored then p[1..] else p
  }

  /** A fresh id in a store within its bound: the new entry is kept, the
      oldest entry goes exactly when the store was full, and the rest stay
      in order. */
  lemma InsertFresh(s: Store, id: string, uri: string)
    requires !Stored(s, id) && |s| <= MaxStored
    ensures |s| < MaxStored ==> Insert(s, id, uri) == s + [(id, uri)]
    ensures |s| == MaxStored ==> Insert(s, id, uri) == s[1..] + [(id, uri)]
    ensures Lookup(Insert(s, id, uri), id) == Some(uri)
  {
    var r := Insert(s, id, uri);
    if |s| == MaxStored {
      assert (s + [(id, uri)])[1..] == s[1..] + [(id, uri)];
    }
    assert r[|r| - 1] == (id, uri);
    LookupLast(r, id, uri);
  }

  lemma {:induction false} LookupLast(s: Store, id: string, uri: string)
    requires |s| > 0 && s[|s| - 1] == (id, uri)
    requires forall k :: 0 <= k < |s| - 1 ==> s[k].0 != id
    ensures Lookup(s, id) == Some(uri)
  {
    if |s| > 1 {
      assert forall k :: 0 <= k < |s[1..]| - 1 ==> s[1..][k] == s[k + 1];
      LookupLast(s[1..], id, uri);
    }
  }

  /** `store.pop(id, None)` */
  function Pop(s: Store, id: string): (r: (Option<string>, Store))
    ensures r.0 == Lookup(s, id)
    ensures forall other :: Stored(r.1, other) ==> Stored(s, other)
    ensures forall other :: other != id ==> Lookup(r.1, other) == Lookup(s, other)
    ensures r.0.None? ==> r.1 == s
    ensures r.0.Some? ==> |r.1| == |s| - 1
  {
    if |s| == 0 then (None, s)
    else
      StoredCons(s[0], s[1..]);
      assert s == [s[0]] + s[1..];
      if s[0].0 == id then (Some(s[0].1), s[1..])
      else
        var t := Pop(s[1..], id);
        StoredCons(s[0], t.1);
        (t.0, [s[0]] + t.1)
  }

  /** In a store whose ids are distinct, popping removes the id and keeps
      the ids distinct. */
  lemma {:induction false} PopRemoves(s: Store, id: string)
    requires UniqueIds(s)
    ensures !Stored(Pop(s, id).1, id) && UniqueIds(Pop(s, id).1)
  {
    if |s| > 0 {
      assert forall k :: 0 <= k < |s[1..]| ==> s[1..][k] == s[k + 1];
      if s[0].0 != id {
        PopRemoves(s[1..], id);
        var t := Pop(s[1..], id).1;
        var rest := Pop(s, id).1;
        assert rest == [s[0]] + t;
        StoredCons(s[0], t);
        StoredCons(s[0], s[1..]);
        assert !Stored(s[1..], s[0].0);
        assert forall k :: 0 <= k < |t| ==> rest[k + 1] == t[k];
        forall j, k | 0 <= j < k < |rest| ensures rest[j].0 != rest[k].0 {
          if j == 0 {
            assert t[k - 1].0 == rest[k].0;
          }
        }
      }
    }
  }

  /** Serving an id removes it: asking again finds nothing. */
  lemma PopTwice(s: Store, id: string)
    requires UniqueIds(s)
    ensures Pop(Pop(s, id).1, id).0 == None
  {
    PopRemoves(s, id);
  }

  /** A store with distinct ids extends by an entry with a new id, and only
      by such an entry. */
  lemma UniqueCons(x: (string, string), rest: Store)
    ensures UniqueIds([x] + rest) <==> !Stored(rest, x.0) && UniqueIds(rest)
  {
    var s := [x] + rest;
    assert forall k :: 0 <= k < |rest| ==> s[k + 1] == rest[k];
    if UniqueIds(s) {
      forall k | 0 <= k < |rest| ensures rest[k].0 != x.0 {
        assert s[0].0 != s[k + 1].0;
      }
      forall j, k | 0 <= j < k < |rest| ensures rest[j].0 != rest[k].0 {
        assert s[j + 1].0 != s[k + 1].0;
      }
    }
    if !Stored(rest, x.0) && UniqueIds(rest) {
      forall j, k | 0 <= j < k < |s| ensures s[j].0 != s[k].0 {
        if j == 0 {
          assert s[k].0 == rest[k - 1].0;
        }
      }
    }
  }

  /** `store[id] = uri` keeps one entry per id, for any id. */
  lemma {:induction false} PutKeepsUnique(s: Store, id: string, uri: string)
    requires UniqueIds(s)
    ensures UniqueIds(Put(s, id, uri))
  {
    if |s| > 0 {
      assert s == [s[0]] + s[1..];
      UniqueCons(s[0], s[1..]);
      if s[0].0 == id {
        UniqueCons((id, uri), s[1..]);
      } else {
        PutKeepsUnique(s[1..], id, uri);
        PutLookup(s[1..], id, uri);
        UniqueCons(s[0], Put(s[1..], id, uri));
      }
    }
  }

  lemma DropOldestKeepsUnique(s: Store)
    requires UniqueIds(s) && |s| > 0
    ensures UniqueIds(s[1..])
  {
    assert forall k :: 0 <= k < |s| - 1 ==> s[1..][k] == s[k + 1];
  }

  /** Storing synthesised speech keeps the store a bounded dict, for any id. */
  lemma InsertKeepsInvariant(s: Store, id: string, uri: string)
    requires StoreInvariant(s)
    ensures StoreInvariant(Insert(s, id, uri))
  {
    PutKeepsUnique(s, id, uri);
    var p := Put(s, id, uri);
    if |p| > MaxStored {
      DropOldestKeepsUnique(p);
    }
  }

  /** Popping keeps the store a bounded dict, and removes one entry when the
      id was there. */
  lemma PopKeepsInvariant(s: Store, id: string)
    requires StoreInvariant(s)
    ensures StoreInvariant(Pop(s, id).1)
    ensures Stored(s, id) ==> |Pop(s, id).1| == |s| - 1
  {
    PopRemoves(s, id);
  }

  /** The empty store the server starts with satisfies the invariant. */
  lemma EmptyStoreInvariant()
    ensures StoreInvariant([])
  {
  }

  // ---- Serving stored audio ----

  const WavPrefix: string := "data:audio/wav;base64,"

  /** The header of a data URI, `header.split(':')[1].split(';')[0]`;
      `None` where the indexing raises. */
  function MimeType(header: string): (r: Option<string>)
    ensures r.Some? ==> ';' !in r.value
  {
    var parts := Split(header, ':');
    if |parts| < 2 then None
    else
      var t := Split(parts[1], ';')[0];
      SplitFirstExcludes(parts[1], ';');
      Some(t)
  }

  lemma SplitFirstExcludes(s: string, c: char)
    ensures c !in Split(s, c)[0]
  {
    match FindChar(s, c)
    case None =>
    case Some(i) =>
      assert Split(s, c)[0] == s[..i];
  }

  /** `header, data = uri.split(',', 1)` and the mimetype; `None` where it
      raises. */
  function ParseDataUri(uri: string): (r: Option<(string, string)>)
    ensures r.Some? ==> exists header :: uri == header + "," + r.value.1 && ',' !in header
  {
    match SplitOnce(uri, ',')
    case None => None
    case Some((header, data)) =>
      assert forall j :: 0 <= j < |header| ==> header[j] != ',';
      match MimeType(header)
      case None => None
      case Some(m) => Some((m, data))
  }

  /** What the audio route serves. */
  datatype AudioReply = Audio(mimeType: string, bytes: seq<bv8>) | ProcessingError | NotFound

  /** `get_audio_route(id)`; `decode` is base64 decoding, `None` where it
      raises. The entry is removed whatever happens next. */
  function GetAudio(s: Store, id: string, decode: string -> Option<seq<bv8>>): (r: (AudioReply, Store))
    ensures r.1 == Pop(s, id).1
    ensures r.0 == NotFound <==> Lookup(s, id).None? || Lookup(s, id) == Some("")
    ensures r.0.Audio? ==> Lookup(s, id).Some? && ParseDataUri(Lookup(s, id).value).Some?
    ensures r.0.Audio? ==> var p := ParseDataUri(Lookup(s, id).value).value;
      p.0 == r.0.mimeType && decode(p.1) == Some(r.0.bytes)
    ensures Lookup(s, id).Some? && Lookup(s, id).value != "" ==>
      var parsed := ParseDataUri(Lookup(s, id).value);
      && (parsed.Some? && decode(parsed.value.1).Some? ==> r.0 == Audio(parsed.value.0, decode(parsed.value.1).value))
      && (parsed.None? || decode(parsed.value.1).None? ==> r.0 == ProcessingError)
  {
    var (uri, rest) := Pop(s, id);
    match uri
    case None => (NotFound, rest)
    case Some(u) =>
      if u == "" then (NotFound, rest)
      else match ParseDataUri(u)
        case None => (ProcessingError, rest)
        case Some((m, data)) =>
          match decode(data)
          case None => (ProcessingError, rest)
          case Some(bytes) => (Audio(m, bytes), rest)
  }

  /** Splitting at the first occurrence of the separator. */
  lemma FindFirst(a: string, b: string, c: char)
    requires c !in a
    ensures FindChar(a + [c] + b, c) == Some(|a|)
  {
    var s := a + [c] + b;
    assert s[|a|] == c;
    assert forall j :: 0 <= j < |a| ==> s[j] == a[j];
  }

  lemma SplitOnceAt(a: string, b: string, c: char)
    requires c !in a
    ensures SplitOnce(a + [c] + b, c) == Some((a, b))
  {
    var s := a + [c] + b;
    FindFirst(a, b, c);
    assert s[..|a|] == a && s[|a| + 1..] == b;
  }

  lemma SplitAt(a: string, b: string, c: char)
    requires c !in a
    ensures Split(a + [c] + b, c) == [a] + Split(b, c)
  {
    var s := a + [c] + b;
    FindFirst(a, b, c);
    assert s[..|a|] == a && s[|a| + 1..] == b;
  }

  lemma SplitAbsent(s: string, c: char)
    requires c !in s
    ensures Split(s, c) == [s]
  {
    assert forall j :: 0 <= j < |s| ==> s[j] != c;
  }

  const WavHeader: string := "data:audio/wav;base64"

  /** `scheme:mime;params` has the mimetype `mime`. */
  lemma MimeTypeOf(scheme: string, mime: string, params: string)
    requires ':' !in scheme && ':' !in mime && ';' !in mime && ':' !in params
    ensures MimeType(scheme + [':'] + (mime + [';'] + params)) == Some(mime)
  {
    var rest := mime + [';'] + params;
    assert ':' !in rest by {
      assert forall j :: 0 <= j < |rest| ==> rest[j] != ':';
    }
    SplitAt(scheme, rest, ':');
    SplitAbsent(rest, ':');
    SplitAt(mime, params, ';');
  }

  lemma WavHeaderMimeType()
    ensures MimeType(WavHeader) == Some("audio/wav")
  {
    var scheme, mime, params := "data", "audio/wav", "base64";
    assert WavHeader == scheme + [':'] + (mime + [';'] + params);
    assert ':' !in scheme && ':' !in params && ':' !in mime && ';' !in mime by {
      assert forall j :: 0 <= j < |scheme| ==> scheme[j] != ':';
      assert forall j :: 0 <= j < |mime| ==> mime[j] != ':' && mime[j] != ';';
      assert forall j :: 0 <= j < |params| ==> params[j] != ':';
    }
    MimeTypeOf(scheme, mime, params);
  }

  /** The URIs the pipeline stores parse back to a WAV mimetype and the
      payload. */
  lemma WavUriRoundTrip(b: string)
    ensures ParseDataUri(WavPrefix + b) == Some(("audio/wav", b))
  {
    var header := WavHeader;
    assert WavPrefix == header + [','];
    assert WavPrefix + b == header + [','] + b;
    assert ',' !in header by {
      assert forall j :: 0 <= j < |header| ==> header[j] != ',';
    }
    SplitOnceAt(header, b, ',');
    WavHeaderMimeType();
  }

  // ---- The pipeline ----

  /** `LANGUAGE_NAMES` */
  const LanguageNames: map<string, string> := map[
    "hi-IN" := "Hindi", "bn-IN" := "Bengali", "ta-IN" := "Tamil", "te-IN" := "Telugu",
    "mr-IN" := "Marathi", "gu-IN" := "Gujarati", "kn-IN" := "Kannada", "ml-IN" := "Malayalam",
    "pa-IN" := "Punjabi", "od-IN" := "Odia", "en-IN" := "English", "as-IN" := "Assamese",
    "ur-IN" := "Urdu", "ne-IN" := "Nepali", "sd-IN" := "Sindhi", "kok-IN" := "Konkani",
    "doi-IN" := "Dogri", "brx-IN" := "Bodo", "mai-IN" := "Maithili", "mni-IN" := "Manipuri",
    "sa-IN" := "Sanskrit", "sat-IN" := "Santali", "ks-IN" := "Kashmiri"]

  const DefaultLanguage: string := "hi-IN"
  const DefaultScript: string := "Deva"

  /** `LANGUAGE_NAMES.get(code, code)` */
  function LanguageName(code: string): (r: string)
    ensures code in LanguageNames ==> r == LanguageNames[code]
    ensures code !in LanguageNames ==> r == code
  {
    if code in LanguageNames then LanguageNames[code] else code
  }

  /** Known codes get their name. */
  lemma LanguageNameExamples()
    ensures LanguageName("en-IN") == "English"
    ensures LanguageName("kok-IN") == "Konkani"
  {
  }

  /** Only Hindi's code is named "Hindi": an unknown code is reported as
      itself, and no other known code shares the name. */
  lemma LanguageNameHindi(code: string)
    ensures LanguageName(code) == "Hindi" <==> code == DefaultLanguage || code == "Hindi"
  {
    if code in LanguageNames && code != DefaultLanguage {
      assert LanguageNames[code] != "Hindi";
    }
  }

  /** What language identification answers: the language and script
      fields, each possibly missing. */
  datatype LidReply = LidReply(languageCode: Option<string>, scriptCode: Option<string>)

  /** The language and script used for the rest of the pipeline; `None`
      for `lid` is a failed call. */
  function Language(lid: Option<LidReply>): (r: (string, string))
    ensures lid.None? ==> r == (DefaultLanguage, DefaultScript)
    ensures lid.Some? ==> r.0 == lid.value.languageCode.GetOr(DefaultLanguage)
    ensures lid.Some? ==> r.1 == lid.value.scriptCode.GetOr(DefaultScript)
  {
    match lid
    case None => (DefaultLanguage, DefaultScript)
    case Some(reply) => (reply.languageCode.GetOr(DefaultLanguage), reply.scriptCode.GetOr(DefaultScript))
  }

  /** The result fields of a completed run. */
  datatype Outcome = Outcome(
    transcript: string,
    languageCode: string,
    languageName: string,
    scriptCode: string,
    englishTranslation: string,
    llmResponse: string,
    translatedResponse: string,
    audioId: Option<string>)

  datatype ProcessError = NoTranscript | PipelineFailed

  /** The external services of one run. `None` from a service is a call
      that raises; `freshId` is the new uuid. */
  datatype Services = Services(
    transcribe: Option<string>,
    identify: Option<LidReply>,
    translate: Service,
    complete: string -> Option<string>,
    speak: (string, string) -> Option<string>,
    freshId: string)

  /** `process_audio` after the file check. */
  function Process(store: Store, sv: Services): (r: (Result<Outcome, ProcessError>, Store))
    ensures r.0 == Err(NoTranscript) <==> sv.transcribe == Some("")
    ensures sv.transcribe.None? ==> r.0 == Err(PipelineFailed)
    ensures sv.transcribe.Some? && sv.transcribe.value != "" ==>
      var transcript := sv.transcribe.value;
      var lang := Language(sv.identify).0;
      var english := ToEnglish(transcript, lang, sv.translate).GetOr(transcript);
      (r.0.Ok? <==>
        && sv.complete(english).Some?
        && sv.speak(FromEnglish(sv.complete(english).value, lang, sv.translate).GetOr(sv.complete(english).value), lang).Some?)
    ensures r.0.Ok? ==> sv.transcribe.Some? && r.0.value.transcript == sv.transcribe.value != ""
    ensures r.0.Ok? ==>
      var (lang, script) := Language(sv.identify);
      && r.0.value.languageCode == lang && r.0.value.scriptCode == script
      && r.0.value.languageName == LanguageName(lang)
      && r.0.value.englishTranslation == ToEnglish(r.0.value.transcript, lang, sv.translate).GetOr(r.0.value.transcript)
      && sv.complete(r.0.value.englishTranslation) == Some(r.0.value.llmResponse)
      && r.0.value.translatedResponse == FromEnglish(r.0.value.llmResponse, lang, sv.translate).GetOr(r.0.value.llmResponse)
    ensures r.0.Ok? ==>
      var audio := sv.speak(r.0.value.translatedResponse, r.0.value.languageCode);
      && audio.Some?
      && (r.0.value.audioId.Some? <==> audio.value != "")
      && (r.0.value.audioId.Some? ==>
            r.0.value.audioId == Some(sv.freshId) && r.1 == Insert(store, sv.freshId, WavPrefix + audio.value))
      && (r.0.value.audioId.None? ==> r.1 == store)
    ensures r.0.Err? ==> r.1 == store
  {
    match sv.transcribe
    case None => (Err(PipelineFailed), store)
    case Some(transcript) =>
      if transcript == "" then (Err(NoTranscript), store)
      else
        var (lang, script) := Language(sv.identify);
        var english := ToEnglish(transcript, lang, sv.translate).GetOr(transcript);
        match sv.complete(english)
        case None => (Err(PipelineFailed), store)
        case Some(response) =>
          var translated := FromEnglish(response, lang, sv.translate).GetOr(response);
          match sv.speak(translated, lang)
          case None => (Err(PipelineFailed), store)
          case Some(audio) =>
            var outcome := Outcome(transcript, lang, LanguageName(lang), script, english, response, translated, None);
            if audio == "" then (Ok(outcome), store)
            else (Ok(outcome.(audioId := Some(sv.freshId))), Insert(store, sv.freshId, WavPrefix + audio))
  }

  /** When language identification fails, or answers without a language,
      the run carries on in Hindi; a failed call also falls back to the
      Devanagari script. */
  lemma LidFailureMeansHindi(store: Store, sv: Services)
    requires Process(store, sv).0.Ok?
    requires sv.identify.None? || sv.identify.value.languageCode.None?
    ensures var o := Process(store, sv).0.value;
      o.languageCode == DefaultLanguage && o.languageName == "Hindi"
    ensures sv.identify.None? ==> Process(store, sv).0.value.scriptCode == DefaultScript
  {
    LanguageNameHindi(DefaultLanguage);
  }

  /** A stored, parseable data URI is served with its media type and its
      decoded payload, and fails only when the payload does not decode; it
      is never reported missing. */
  lemma FetchStored(s: Store, id: string, uri: string, mime: string, data: string, decode: string -> Option<seq<bv8>>)
    requires Lookup(s, id) == Some(uri) && uri != "" && ParseDataUri(uri) == Some((mime, data))
    ensures decode(data).Some? ==> GetAudio(s, id, decode).0 == Audio(mime, decode(data).value)
    ensures decode(data).None? ==> GetAudio(s, id, decode).0 == ProcessingError
  {
  }

  /** Freshly inserted speech can be fetched, as WAV. */
  lemma FetchInserted(store: Store, id: string, audio: string, decode: string -> Option<seq<bv8>>)
    requires |store| <= MaxStored && !Stored(store, id) && audio != ""
    ensures var (reply, _) := GetAudio(Insert(store, id, WavPrefix + audio), id, decode);
      decode(audio).Some? ==> reply == Audio("audio/wav", decode(audio).value)
    ensures var (reply, _) := GetAudio(Insert(store, id, WavPrefix + audio), id, decode);
      decode(audio).None? ==> reply == ProcessingError
  {
    InsertFresh(store, id, WavPrefix + audio);
    WavUriRoundTrip(audio);
    assert WavPrefix + audio != "";
    FetchStored(Insert(store, id, WavPrefix + audio), id, WavPrefix + audio, "audio/wav", audio, decode);
  }

  /** Audio produced by a run is served as WAV holding the decoded speech,
      unless the speech service's base64 does not decode. */
  lemma ProcessThenFetch(store: Store, sv: Services, decode: string -> Option<seq<bv8>>)
    requires |store| <= MaxStored && !Stored(store, sv.freshId)
    requires Process(store, sv).0.Ok? && Process(store, sv).0.value.audioId.Some?
    ensures var o := Process(store, sv).0.value;
      var audio := sv.speak(o.translatedResponse, o.languageCode).value;
      var (reply, _) := GetAudio(Process(store, sv).1, sv.freshId, decode);
      && (decode(audio).Some? ==> reply == Audio("audio/wav", decode(audio).value))
      && (decode(audio).None? ==> reply == ProcessingError)
  {
    var o := Process(store, sv).0.value;
    var audio := sv.speak(o.translatedResponse, o.languageCode).value;
    assert Process(store, sv).1 == Insert(store, sv.freshId, WavPrefix + audio);
    FetchInserted(store, sv.freshId, audio, decode);
  }

  /** Fetching audio keeps the store a bounded dict. */
  lemma GetAudioKeepsInvariant(s: Store, id: string, decode: string -> Option<seq<bv8>>)
    requires StoreInvariant(s)
    ensures StoreInvariant(GetAudio(s, id, decode).1)
  {
    PopKeepsInvariant(s, id);
  }

  /** Processing a request keeps the store a bounded dict, whatever id the
      server draws. */
  lemma ProcessKeepsInvariant(store: Store, sv: Services)
    requires StoreInvariant(store)
    ensures StoreInvariant(Process(store, sv).1)
  {
    var r := Process(store, sv);
    if r.0.Ok? && r.0.value.audioId.Some? {
      var audio := sv.speak(r.0.value.translatedResponse, r.0.value.languageCode).value;
      InsertKeepsInvariant(store, sv.freshId, WavPrefix + audio);
    }
  }

  /** `GET /get_audio/<id>` twice on a store the server built: the second
      request is a 404. */
  lemma GetAudioTwice(s: Store, id: string, decode: string -> Option<seq<bv8>>)
    requires StoreInvariant(s)
    ensures GetAudio(GetAudio(s, id, decode).1, id, decode).0 == NotFound
  {
    PopTwice(s, id);
  }
}

=== FILE: wrappers.dfy ===
/** Option and Result: the model's stand-ins for Python's `None` and for
    error returns and exceptions. */
module Wrappers {

  datatype Option<+T> = None | Some(value: T) {

    /** The wrapped value, or `default` when there is none. */
    function GetOr(default: T): T {
      match this
      case Some(v) => v
      case None => default
    }
  }

  /** Either a value or an error; the error carries why an operation refused. */
  datatype Result<+T, +E> = Ok(value: T) | Err(error: E)
}
